=== FILE: README.md ===
# FileBridge transfer engine in Dafny

This project models the tree-mirroring core of FileBridge's `SftpService`. That core covers:

- connecting to an SFTP server;
- copying a directory tree from the server to the local disk (`copyFromSftp`) or from the local disk to the server (`copyToSftp`);
- checking every file against a SHA-256 or MD5 digest as it goes;
- deleting the source tree afterwards when the `deleteSource` setting says "yes".

The model also covers the helpers the core is built from:

- the remote path join (`combineRemotePaths`);
- the lowercase hex encoder of digests (`bytesToHex`);
- the digest-algorithm selector (`getDigest` and `calculateHash`);
- the prefix-by-prefix remote `mkdirs`;
- the chunked copy loops;
- the recursive remote delete;
- `SftpConfig.shouldDeleteSource`.

Both ends are modelled as a tree, a map from a location (the list of names from the root) to `Dir` or `File(bytes)`:

- **The server** is `Sftp.Channel`. Its `mkdir`, `ls`, `get`, `put`, `write`, `rm` and `rmdir` answer with SSH File Transfer Protocol status codes, as in section 7 of draft-ietf-secsh-filexfer-02. A map of injected refusals can make any request on any location answer with a chosen error status. A `tamper` function can make the server store something other than what it was sent.
- **The local disk** is `LocalDisk.Disk`. It models the effect of the `java.io.File` and commons-io calls, and any of them can be made to fail at any location.

Remote paths are strings. The server resolves them to a location by their non-empty '/'-components, where "." stays and ".." goes up.

The service is `Transfer.SftpService`, a class holding four things:

- the settings;
- the digest function;
- the server;
- the local disk.

Like the Java, its transfer methods take the channel as a parameter.

The main results:

- **Download copy.** A successful download leaves the local directory a copy of the remote one: every directory is a directory at the same place, and every file is a file holding the same bytes (`Mirrors`).
- **Upload copy.** A successful upload leaves such a copy on the server under two conditions. The server must be faithful: it stores what it is sent, and it answers SSH_FX_FAILURE to `mkdir` only where something already exists. And before the upload, the server must have no file where the source has a directory (`NoFileForDir`).
- **Directory verdict.** A directory walk answers true exactly when its set-up succeeds and every entry's own verdict holds (`Verdicts.FetchDirSucceeds`, `Verdicts.PushDirSucceeds`). Each entry is judged on the trees as the set-up left them: what its siblings did, before or after it, changes nothing about it. So a failing entry neither stops nor affects the others.
- **Fault-free walks succeed.** With no injected fault and a supported algorithm, a directory walk answers true when its trees allow it:
  - a download needs a remote source directory, no local file at the target or on the way down to it, and nothing inside the target (`Verdicts.FetchDirFaultFree`);
  - an upload needs an existing local source directory, nothing at the remote target, a directory as the target's parent, and every proper prefix of the target already present, so that `mkdirs` comes down to one `mkdir` (`Verdicts.PushDirFaultFree`).
- **File verdict.** A file's verdict is an explicit condition on the trees and the injected faults.
- **Chunking.** Reads return any number of bytes from 1 to 8192, and no result depends on how many.
- **`mkdirs`** sends its requests in order on absolute prefixes, and it is idempotent.
- **Remote delete.** A successful remote delete leaves nothing at or inside the directory. A refused `rm` of one of its files stops the loop there and makes the delete fail. On a server that refuses nothing, the delete of an existing directory other than the root succeeds.
- **Hex encoding.** The encoding is two lowercase digits per byte, and it decodes back to the digest.

## Behaviour of the code worth knowing

The model follows the code in each case below, where the code does something other than one would expect.

- **Joining again with "" is not a no-op.** An empty addition leaves a trailing '/', so joining a join's result again with "" changes the string (`RemotePaths.CombineAgainWithEmpty`). The resolved location is the same either way.
- **`mkdirs` treats every SSH_FX_FAILURE as "already exists".** SFTP version 3 has no separate "already exists" code, and the code swallows every SSH_FX_FAILURE, whatever its cause. A server also answers FAILURE when a file, not a directory, is already at the location. So an empty local directory uploaded where the server has a file answers true and leaves the file in place, even on a server that refuses nothing (`Verdicts.EmptyDirOntoFile`). A non-empty one fails, because the uploads inside it find no directory. For these reasons the upload's copy guarantee needs a server whose `mkdir` FAILURE comes only from an existing location (`Sftp.Channel.Faithful`), and no file on the server where the source has a directory (`FileSystem.NoFileForDir`).
- **Deleting the local root empties the disk and answers false.** The local base path "/" with the directory "", or "/data" with "..", names the root (`Transfer.LocalRootReached`). commons-io's `deleteDirectory` deletes everything inside a directory before it deletes the directory itself, and the root cannot be deleted. So a successful `copyToSftp` of the root with deletion enabled leaves the local disk empty (`LocalDisk.RootDeleteEmpties`), and `deleteLocalDirectory`'s false is ignored.
- **A failed local deletion is partial.** commons-io (before version 2.9) carries on past a deletion that fails, so everything else inside the directory goes. Only the failing locations and the directories above them stay (`LocalDisk.AfterDelete`).
- **A failed delete inside a subdirectory is not propagated.** An exception from `rm` or `rmdir` ends that level, but a recursive call's `false` is ignored (`Transfer.SftpService.DeleteEntry`: a directory entry always counts as done). The final verdict is still sound: anything left behind keeps the parent non-empty, so the parent's `rmdir` fails (`Transfer.SftpService.DeleteRemoteDirectory`: success means nothing is left).
- **The upload verdict does not check what the server stored.** For an upload, the code compares the digest of the bytes read for sending with the digest of the local file read again. Both come from the local side, so the verdict does not depend on what the server stored. `Verdicts.UploadSucceeds` does not mention `tamper`.
- **An unsupported algorithm fails each file, not the start-up.** `getDigest` throws inside each file copy, so every file fails; nothing is checked before the walk starts. By then the target file has already been created or emptied, by `openOutputStream` on a download and by `put` on an upload, so each failing file leaves an empty file behind. A refused first write does the same (`Transfer.SftpService.CopyFileFrom`, `Transfer.SftpService.CopyFileTo`).

## Model

| member | source | states |
|---|---|---|
| RemotePaths.CombineRemotePaths | src/main/java/com/scb/filebridge/service/SftpService.java:246-249 | the joined path is non-empty, has no "//", keeps every non-'/' character of `base + addition` in order, and names exactly the components of `base` followed by those of `addition` |
| RemotePaths.CollapseNormalises | src/main/java/com/scb/filebridge/service/SftpService.java:248 | collapsing every run of '/' leaves no "//" and keeps every other character in order |
| RemotePaths.CombineExampleTrailing | src/main/java/com/scb/filebridge/service/SftpService.java:246-249 | ("/a/b/", "/c") joins to "/a/b/c" |
| RemotePaths.CombineExamplePlain | src/main/java/com/scb/filebridge/service/SftpService.java:246-249 | ("/a/b", "c") joins to "/a/b/c" |
| RemotePaths.CombineExampleRuns | src/main/java/com/scb/filebridge/service/SftpService.java:246-249 | ("/a/b//", "//c") joins to "/a/b/c" |
| RemotePaths.CombineEmptyEndsWithSlash | src/main/java/com/scb/filebridge/service/SftpService.java:246-249 | joining with an empty addition leaves a trailing '/' |
| RemotePaths.CombineAgainWithEmpty | src/main/java/com/scb/filebridge/service/SftpService.java:246-249 | when a join ends in a character other than '/', joining its result again with "" changes it |
| RemotePaths.CombineChild | src/main/java/com/scb/filebridge/service/SftpService.java:123 | the path of a listed entry names the directory's components followed by the entry's name |
| RemotePaths.LocateChild | src/main/java/com/scb/filebridge/service/SftpService.java:123 | the server resolves the entry's path to the directory's location plus the entry's name |
| RemotePaths.ChildRemotePath | src/main/java/com/scb/filebridge/service/SftpService.java:123 | the path the walks build for a listed entry (lines 123, 174 and 275) has the directory's components followed by the entry's name, and the server resolves it to the entry inside the directory |
| RemotePaths.AbsPrefixComponents | src/main/java/com/scb/filebridge/service/SftpService.java:255-259 | the prefix string `mkdirs` builds from components names exactly those components |
| HexEncoding.BytesToHex | src/main/java/com/scb/filebridge/service/SftpService.java:218-226 | the builder loop produces exactly `Hex(bytes)`, two digits per byte in order |
| HexEncoding.ToHexString | src/main/java/com/scb/filebridge/service/SftpService.java:221 | `Integer.toHexString` of an unsigned byte has one or two digits, and one exactly when the byte is below 16 |
| HexEncoding.PaddedIsPair | src/main/java/com/scb/filebridge/service/SftpService.java:221-223 | padding a one-digit string with '0' gives the byte's high-nibble/low-nibble pair |
| HexEncoding.Hex | src/main/java/com/scb/filebridge/service/SftpService.java:218-226 | the text of n bytes has exactly 2·n characters |
| HexEncoding.HexAlphabet | src/main/java/com/scb/filebridge/service/SftpService.java:218-226 | every character of the text is in [0-9a-f] |
| HexEncoding.UnhexHex | src/main/java/com/scb/filebridge/service/SftpService.java:218-226 | decoding the text gives the bytes back |
| HexEncoding.HexUnhex | src/main/java/com/scb/filebridge/service/SftpService.java:218-226 | every text the decoder accepts is the encoding of what it decodes to |
| HexEncoding.HexInjective | src/main/java/com/scb/filebridge/service/SftpService.java:218-226 | distinct byte strings have distinct texts |
| Digests.GetDigest | src/main/java/com/scb/filebridge/service/SftpService.java:228-234 | SHA-256 and MD5 are picked exactly when the setting names them ignoring ASCII case; the unset-setting error arises exactly when the setting is unset, and any other name is unsupported |
| Digests.CalculateHash | src/main/java/com/scb/filebridge/service/SftpService.java:236-244 | an unset setting fails; a setting naming SHA-256 or MD5 in any case gives the hex text of that algorithm's digest of the content; any other name gives "N/A" |
| Digests.ParseAlg | src/main/java/com/scb/filebridge/service/SftpService.java:229-232 | the setting selects SHA-256 or MD5 exactly when it equals that name ignoring ASCII case |
| Digests.SelectorsAgree | src/main/java/com/scb/filebridge/service/SftpService.java:228-244 | where `getDigest` picks an algorithm, `calculateHash` is the hex text of that algorithm's digest; where `getDigest` rejects the name, `calculateHash` gives "N/A"; an unset setting makes both fail |
| Digests.AnyCaseAccepted | src/main/java/com/scb/filebridge/service/SftpService.java:228-234 | "sha-256", "Sha-256" and "md5" are accepted; "SHA256" is not |
| Settings.SftpConfig.ShouldDeleteSource | src/main/java/com/scb/filebridge/util/SftpConfig.java:26-28 | deletion is enabled exactly when `deleteSource` is set and is "yes" in some letter case |
| Settings.ShouldDeleteSourceExamples | src/main/java/com/scb/filebridge/util/SftpConfig.java:27 | "yes", "YES" and "Yes" enable it; "y", "true", " yes" and an unset value do not |
| Sftp.Channel.Mkdir | src/main/java/com/scb/filebridge/service/SftpService.java:261 | `mkdir` answers FAILURE for an existing location, NO_SUCH_FILE when the parent is not a directory, or an injected refusal; only OK creates the directory; the request is appended to the trace |
| Sftp.Channel.Ls | src/main/java/com/scb/filebridge/service/SftpService.java:116 | `ls` of a directory gives "." and "..", then each entry once with its kind; a file, a missing location or a refusal gives an error status; the tree is unchanged |
| Sftp.Channel.Get | src/main/java/com/scb/filebridge/service/SftpService.java:140 | `get` hands over the file's bytes, or an error status; the tree is unchanged |
| Sftp.Channel.Put | src/main/java/com/scb/filebridge/service/SftpService.java:191 | `put` creates or truncates a file whose parent is a directory; otherwise an error status and no change |
| Sftp.Channel.Write | src/main/java/com/scb/filebridge/service/SftpService.java:199 | a write appends what the server makes of the chunk to the open file |
| Sftp.Channel.Rm | src/main/java/com/scb/filebridge/service/SftpService.java:279 | `rm` removes a file and only a file |
| Sftp.Channel.Rmdir | src/main/java/com/scb/filebridge/service/SftpService.java:282 | `rmdir` removes an empty directory and only that |
| Sftp.Channel.Connect | src/main/java/com/scb/filebridge/service/SftpService.java:81-97 | connecting succeeds exactly when the server is reachable, which stands for `connect()` returning a channel rather than null |
| Sftp.Channel.Disconnect | src/main/java/com/scb/filebridge/service/SftpService.java:100-110 | after `disconnect` the channel is closed and nothing else changed |
| LocalDisk.Disk.ForceMkdir | src/main/java/com/scb/filebridge/service/SftpService.java:115 | `forceMkdir` creates the directory and its missing ancestors, and fails when one of them is a file |
| LocalDisk.Disk.OpenOutput | src/main/java/com/scb/filebridge/service/SftpService.java:141 | `openOutputStream` creates the parents and an empty file, and fails on a directory or a file on the way |
| LocalDisk.Disk.Write | src/main/java/com/scb/filebridge/service/SftpService.java:148 | a write appends the chunk to an existing file, or fails with no change on a directory, a missing file or an injected fault |
| LocalDisk.Disk.Read | src/main/java/com/scb/filebridge/service/SftpService.java:191 | `openInputStream` read to the end gives the file's bytes, or fails |
| LocalDisk.Disk.ListFiles | src/main/java/com/scb/filebridge/service/SftpService.java:169-170 | `listFiles` is null exactly when the location is not a readable directory; otherwise it lists each entry once with its kind |
| LocalDisk.Disk.FileExists | src/main/java/com/scb/filebridge/service/SftpService.java:293 | `exists()` is true exactly when the location is in the tree |
| LocalDisk.Disk.DeleteDirectory | src/main/java/com/scb/filebridge/service/SftpService.java:294 | `deleteDirectory` of a directory leaves exactly `AfterDelete`: what is at or inside it survives only when a deletion at or below it fails; it succeeds exactly when nothing at or inside the directory fails and the directory is not the root; a file is refused with no change |
| LocalDisk.AfterDelete | src/main/java/com/scb/filebridge/service/SftpService.java:294 | a location at or inside the directory stays exactly when the deletion of something at or below it fails |
| LocalDisk.AfterDeleteEffect | src/main/java/com/scb/filebridge/service/SftpService.java:294 | the deletion only removes, only at or inside the directory; with no failure there, nothing is left at or inside it |
| LocalDisk.AfterDeleteClean | src/main/java/com/scb/filebridge/service/SftpService.java:294 | with no failure, the deletion removes exactly what is at or inside the directory |
| LocalDisk.RootDeleteEmpties | src/main/java/com/scb/filebridge/service/SftpService.java:294 | deleting the root with no failure anywhere leaves the disk empty |
| RemotePaths.Pieces | src/main/java/com/scb/filebridge/service/SftpService.java:252 | the pieces of `split("/")` joined back with '/' give the path, none holds a '/', and the non-empty ones are exactly the path's components |
| RemoteMkdirs.Mkdirs | src/main/java/com/scb/filebridge/service/SftpService.java:251-266 | the loop's thrown status, the server's tree and the requests sent are exactly those of the fold `Outcome`: one `mkdir` per non-empty component, in order, on the absolute prefixes |
| RemoteMkdirs.Run | src/main/java/com/scb/filebridge/service/SftpService.java:255-265 | a run that returns has sent one request per component; a run that throws stops after the failing request, and its status is neither OK nor FAILURE |
| RemoteMkdirs.MkdirCallAt | src/main/java/com/scb/filebridge/service/SftpService.java:255-261 | request j is `mkdir` of "/c1/…/c(j+1)" |
| RemoteMkdirs.MkdirCallsAbsolute | src/main/java/com/scb/filebridge/service/SftpService.java:257-258 | every prefix sent starts with '/', even for a relative path |
| RemoteMkdirs.RunGrows | src/main/java/com/scb/filebridge/service/SftpService.java:255-265 | `mkdirs` never removes or changes an existing location |
| RemoteMkdirs.RunSettles | src/main/java/com/scb/filebridge/service/SftpService.java:255-265 | after a run that returns, every prefix would be answered with FAILURE if requested again |
| RemoteMkdirs.MkdirsIdempotent | src/main/java/com/scb/filebridge/service/SftpService.java:251-266 | a second `mkdirs` on the same path returns and leaves the tree as the first one left it |
| RemoteMkdirs.RunTouchesOnlyLast | src/main/java/com/scb/filebridge/service/SftpService.java:251-266 | when the parents already answer FAILURE, `mkdirs` does what a single `mkdir` of the last prefix does, and throws exactly when that request answers neither OK nor FAILURE |
| RemoteMkdirs.MkdirsEffect | src/main/java/com/scb/filebridge/service/SftpService.java:251-266 | `mkdirs` keeps every location as it was and adds only directories; a returning one leaves every prefix settled; with settled parents it changes nothing outside the target |
| RemoteMkdirs.SettledExists | src/main/java/com/scb/filebridge/service/SftpService.java:263 | a swallowed FAILURE means something, a directory or a file, exists at the location, provided no injected `mkdir` refusal answers FAILURE |
| Transfer.SettledTargetIsDir | src/main/java/com/scb/filebridge/service/SftpService.java:167 | after a returning `mkdirs` on such a server, the target is a directory when the source is one and no file was there before |
| Verdicts.EmptyDirOntoFile | src/main/java/com/scb/filebridge/service/SftpService.java:167-181 | an empty local directory uploaded where the server has a file answers true, and the server keeps the file, so the entry is not mirrored |
| RemoteMkdirs.RunAddsDirs | src/main/java/com/scb/filebridge/service/SftpService.java:255-265 | everything `mkdirs` adds to the tree is a directory |
| Transfer.SftpService.CopyFileFrom | src/main/java/com/scb/filebridge/service/SftpService.java:139-163 | the verdict is true exactly when the remote file can be read, the local file can be opened and written, the algorithm is supported and the file can be read back; then the local file holds the remote bytes; the server's tree is unchanged and the local one changes only at the file and its new parents; on failure the local tree is exactly as it was when `get` or `openOutputStream` failed, and otherwise has the parents created and the file empty when the algorithm is unsupported or the first write is refused |
| Transfer.SftpService.WriteAll | src/main/java/com/scb/filebridge/service/SftpService.java:145-150 | whatever the chunk sizes, the file ends up holding the whole data, and the digest is fed the same bytes |
| Transfer.SftpService.CopyFileTo | src/main/java/com/scb/filebridge/service/SftpService.java:190-214 | the verdict is true exactly when the local file can be read, the server accepts the upload and every write, and the algorithm is supported; then the remote location is a file, holding the local bytes on an honest server; nothing outside it changes; the server is unchanged when the local read or `put` fails, and the remote file is left empty when the algorithm is unsupported or the first write is refused |
| Transfer.SftpService.SendAll | src/main/java/com/scb/filebridge/service/SftpService.java:196-201 | whatever the chunk sizes, every byte is sent and given to the digest; an honest server then holds exactly the data |
| Transfer.SftpService.CopyDirectoryFrom | src/main/java/com/scb/filebridge/service/SftpService.java:113-137 | true exactly when `forceMkdir` and `ls` succeed and every entry's verdict holds (`FetchDirSucceeds` on the trees as they were); there are per-entry verdicts exactly when the set-up succeeds, each being that entry's own verdict on the local tree `forceMkdir` left, and the result is their AND; true means the local directory mirrors the remote one; the server is untouched, and the local tree changes only inside the target |
| Transfer.SftpService.CopyEntriesFrom | src/main/java/com/scb/filebridge/service/SftpService.java:119-131 | the loop skips "." and ".." and gives every other entry exactly the verdict it has on the local tree the loop started from (`FetchEntrySucceeds`), whatever the entries before it did; the result is the AND of the verdicts; every success leaves a copy, and copies already made are kept |
| Transfer.SftpService.CopyEntryFrom | src/main/java/com/scb/filebridge/service/SftpService.java:123-130 | a directory entry is copied recursively and a file entry as a file; the result is exactly the entry's verdict `FetchEntrySucceeds`; success means the entry is mirrored; nothing outside the entry changes |
| Transfer.SftpService.CopyDirectoryTo | src/main/java/com/scb/filebridge/service/SftpService.java:165-188 | true exactly when `mkdirs` returns, the local listing is not null and every entry's verdict holds (`PushDirSucceeds` on the trees as they were); there are per-entry verdicts exactly when the set-up succeeds, each being that entry's own verdict on the tree `mkdirs` left, and the result is their AND; on a faithful server with no file where the source has a directory, true means the remote directory mirrors the local one; the server only gains locations, and outside the target only directories |
| Transfer.SftpService.CopyEntriesTo | src/main/java/com/scb/filebridge/service/SftpService.java:172-182 | every local entry gets exactly the verdict it has on the server's tree as the loop started (`PushEntrySucceeds`), whatever the entries before it did; the result is the AND of the verdicts; on a faithful server with no file where the source has a directory, each success leaves a copy, and copies already made are kept; changes stay inside the target, and a target that was a directory stays one |
| Transfer.SftpService.CopyEntryTo | src/main/java/com/scb/filebridge/service/SftpService.java:174-181 | a directory entry is uploaded recursively and a file entry as a file; the result is exactly the entry's verdict `PushEntrySucceeds`; on a faithful server with no file where the entry has a directory, success means the entry is mirrored |
| Transfer.SftpService.DeleteRemoteDirectory | src/main/java/com/scb/filebridge/service/SftpService.java:268-288 | the first request is `ls(path)`; a refused or failed listing gives false with no change; a refused `rm` of any file of the directory gives false; success means `rmdir(path)` was the last request and nothing is left at or inside the directory; locations are only removed, and only inside it; on a server that refuses nothing, deleting an existing directory other than the root succeeds |
| Transfer.SftpService.DeleteEntries | src/main/java/com/scb/filebridge/service/SftpService.java:271-281 | the loop completes exactly when `rm` refuses none of the directory's files; otherwise it stops at a listed file whose `rm` was refused after every earlier file's was accepted, and every later entry is left as it was; only the listed entries change; on a server that refuses nothing, every entry is gone |
| Transfer.SftpService.DeleteEntry | src/main/java/com/scb/filebridge/service/SftpService.java:275-280 | a subdirectory's recursive result is ignored, so a directory entry always counts as done; a file entry counts as done exactly when `rm` answers OK |
| Transfer.SftpService.DeleteLocalDirectory | src/main/java/com/scb/filebridge/service/SftpService.java:290-302 | the result is true exactly when the directory exists, is not the root and no deletion at or inside it fails; an existing directory is left as `AfterDelete`, so with no failure nothing is left at or inside it, even for the root; a missing location or a file is left alone; nothing outside it changes |
| Transfer.SftpService.CopyFromSftp | src/main/java/com/scb/filebridge/service/SftpService.java:33-55 | an unreachable server gives false with no change; otherwise the result is the AND of the walk's verdicts, and it is true exactly when the server is reachable and `FetchDirSucceeds` holds on the trees as they were; true means the local target mirrors the remote source as it was; the source is touched only when the result is true and deletion is enabled; the channel is closed at the end |
| Transfer.SftpService.CopyToSftp | src/main/java/com/scb/filebridge/service/SftpService.java:57-79 | an unreachable server gives false with no change; otherwise the result is the AND of the walk's verdicts, and it is true exactly when the server is reachable and `PushDirSucceeds` holds on the trees as they were; on a faithful server with no file where the source has a directory, true means the remote target mirrors the local source; the server only gains locations, and outside the target only directories; the local disk changes only when the result is true and deletion is enabled, and then it is left as `AfterDelete` of the source, empty at and inside it when no deletion fails, the root included; the channel is closed at the end |
| Verdicts.FetchEntryLocal | src/main/java/com/scb/filebridge/service/SftpService.java:119-131 | an entry's download verdict depends only on the local tree at the entry, inside it and on the way down to it, so the siblings copied before it do not change it |
| Verdicts.FetchDirLocal | src/main/java/com/scb/filebridge/service/SftpService.java:113-137 | the same for a whole directory's download verdict and its local target |
| Verdicts.PushEntryLocal | src/main/java/com/scb/filebridge/service/SftpService.java:172-182 | an entry's upload verdict depends only on the remote tree at the entry's target, inside it and on the way down to it |
| Verdicts.PushSubdirLocal | src/main/java/com/scb/filebridge/service/SftpService.java:165-188 | the same for a subdirectory's upload verdict |
| Verdicts.PushDirAsSubdir | src/main/java/com/scb/filebridge/service/SftpService.java:167 | when the parents of the target already answer FAILURE, `mkdirs` comes down to one `mkdir`, so a directory's upload verdict is that of a subdirectory |
| Verdicts.FetchDirFaultFree | src/main/java/com/scb/filebridge/service/SftpService.java:113-137 | with no injected fault, a supported algorithm and nothing yet at or inside the local target, downloading a directory answers true |
| Verdicts.PushEntryFaultFree | src/main/java/com/scb/filebridge/service/SftpService.java:172-182 | with no injected fault, a supported algorithm and nothing at the entry's target, uploading the entry answers true |
| Verdicts.PushDirFaultFree | src/main/java/com/scb/filebridge/service/SftpService.java:165-188 | with no injected fault, a supported algorithm, settled parents and nothing at the target, uploading a directory answers true |
| Transfer.FetchedStep | src/main/java/com/scb/filebridge/service/SftpService.java:119-131 | one more entry of the download loop keeps every earlier verdict and copy, and the new verdict is the entry's own on the starting tree |
| Transfer.PushedStep | src/main/java/com/scb/filebridge/service/SftpService.java:173-182 | one more entry of the upload loop keeps every earlier verdict, the settled prefixes and, on a faithful server, the copies; the new verdict is the entry's own on the starting tree |
| Transfer.StoppedAt | src/main/java/com/scb/filebridge/service/SftpService.java:271-281 | where the delete loop stops, `rm` refused that file after accepting every earlier one, and only the entries up to it were touched |
| Transfer.ListedFilesAccepted | src/main/java/com/scb/filebridge/service/SftpService.java:271-281 | when `rm` accepts every file the listing names, it accepts every file of the directory |
| Transfer.SftpService.FetchListedEntry | src/main/java/com/scb/filebridge/service/SftpService.java:120-130 | one turn of the download loop on an entry other than "." and "..": the entry is copied and the record of the walk takes in its verdict |
| Transfer.SftpService.PushListedEntry | src/main/java/com/scb/filebridge/service/SftpService.java:174-181 | one turn of the upload loop: the entry is uploaded and the record of the walk takes in its verdict |
| Transfer.LocalPath | src/main/java/com/scb/filebridge/service/SftpService.java:40 | the local join of the base path and the directory names a location of valid entry names |
| Transfer.LocalRootReached | src/main/java/com/scb/filebridge/service/SftpService.java:63 | the local base path "/" with "", or "/data" with "..", names the local root |
| Transfer.LocalMatchesRemote | src/main/java/com/scb/filebridge/service/SftpService.java:39-40 | the local and remote joins of the same directory resolve to the same location relative to their roots |
| Transfer.RemoteListingNames | src/main/java/com/scb/filebridge/service/SftpService.java:119-121 | with "." and ".." skipped, the names of a remote listing are exactly the directory's entries |

## Left out

- JSch session set-up: known hosts, user, password, timeouts and host-key checking. A connection either succeeds or fails (`reachable`).
- SHA-256 and MD5 themselves. The digest is an arbitrary function passed to the service, and nothing cryptographic is claimed.
- Operating-system paths. `Paths.get` and `getAbsolutePath` become an abstract join (`Transfer.LocalPath`, or the directory plus the entry's name). A relative local base path resolved against the working directory is not modelled: the base is read from the root.
- Locale-dependent `toUpperCase`, Unicode case folding, and the line-terminator behaviour of Java's `$` in the join's regular expressions. Names, and the `deleteSource` and `integrityCheck` values, are ASCII without line terminators. Java's `equalsIgnoreCase` and `toUpperCase` map 'ſ' (U+017F) to 'S', so in Java "yeſ" enables deletion and "ſha-256" selects SHA-256; the model compares ASCII letters only and rejects both.
- Logging to standard output and standard error.
- When streams are closed. The local file is read back as already written.
- The HTTP controller and the application bootstrap.
- Concurrency. The service runs sequentially.
- Null settings other than `integrityCheck` and `deleteSource`. A null base path would throw inside the `try` and yield false; the model takes both base paths as set.
- Transfer.SftpService.DeleteLocalDirectory: on a file, `FileUtils.deleteDirectory` throws an `IllegalArgumentException` that the method does not catch. The model answers false instead. The case cannot arise in `copyToSftp`, where deletion follows a successful listing of a directory.
- Transfer.SftpService.DeleteRemoteDirectory: its guarantees about requests cover only the first request (`ls`) and, on success, the last one (`rmdir`). The order of the `rm` requests in between is not stated.
- Transfer.SftpService.CopyDirectoryTo: the requests sent on the channel are not stated. Its copy guarantee holds only on a faithful server with no file where the source has a directory (see above).
- Transfer.SftpService.CopyFileFrom: local writes and reads are exact, so the comparison of the two digests (SftpService.java:158) always passes in the model. A download's verdict is that no call failed. That the local file then holds the remote bytes rests on the exact disk, not on the comparison.
- Transfer.SftpService.CopyFromSftp: the remote delete's success is stated only for a server that refuses nothing and a source other than the root. `rmdir` of the root always fails.
- The server's working directory. JSch resolves a relative path against the login directory; the model resolves every path from the root, as if the session started there. With a relative remote base path, the absolute prefixes `mkdirs` sends and the relative paths of the later `ls`, `put` and `get` requests then name the same locations in the model, but on a server whose login directory is not the root they would not.
- Sftp.Channel.Ls: JSch's `ls` of a file lists that one file, and a name holding '*' or '?' is a pattern there. The model's `ls` answers an error status for a file and takes every name literally. For a file the verdicts are the same: the follow-up `get` or `rm` of "file/name" fails, so the walk or the delete answers false with nothing changed.
- RemotePaths.Pieces: Java's `split` drops trailing empty strings; the model keeps them. `mkdirs` skips empty pieces, so its requests are the same.
- The order of the entries in a listing of `ls` or `listFiles`, and how many bytes each read returns, are left open, and the contracts hold for every choice. Sftp.Channel.Ls puts "." and ".." first, at positions 0 and 1, and `Transfer.SftpService.DeleteEntries` relies on that. A real server returns them in directory order, or not at all; the code skips them by name wherever they are, so the verdicts do not depend on where they come.
- Resolution of "..": both ends resolve it by name (`RemotePaths.Resolve`, used for the server's paths and for `Transfer.LocalPath`), so "r/missing/../x" names "r/x" whatever "missing" is. A server or an operating system walks the tree instead, and fails (NO_SUCH_FILE on the server) when a component before ".." is missing or is a file. `copyFromSftp("/" + fileIdentifier)` in SFTPController.java:20 can reach this with a name holding "..".
- Symbolic links. There are none in the model. `isDirectory` and `listFiles` follow a link (SftpService.java:169 and :177), and a link cycle ends the upload walk in a `StackOverflowError` that is not caught. The server's listing reports a link as a non-directory, so a download treats it as a file entry. `deleteDirectory` does not follow links.
- The commons-io version. The source does not fix it; `deleteDirectory` is modelled as commons-io behaved before version 2.9, carrying on past a failed deletion at every level (`LocalDisk.AfterDelete`). From 2.9 on, a nested directory is deleted by a file-tree walk that stops at its first failure, so fewer locations would go.

=== FILE: Ascii.dfy ===
/** The case operations of `java.lang.String` the model needs, on ASCII text
    (locale-specific case mappings are outside the model). */
module Ascii {
  import opened Common

  function UpperChar(c: char): char {
    if 'a' <= c <= 'z' then (c as int - 32) as char else c
  }

  function LowerChar(c: char): char {
    if 'A' <= c <= 'Z' then (c as int + 32) as char else c
  }

  /** `String.toUpperCase()`. */
  function ToUpperCase(s: string): (r: string)
    ensures |r| == |s|
    ensures forall i :: 0 <= i < |s| ==> r[i] == UpperChar(s[i])
  {
    seq(|s|, i requires 0 <= i < |s| => UpperChar(s[i]))
  }

  /** The character test of `regionMatches(true, ...)`. */
  predicate CharsEqualIgnoreCase(a: char, b: char) {
    a == b || UpperChar(a) == UpperChar(b) || LowerChar(UpperChar(a)) == LowerChar(UpperChar(b))
  }

  /** `s.equalsIgnoreCase(other)`, where `None` stands for a null argument. */
  predicate EqualsIgnoreCase(s: string, other: Option<string>) {
    other.Some? && |other.value| == |s| &&
    forall i :: 0 <= i < |s| ==> CharsEqualIgnoreCase(s[i], other.value[i])
  }

  /** On ASCII, ignoring case means having the same upper-case form. */
  lemma EqualsIgnoreCaseUpper(s: string, t: string)
    ensures EqualsIgnoreCase(s, Some(t)) <==> ToUpperCase(s) == ToUpperCase(t)
  {
    if |s| == |t| {
      forall i | 0 <= i < |s|
        ensures CharsEqualIgnoreCase(s[i], t[i]) <==> UpperChar(s[i]) == UpperChar(t[i])
      {
        UpperLowerUpper(s[i]);
        UpperLowerUpper(t[i]);
      }
      if ToUpperCase(s) == ToUpperCase(t) {
        assert forall i :: 0 <= i < |s| ==> ToUpperCase(s)[i] == ToUpperCase(t)[i];
      }
    }
  }

  lemma UpperLowerUpper(c: char)
    ensures UpperChar(LowerChar(UpperChar(c))) == UpperChar(c)
  {
  }
}

=== FILE: Common.dfy ===
/** Shared value types: Java's signed byte, byte strings and the two
    failure-compatible wrappers the model uses for exceptions and nulls. */
module Common {

  /** A Java `byte`: a signed 8-bit value. */
  newtype int8 = x: int | -128 <= x < 128

  type Bytes = seq<int8>

  /** Java's `0xff & b`: the unsigned value of a byte. */
  function Unsigned(b: int8): (u: int)
    ensures 0 <= u < 256
    ensures u % 256 == (b as int) % 256
  {
    if b < 0 then b as int + 256 else b as int
  }

  /** The byte whose unsigned value is `u` (the inverse of Unsigned). */
  function FromUnsigned(u: int): (b: int8)
    requires 0 <= u < 256
    ensures Unsigned(b) == u
  {
    if u < 128 then u as int8 else (u - 256) as int8
  }

  datatype Option<+T> = None | Some(value: T)

  datatype Result<+T, +E> = Ok(value: T) | Err(error: E)
}

=== FILE: Digests.dfy ===
/** The digest-algorithm selector of `getDigest` and `calculateHash`. The
    hash functions themselves (SHA-256, MD5) are not modelled: a transfer is
    given an arbitrary function from algorithm and bytes to a digest. */
module Digests {
  import opened Common
  import opened Ascii
  import HexEncoding

  datatype Alg = Sha256 | Md5

  /** Why no digest could be chosen: the setting is unset (the
      `NullPointerException` of `toUpperCase`), or it names neither algorithm. */
  datatype SelectError = NameMissing | Unsupported

  /** The digest function a transfer runs with. */
  type HashFunction = (Alg, Bytes) -> Bytes

  /** The switch on `integrityCheck.toUpperCase()`. */
  function ParseAlg(name: string): (a: Option<Alg>)
    ensures a == Some(Sha256) <==> EqualsIgnoreCase("SHA-256", Some(name))
    ensures a == Some(Md5) <==> EqualsIgnoreCase("MD5", Some(name))
  {
    EqualsIgnoreCaseUpper("SHA-256", name);
    EqualsIgnoreCaseUpper("MD5", name);
    assert ToUpperCase("SHA-256") == "SHA-256";
    assert ToUpperCase("MD5") == "MD5";
    var upper := ToUpperCase(name);
    if upper == "SHA-256" then Some(Sha256)
    else if upper == "MD5" then Some(Md5)
    else None
  }

  /** `getDigest()`: the algorithm, or the exception it throws. SHA-256
      and MD5 are recognised in any letter case; an unset name throws. */
  function GetDigest(integrityCheck: Option<string>): (r: Result<Alg, SelectError>)
    ensures r == Ok(Sha256) <==> EqualsIgnoreCase("SHA-256", integrityCheck)
    ensures r == Ok(Md5) <==> EqualsIgnoreCase("MD5", integrityCheck)
    ensures r == Err(NameMissing) <==> integrityCheck.None?
  {
    match integrityCheck
    case None => Err(NameMissing)
    case Some(name) =>
      match ParseAlg(name)
      case Some(a) => Ok(a)
      case None => Err(Unsupported)
  }

  /** `calculateHash(file)` once the file is open and read: the digest text,
      or "N/A" for an unknown algorithm name. */
  function CalculateHash(integrityCheck: Option<string>, hash: HashFunction, content: Bytes): (r: Result<string, SelectError>)
    ensures r.Err? <==> integrityCheck.None?
    ensures EqualsIgnoreCase("SHA-256", integrityCheck) ==> r == Ok(HexEncoding.Hex(hash(Sha256, content)))
    ensures EqualsIgnoreCase("MD5", integrityCheck) ==> r == Ok(HexEncoding.Hex(hash(Md5, content)))
    ensures integrityCheck.Some? && !EqualsIgnoreCase("SHA-256", integrityCheck) && !EqualsIgnoreCase("MD5", integrityCheck) ==>
              r == Ok("N/A")
  {
    match integrityCheck
    case None => Err(NameMissing)
    case Some(name) =>
      match ParseAlg(name)
      case Some(Sha256) => Ok(HexEncoding.Hex(hash(Sha256, content)))
      case Some(Md5) => Ok(HexEncoding.Hex(hash(Md5, content)))
      case None => Ok("N/A")
  }

  /** The two selectors agree: where `getDigest` picks an algorithm,
      `calculateHash` digests with the same one, and where `getDigest`
      rejects a name, `calculateHash` answers "N/A" (which is never the text
      of a digest). */
  lemma SelectorsAgree(integrityCheck: Option<string>, hash: HashFunction, content: Bytes)
    ensures GetDigest(integrityCheck).Ok? ==>
      CalculateHash(integrityCheck, hash, content) == Ok(HexEncoding.Hex(hash(GetDigest(integrityCheck).value, content)))
    ensures GetDigest(integrityCheck) == Err(Unsupported) <==> CalculateHash(integrityCheck, hash, content) == Ok("N/A")
    ensures GetDigest(integrityCheck) == Err(NameMissing) <==> CalculateHash(integrityCheck, hash, content).Err?
  {
    if GetDigest(integrityCheck).Ok? {
      var a := GetDigest(integrityCheck).value;
      assert |HexEncoding.Hex(hash(a, content))| % 2 == 0;
    }
  }

  /** Names are accepted in any letter case. */
  lemma AnyCaseAccepted()
    ensures GetDigest(Some("sha-256")) == Ok(Sha256)
    ensures GetDigest(Some("Sha-256")) == Ok(Sha256)
    ensures GetDigest(Some("md5")) == Ok(Md5)
    ensures GetDigest(Some("SHA256")) == Err(Unsupported)
  {
    assert ToUpperCase("sha-256") == "SHA-256";
    assert ToUpperCase("Sha-256") == "SHA-256";
    assert ToUpperCase("md5") == "MD5";
    assert |ToUpperCase("SHA256")| == 6;
  }
}

=== FILE: FileSystem.dfy ===
/** The filesystem both ends of a transfer are modelled on: a map from a
    location (the list of names from the root) to a node, either a directory
    or a file holding bytes. The root itself is an implicit directory. */
module FileSystem {
  import opened Common
  import opened RemotePaths

  type Path = seq<string>

  datatype Node = Dir | File(data: Bytes)

  type Tree = map<Path, Node>

  /** A directory-listing record: `LsEntry` on the remote side, `File` from
      `listFiles()` on the local side. */
  datatype Entry = Entry(name: string, isDir: bool)

  predicate HasPrefix(k: Path, p: Path) {
    |p| <= |k| && k[..|p|] == p
  }

  /** Every name is a proper entry name and every entry's parent is a
      directory of the tree (or the root). */
  ghost predicate WellFormed(t: Tree) {
    && [] !in t
    && (forall k :: k in t ==> ValidPath(k))
    && (forall k, n {:trigger k + [n] in t} :: k + [n] in t && k != [] ==> k in t && t[k].Dir?)
  }

  predicate IsDir(t: Tree, p: Path) {
    p == [] || (p in t && t[p].Dir?)
  }

  predicate Exists(t: Tree, p: Path) {
    p == [] || p in t
  }

  /** The names of the entries of directory `p`. */
  function ChildNames(t: Tree, p: Path): set<string> {
    set k | k in t && |k| == |p| + 1 && k[..|p|] == p :: k[|p|]
  }

  /** The locations strictly inside `p`. */
  function Below(t: Tree, p: Path): set<Path> {
    set k | k in t && |k| > |p| && k[..|p|] == p
  }

  lemma ChildNamesIn(t: Tree, p: Path, n: string)
    ensures n in ChildNames(t, p) <==> p + [n] in t
  {
    if p + [n] in t {
      assert (p + [n])[..|p|] == p;
    }
    if n in ChildNames(t, p) {
      var k :| k in t && |k| == |p| + 1 && k[..|p|] == p && k[|p|] == n;
      assert k == p + [n];
    }
  }

  /** Every ancestor of an entry is a directory of the tree. */
  lemma {:induction false} AncestorIsDir(t: Tree, k: Path, i: nat)
    requires WellFormed(t) && k in t && 0 < i < |k|
    ensures k[..i] in t && t[k[..i]].Dir?
    decreases |k| - i
  {
    var parent := k[..|k| - 1];
    assert parent + [k[|k| - 1]] == k;
    if i < |k| - 1 {
      AncestorIsDir(t, parent, i);
      assert parent[..i] == k[..i];
    }
  }

  /** Every entry strictly inside `p` lies inside one of its children. */
  lemma InsideSomeChild(t: Tree, p: Path, k: Path)
    requires WellFormed(t) && k in Below(t, p)
    ensures k[|p|] in ChildNames(t, p) && HasPrefix(k, p + [k[|p|]])
  {
    var c := k[..|p| + 1];
    if |p| + 1 < |k| {
      AncestorIsDir(t, k, |p| + 1);
    }
    assert c == p + [k[|p|]];
    ChildNamesIn(t, p, k[|p|]);
  }

  /** A directory's entry has strictly less inside it than the directory. */
  lemma BelowShrinks(t: Tree, p: Path, n: string)
    requires p + [n] in t
    ensures |Below(t, p + [n])| < |Below(t, p)|
  {
    var child := p + [n];
    var inner, outer := Below(t, child), Below(t, p);
    forall k | k in inner ensures k in outer {
      assert k[..|p|] == k[..|child|][..|p|];
    }
    assert child[..|p|] == p;
    assert child in outer && child !in inner;
    ProperSubsetSmaller(inner, outer, child);
  }

  lemma ProperSubsetSmaller<T>(a: set<T>, b: set<T>, x: T)
    requires a <= b && x in b && x !in a
    ensures |a| < |b|
  {
    var d := b - a;
    assert x in d;
    assert b == a + d && a !! d;
  }

  // ---------------------------------------------------------------------
  // Listings.

  function NamesOf(es: seq<Entry>): set<string> {
    set i | 0 <= i < |es| :: es[i].name
  }

  lemma NamesOfAppend(es: seq<Entry>, e: Entry)
    ensures NamesOf(es + [e]) == NamesOf(es) + {e.name}
  {
    var all := es + [e];
    forall x | x in NamesOf(all) ensures x in NamesOf(es) + {e.name} {
      var i :| 0 <= i < |all| && all[i].name == x;
      if i < |es| { assert es[i].name == x; }
    }
    forall x | x in NamesOf(es) ensures x in NamesOf(all) {
      var i :| 0 <= i < |es| && es[i].name == x;
      assert all[i].name == x;
    }
    assert all[|es|].name == e.name;
  }

  /** `es` lists directory `p` of `t`: each entry once, with its kind. */
  predicate IsListing(t: Tree, p: Path, es: seq<Entry>) {
    && (forall i, j :: 0 <= i < j < |es| ==> es[i].name != es[j].name)
    && NamesOf(es) == ChildNames(t, p)
    && (forall i :: 0 <= i < |es| ==> p + [es[i].name] in t && es[i].isDir == t[p + [es[i].name]].Dir?)
  }

  /** Read directory `p` of `t`, in an order the model leaves open. */
  method ListChildren(t: Tree, p: Path) returns (es: seq<Entry>)
    ensures IsListing(t, p, es)
  {
    var todo := ChildNames(t, p);
    es := [];
    while todo != {}
      invariant todo !! NamesOf(es)
      invariant todo + NamesOf(es) == ChildNames(t, p)
      invariant forall i, j :: 0 <= i < j < |es| ==> es[i].name != es[j].name
      invariant forall i :: 0 <= i < |es| ==> p + [es[i].name] in t && es[i].isDir == t[p + [es[i].name]].Dir?
      decreases todo
    {
      var n :| n in todo;
      ChildNamesIn(t, p, n);
      es := es + [Entry(n, t[p + [n]].Dir?)];
      todo := todo - {n};
      NamesOfAppend(es[..|es| - 1], Entry(n, t[p + [n]].Dir?));
      assert es[..|es| - 1] + [es[|es| - 1]] == es;
    }
  }

  // ---------------------------------------------------------------------
  // Mirroring and frames.

  /** The tree `dst` at `d` holds a copy of the tree `src` at `s`: every
      directory inside `s` is a directory at the same place inside `d`, and
      every file is a file there holding the same bytes. */
  ghost predicate Mirrors(src: Tree, s: Path, dst: Tree, d: Path) {
    forall r {:trigger s + r in src} :: s + r in src ==>
      (src[s + r].Dir? ==> IsDir(dst, d + r)) && (src[s + r].File? ==> d + r in dst && dst[d + r] == src[s + r])
  }

  /** `dst` has no file at a place inside `d` where `src` has a directory
      inside `s`. */
  ghost predicate NoFileForDir(src: Tree, s: Path, dst: Tree, d: Path) {
    forall r {:trigger s + r in src} :: s + r in src && src[s + r].Dir? ==> !(d + r in dst && dst[d + r].File?)
  }

  /** The condition holds for an entry of `d` while only other entries
      have changed. */
  lemma NoFileForDirChild(src: Tree, s: Path, a: Tree, b: Tree, d: Path, names: set<string>, n: string)
    requires NoFileForDir(src, s, a, d) && SameOutsideEntries(a, b, d, names) && n !in names
    ensures NoFileForDir(src, s + [n], b, d + [n])
  {
    forall r | (s + [n]) + r in src && src[(s + [n]) + r].Dir?
      ensures !((d + [n]) + r in b && b[(d + [n]) + r].File?)
    {
      assert (s + [n]) + r == s + ([n] + r);
      assert (d + [n]) + r == d + ([n] + r);
      assert ((d + [n]) + r)[|d|] == n;
    }
  }

  /** The condition survives a change that adds no file. */
  lemma NoFileForDirGrow(src: Tree, s: Path, a: Tree, b: Tree, d: Path)
    requires NoFileForDir(src, s, a, d)
    requires forall k :: k in a ==> k in b && b[k] == a[k]
    requires forall k :: k in b && k !in a ==> b[k] == Dir
    ensures NoFileForDir(src, s, b, d)
  {
  }

  /** `a` and `b` agree on every location inside `d`. */
  ghost predicate SameInside(a: Tree, b: Tree, d: Path) {
    forall k :: HasPrefix(k, d) ==> (k in a <==> k in b) && (k in a ==> a[k] == b[k])
  }

  /** `a` and `b` agree on every location outside `d`. */
  ghost predicate SameOutside(a: Tree, b: Tree, d: Path) {
    forall k :: !HasPrefix(k, d) ==> (k in a <==> k in b) && (k in a ==> a[k] == b[k])
  }

  /** A copy stays a copy while only other parts of the destination change. */
  lemma MirrorsKept(src: Tree, s: Path, a: Tree, b: Tree, d: Path)
    requires Mirrors(src, s, a, d) && SameInside(a, b, d)
    ensures Mirrors(src, s, b, d)
  {
    forall r | s + r in src
      ensures (src[s + r].Dir? ==> IsDir(b, d + r)) && (src[s + r].File? ==> d + r in b && b[d + r] == src[s + r])
    {
      assert (d + r)[..|d|] == d;
    }
  }

  /** Locations inside one entry of `d` are outside every other entry. */
  lemma SiblingsDisjoint(a: Tree, b: Tree, d: Path, n: string, m: string)
    requires n != m && SameOutside(a, b, d + [n])
    ensures SameInside(a, b, d + [m])
  {
    forall k | HasPrefix(k, d + [m]) ensures !HasPrefix(k, d + [n]) {
      assert k[|d|] == m;
    }
  }

  /** A copied file, or a copied directory whose entries are all copied, is
      a copy of the whole location. */
  lemma MirrorsFile(src: Tree, s: Path, dst: Tree, d: Path)
    requires WellFormed(src) && s in src && src[s].File?
    requires d in dst && dst[d] == src[s]
    ensures Mirrors(src, s, dst, d)
  {
    forall r | s + r in src
      ensures (src[s + r].Dir? ==> IsDir(dst, d + r)) && (src[s + r].File? ==> d + r in dst && dst[d + r] == src[s + r])
    {
      FileHasNoInside(src, s, r);
      assert s + r == s && d + r == d;
    }
  }

  lemma FileHasNoInside(t: Tree, s: Path, r: Path)
    requires WellFormed(t) && s in t && t[s].File? && s + r in t
    ensures r == []
  {
    assert (s + r)[..|s|] == s;
    if r != [] {
      AncestorIsDir(t, s + r, |s|);
    }
  }

  lemma MirrorsFromChildren(src: Tree, s: Path, dst: Tree, d: Path)
    requires WellFormed(src) && IsDir(src, s) && (s in src ==> IsDir(dst, d))
    requires forall n {:trigger n in ChildNames(src, s)} :: n in ChildNames(src, s) ==> Mirrors(src, s + [n], dst, d + [n])
    ensures Mirrors(src, s, dst, d)
  {
    forall r | s + r in src
      ensures (src[s + r].Dir? ==> IsDir(dst, d + r)) && (src[s + r].File? ==> d + r in dst && dst[d + r] == src[s + r])
    {
      if r == [] {
        assert s + r == s && d + r == d;
      } else {
        var k := s + r;
        assert k[..|s|] == s;
        assert k in Below(src, s);
        InsideSomeChild(src, s, k);
        assert k[|s|] == r[0];
        MirrorsViaChild(src, s, dst, d, r);
      }
    }
  }

  lemma MirrorsViaChild(src: Tree, s: Path, dst: Tree, d: Path, r: Path)
    requires r != [] && s + r in src && Mirrors(src, s + [r[0]], dst, d + [r[0]])
    ensures (src[s + r].Dir? ==> IsDir(dst, d + r)) && (src[s + r].File? ==> d + r in dst && dst[d + r] == src[s + r])
  {
    assert (s + [r[0]]) + r[1..] == s + r;
    assert (d + [r[0]]) + r[1..] == d + r;
  }

  /** `b` differs from `a` only inside `d`, apart from directories created
      on the way down to `d`. */
  ghost predicate ChangedWithin(a: Tree, b: Tree, d: Path) {
    forall k :: !HasPrefix(k, d) ==>
      (k in a ==> k in b && b[k] == a[k]) && (k in b && k !in a ==> HasPrefix(d, k))
  }

  /** Under an existing directory there is nothing left to create on the
      way down to an entry. */
  lemma ChangedWithinChild(a: Tree, b: Tree, d: Path, n: string)
    requires WellFormed(a) && WellFormed(b) && IsDir(a, d) && ChangedWithin(a, b, d + [n])
    ensures SameOutside(a, b, d + [n])
  {
    var c := d + [n];
    forall k | !HasPrefix(k, c) && k in b ensures k in a {
      if HasPrefix(c, k) && 0 < |k| < |d| {
        assert d[..|k|] == k;
        AncestorIsDir(a, d, |k|);
      }
    }
  }

  lemma ChangedWithinStep(a: Tree, b: Tree, c: Tree, d: Path, n: string)
    requires ChangedWithin(a, b, d) && SameOutside(b, c, d + [n])
    ensures ChangedWithin(a, c, d)
  {
    forall k | HasPrefix(k, d + [n]) ensures HasPrefix(k, d) {
      assert k[..|d|] == (d + [n])[..|d|];
    }
  }

  lemma SameOutsideStep(a: Tree, b: Tree, c: Tree, d: Path, n: string)
    requires SameOutside(a, b, d) && SameOutside(b, c, d + [n])
    ensures SameOutside(a, c, d)
  {
    forall k | HasPrefix(k, d + [n]) ensures HasPrefix(k, d) {
      assert k[..|d|] == (d + [n])[..|d|];
    }
  }

  /** Rewriting `d` itself keeps the change within `d`. */
  lemma ChangedWithinUpdate(a: Tree, b: Tree, d: Path, v: Node)
    requires ChangedWithin(a, b, d)
    ensures ChangedWithin(a, b[d := v], d)
  {
    assert HasPrefix(d, d);
  }

  /** `b` keeps every location of `a` outside `d` as it was, and whatever
      it adds outside `d` is a directory. */
  ghost predicate DirsAddedOutside(a: Tree, b: Tree, d: Path) {
    forall k :: !HasPrefix(k, d) ==> (k in a ==> k in b && b[k] == a[k]) && (k in b && k !in a ==> b[k].Dir?)
  }

  lemma SameOutsideTrans(a: Tree, b: Tree, c: Tree, d: Path)
    requires SameOutside(a, b, d) && SameOutside(b, c, d)
    ensures SameOutside(a, c, d)
  {
  }

  lemma ChangedWithinThenSame(a: Tree, b: Tree, c: Tree, d: Path)
    requires ChangedWithin(a, b, d) && SameOutside(b, c, d)
    ensures ChangedWithin(a, c, d)
  {
  }

  // ---------------------------------------------------------------------
  // Deletion.

  /** `b` is `a` with some locations removed. */
  ghost predicate Pruned(a: Tree, b: Tree) {
    b.Keys <= a.Keys && forall k :: k in b ==> b[k] == a[k]
  }

  /** Nothing is left at or inside `d`. */
  ghost predicate Gone(t: Tree, d: Path) {
    forall k :: k in t ==> !HasPrefix(k, d)
  }

  /** `a` and `b` agree everywhere except inside the entries of `d` named
      in `names`. */
  ghost predicate SameOutsideEntries(a: Tree, b: Tree, d: Path, names: set<string>) {
    forall k {:trigger k in a} {:trigger k in b} :: !(|k| > |d| && k[..|d|] == d && k[|d|] in names) ==>
      (k in a <==> k in b) && (k in a ==> a[k] == b[k])
  }

  lemma SameOutsideEntriesStep(a: Tree, b: Tree, c: Tree, d: Path, names: set<string>, n: string)
    requires SameOutsideEntries(a, b, d, names) && SameOutside(b, c, d + [n])
    ensures SameOutsideEntries(a, c, d, names + {n})
  {
    forall k | HasPrefix(k, d + [n]) ensures |k| > |d| && k[..|d|] == d && k[|d|] == n {
      assert k[..|d|] == (d + [n])[..|d|];
    }
  }

  lemma SameOutsideEntriesWiden(a: Tree, b: Tree, d: Path, names: set<string>, more: set<string>)
    requires SameOutsideEntries(a, b, d, names) && names <= more
    ensures SameOutsideEntries(a, b, d, more)
  {
  }

  lemma SameOutsideEntriesOutside(a: Tree, b: Tree, d: Path, names: set<string>)
    requires SameOutsideEntries(a, b, d, names)
    ensures SameOutside(a, b, d)
  {
  }

  /** Fewer locations leave fewer inside any directory. */
  lemma BelowMonotone(a: Tree, b: Tree, p: Path)
    requires b.Keys <= a.Keys
    ensures |Below(b, p)| <= |Below(a, p)|
  {
    var inner, outer := Below(b, p), Below(a, p);
    assert outer == inner + (outer - inner);
  }

  /** A directory whose entries were all removed has none left, when no
      location was added. */
  lemma EmptiedDir(a: Tree, b: Tree, p: Path)
    requires b.Keys <= a.Keys
    requires forall n {:trigger n in ChildNames(a, p)} :: n in ChildNames(a, p) ==> Gone(b, p + [n])
    ensures ChildNames(b, p) == {}
  {
    forall n | n in ChildNames(b, p) ensures false {
      ChildNamesIn(b, p, n);
      ChildNamesIn(a, p, n);
      assert HasPrefix(p + [n], p + [n]);
    }
  }

  /** Removing one location changes nothing outside it. */
  lemma RemoveOnlyThere(t: Tree, p: Path)
    ensures Pruned(t, t - {p}) && SameOutside(t, t - {p}, p)
  {
    assert HasPrefix(p, p);
  }

  /** Removing an empty directory leaves nothing at or inside it. */
  lemma RemovedDirGone(t: Tree, p: Path)
    requires WellFormed(t) && ChildNames(t, p) == {}
    ensures Gone(t - {p}, p)
  {
    forall k | k in t && HasPrefix(k, p) && k != p ensures false {
      assert k in Below(t, p);
      InsideSomeChild(t, p, k);
    }
  }

  /** Removing a file leaves nothing at or inside it. */
  lemma RemovedFileGone(t: Tree, p: Path)
    requires WellFormed(t) && p in t && t[p].File?
    ensures Gone(t - {p}, p)
  {
    forall k | k in t && HasPrefix(k, p) ensures k == p {
      assert p + k[|p|..] == k;
      FileHasNoInside(t, p, k[|p|..]);
    }
  }
}

=== FILE: HexEncoding.dfy ===
/** `bytesToHex`: the lowercase base16 text of a digest (section 8 of
    RFC 4648, with the lowercase alphabet). */
module HexEncoding {
  import opened Common

  const HexDigits: string := "0123456789abcdef"

  function Digit(v: int): (c: char)
    requires 0 <= v < 16
  {
    HexDigits[v]
  }

  /** `Integer.toHexString(u)` for 0 <= u < 256: lowercase, no leading zero. */
  function ToHexString(u: int): (h: string)
    requires 0 <= u < 256
    ensures 1 <= |h| <= 2
    ensures |h| == 1 <==> u < 16
  {
    if u < 16 then [Digit(u)] else [Digit(u / 16), Digit(u % 16)]
  }

  /** The two-digit text of one byte: high nibble, then low nibble. */
  function Pair(b: int8): string {
    var u := Unsigned(b);
    [Digit(u / 16), Digit(u % 16)]
  }

  /** Base16 text of a byte string, two digits per byte. */
  function Hex(bs: Bytes): (s: string)
    ensures |s| == 2 * |bs|
  {
    if bs == [] then [] else Hex(bs[..|bs| - 1]) + Pair(bs[|bs| - 1])
  }

  /** `bytesToHex(bytes)`: append `toHexString(0xff & b)` per byte, padded
      with one '0' when it has a single digit. */
  method BytesToHex(bytes: Bytes) returns (s: string)
    ensures s == Hex(bytes)
  {
    s := "";
    for i := 0 to |bytes|
      invariant s == Hex(bytes[..i])
    {
      var hex := ToHexString(Unsigned(bytes[i]));
      PaddedIsPair(bytes[i]);
      if |hex| == 1 {
        s := s + "0";
      }
      s := s + hex;
      assert bytes[..i + 1][..i] == bytes[..i];
    }
    assert bytes[..|bytes|] == bytes;
  }

  /** Padding a one-digit `toHexString` with '0' gives the two-digit pair. */
  lemma PaddedIsPair(b: int8)
    ensures var h := ToHexString(Unsigned(b));
            (if |h| == 1 then "0" + h else h) == Pair(b)
  {
    var u := Unsigned(b);
    if u < 16 {
      assert u / 16 == 0 && u % 16 == u;
    }
  }

  /** Every character of the text is a lowercase hex digit. */
  lemma {:induction false} HexAlphabet(bs: Bytes)
    ensures forall i :: 0 <= i < |Hex(bs)| ==> Hex(bs)[i] in HexDigits
  {
    if bs != [] {
      HexAlphabet(bs[..|bs| - 1]);
      var u := Unsigned(bs[|bs| - 1]);
      assert HexDigits[u / 16] in HexDigits && HexDigits[u % 16] in HexDigits;
    }
  }

  /** Splitting a byte into nibbles and joining them again gives the byte. */
  lemma Nibbles(b: int8)
    ensures var u := Unsigned(b);
            0 <= u / 16 < 16 && 0 <= u % 16 < 16 && FromUnsigned(16 * (u / 16) + u % 16) == b
  {
    var u := Unsigned(b);
    assert 16 * (u / 16) + u % 16 == u;
  }

  /** The value of a lowercase hex digit. */
  function DigitValue(c: char): (v: Option<int>)
    ensures v.Some? ==> 0 <= v.value < 16 && Digit(v.value) == c
    ensures c in HexDigits ==> v.Some?
  {
    if '0' <= c <= '9' then Some(c as int - '0' as int)
    else if 'a' <= c <= 'f' then Some(c as int - 'a' as int + 10)
    else None
  }

  /** Decoder of the lowercase base16 text: None on odd length or a character
      outside [0-9a-f]. */
  function Unhex(s: string): Option<Bytes>
  {
    if s == [] then Some([])
    else if |s| == 1 then None
    else
      var init, hi, lo := Unhex(s[..|s| - 2]), DigitValue(s[|s| - 2]), DigitValue(s[|s| - 1]);
      if init.Some? && hi.Some? && lo.Some? then Some(init.value + [FromUnsigned(16 * hi.value + lo.value)])
      else None
  }

  /** Decoding the text of a byte string gives the byte string back. */
  lemma {:induction false} UnhexHex(bs: Bytes)
    ensures Unhex(Hex(bs)) == Some(bs)
  {
    if bs != [] {
      var init, last := bs[..|bs| - 1], bs[|bs| - 1];
      assert init + [last] == bs;
      UnhexHex(init);
      UnhexAppend(Hex(init), last);
    }
  }

  /** Decoding one more pair appends its byte. */
  lemma UnhexAppend(s: string, b: int8)
    ensures Unhex(s + Pair(b)) == if Unhex(s).Some? then Some(Unhex(s).value + [b]) else None
  {
    var t := s + Pair(b);
    assert t[..|t| - 2] == s;
    var u := Unsigned(b);
    Nibbles(b);
    DigitRoundTrip(u / 16);
    DigitRoundTrip(u % 16);
    assert t[|t| - 2] == Digit(u / 16) && t[|t| - 1] == Digit(u % 16);
  }

  /** What an accepted text of two or more characters is made of. */
  lemma UnhexLast(s: string)
    requires |s| >= 2 && Unhex(s).Some?
    ensures Unhex(s[..|s| - 2]).Some? && DigitValue(s[|s| - 2]).Some? && DigitValue(s[|s| - 1]).Some?
    ensures Unhex(s).value == Unhex(s[..|s| - 2]).value
              + [FromUnsigned(16 * DigitValue(s[|s| - 2]).value + DigitValue(s[|s| - 1]).value)]
  {
  }

  lemma PairOfNibbles(hi: int, lo: int)
    requires 0 <= hi < 16 && 0 <= lo < 16
    ensures Pair(FromUnsigned(16 * hi + lo)) == [Digit(hi), Digit(lo)]
  {
    var u := 16 * hi + lo;
    SplitNibbles(hi, lo);
    assert Unsigned(FromUnsigned(u)) == u;
  }

  lemma SplitNibbles(hi: int, lo: int)
    requires 0 <= hi < 16 && 0 <= lo < 16
    ensures (16 * hi + lo) / 16 == hi && (16 * hi + lo) % 16 == lo
  {
  }

  lemma DigitRoundTrip(v: int)
    requires 0 <= v < 16
    ensures DigitValue(Digit(v)) == Some(v)
  {
  }

  /** Every text the decoder accepts is the encoding of what it decodes to. */
  lemma {:induction false} HexUnhex(s: string, bs: Bytes)
    requires Unhex(s) == Some(bs)
    ensures Hex(bs) == s
    decreases |s|
  {
    if s != [] {
      UnhexLast(s);
      var t := s[..|s| - 2];
      var init := Unhex(t).value;
      HexUnhex(t, init);
      var hi := DigitValue(s[|s| - 2]).value;
      var lo := DigitValue(s[|s| - 1]).value;
      var b := FromUnsigned(16 * hi + lo);
      PairOfNibbles(hi, lo);
      assert bs == init + [b];
      HexSnoc(init, b);
      calc {
        Hex(bs);
        Hex(init) + Pair(b);
        t + [s[|s| - 2], s[|s| - 1]];
        { LastTwo(s); }
        s;
      }
    }
  }

  lemma LastTwo(s: string)
    requires |s| >= 2
    ensures s[..|s| - 2] + [s[|s| - 2], s[|s| - 1]] == s
  {
  }

  lemma HexSnoc(init: Bytes, b: int8)
    ensures Hex(init + [b]) == Hex(init) + Pair(b)
  {
    assert (init + [b])[..|init|] == init;
  }

  /** Distinct digests have distinct texts. */
  lemma HexInjective(a: Bytes, b: Bytes)
    requires Hex(a) == Hex(b)
    ensures a == b
  {
    UnhexHex(a);
    UnhexHex(b);
  }
}

=== FILE: LocalDisk.dfy ===
/** The local end: the effect on a modelled local filesystem of the
    `java.io.File` and commons-io `FileUtils` calls the transfer makes. A test
    harness can make any of these calls fail (an `IOException`) at any
    location. */
module LocalDisk {
  import opened Common
  import opened RemotePaths
  import opened FileSystem

  datatype Op = MkdirsOp | ListOp | OpenWriteOp | WriteOp | ReadOp | DeleteOp

  /** No proper-or-whole prefix of `p` is a file. */
  predicate NoFileOnPath(t: Tree, p: Path) {
    forall i :: 0 < i <= |p| ==> !(p[..i] in t && t[p[..i]].File?)
  }

  function Prefixes(p: Path): set<Path> {
    set i | 0 < i <= |p| :: p[..i]
  }

  /** The directories `mkdirs` has to create for `p`. */
  function MissingDirs(t: Tree, p: Path): Tree {
    map k | k in Prefixes(p) && k !in t :: Dir
  }

  /** What `openOutputStream(p)` leaves behind: the missing parents
      created and the file at `p` created or emptied. */
  function Opened(t: Tree, p: Path): Tree
    requires p != []
  {
    (t + MissingDirs(t, p[..|p| - 1]))[p := File([])]
  }

  /** `t` with everything at or inside `p` removed. */
  function Without(t: Tree, p: Path): Tree {
    map k | k in t && !HasPrefix(k, p) :: t[k]
  }

  lemma MissingDirsWellFormed(t: Tree, p: Path)
    requires WellFormed(t) && ValidPath(p) && NoFileOnPath(t, p)
    ensures WellFormed(t + MissingDirs(t, p))
    ensures forall i :: 0 < i <= |p| ==> IsDir(t + MissingDirs(t, p), p[..i])
  {
    var u := t + MissingDirs(t, p);
    forall k | k in u ensures ValidPath(k) {
      if k !in t {
        var i :| 0 < i <= |p| && k == p[..i];
      }
    }
    forall k, n | k + [n] in u && k != [] ensures k in u && u[k].Dir? {
      if k + [n] !in t {
        var i :| 0 < i <= |p| && k + [n] == p[..i];
        assert k == p[..i - 1];
        assert p[..i - 1] in Prefixes(p);
      }
    }
    forall i | 0 < i <= |p| ensures IsDir(u, p[..i]) {
      assert p[..i] in Prefixes(p);
    }
  }

  /** A location at or below `k` exists and its deletion fails. */
  predicate FailsBelow(t: Tree, broken: set<(Op, Path)>, k: Path) {
    exists q | q in t :: (DeleteOp, q) in broken && HasPrefix(q, k)
  }

  /** What `FileUtils.deleteDirectory` of the directory `p` leaves behind:
      it deletes depth first and carries on past a failed deletion, so a
      location at or inside `p` survives exactly when the deletion of
      something at or below it fails, and `p` itself also when it is the
      root, which cannot be deleted. */
  function AfterDelete(t: Tree, broken: set<(Op, Path)>, p: Path): (u: Tree)
    ensures forall k :: k in t && HasPrefix(k, p) ==> (k in u <==> FailsBelow(t, broken, k))
  {
    map k | k in t && (!HasPrefix(k, p) || FailsBelow(t, broken, k)) :: t[k]
  }

  lemma PrefixTrans(a: Path, b: Path, c: Path)
    requires HasPrefix(a, b) && HasPrefix(b, c)
    ensures HasPrefix(a, c)
  {
    assert a[..|c|] == a[..|b|][..|c|];
  }

  lemma PrefixSnoc(k: Path, n: string, p: Path)
    requires HasPrefix(k, p)
    ensures HasPrefix(k + [n], p)
  {
    assert (k + [n])[..|p|] == k[..|p|];
  }

  lemma AfterDeleteWellFormed(t: Tree, broken: set<(Op, Path)>, p: Path)
    requires WellFormed(t)
    ensures WellFormed(AfterDelete(t, broken, p))
  {
    var u := AfterDelete(t, broken, p);
    forall k, n | k + [n] in u && k != [] ensures k in u {
      if HasPrefix(k, p) {
        PrefixSnoc(k, n, p);
        var q :| q in t && (DeleteOp, q) in broken && HasPrefix(q, k + [n]);
        PrefixSnoc(k, n, k);
        assert HasPrefix(k + [n], k);
        PrefixTrans(q, k + [n], k);
      }
    }
  }

  /** The deletion changes nothing outside `p` and only removes; when no
      deletion at or inside `p` fails, nothing is left there. */
  lemma AfterDeleteEffect(t: Tree, broken: set<(Op, Path)>, p: Path)
    ensures Pruned(t, AfterDelete(t, broken, p)) && SameOutside(t, AfterDelete(t, broken, p), p)
    ensures !FailsBelow(t, broken, p) ==> Gone(AfterDelete(t, broken, p), p)
  {
    if !FailsBelow(t, broken, p) {
      forall k | k in AfterDelete(t, broken, p) ensures !HasPrefix(k, p) {
        if HasPrefix(k, p) {
          var q :| q in t && (DeleteOp, q) in broken && HasPrefix(q, k);
          PrefixTrans(q, k, p);
        }
      }
    }
  }

  /** Deleting the root with no failure anywhere empties the tree. */
  lemma RootDeleteEmpties(t: Tree, broken: set<(Op, Path)>)
    requires !FailsBelow(t, broken, [])
    ensures AfterDelete(t, broken, []) == map[]
  {
    AfterDeleteEffect(t, broken, []);
    var u := AfterDelete(t, broken, []);
    forall k | k in u ensures false {
      assert HasPrefix(k, []);
    }
  }

  /** With no failure at or inside `p`, the deletion removes exactly what
      is at or inside `p`. */
  lemma AfterDeleteClean(t: Tree, broken: set<(Op, Path)>, p: Path)
    requires !FailsBelow(t, broken, p)
    ensures AfterDelete(t, broken, p) == Without(t, p)
  {
    forall k | k in t && HasPrefix(k, p) ensures !FailsBelow(t, broken, k) {
      if FailsBelow(t, broken, k) {
        var q :| q in t && (DeleteOp, q) in broken && HasPrefix(q, k);
        PrefixTrans(q, k, p);
      }
    }
  }

  lemma NewFileWellFormed(t: Tree, p: Path)
    requires WellFormed(t) && ValidPath(p) && !IsDir(t, p) && NoFileOnPath(t, p[..|p| - 1])
    ensures WellFormed((t + MissingDirs(t, p[..|p| - 1]))[p := File([])])
  {
    var parent := p[..|p| - 1];
    MissingDirsWellFormed(t, parent);
    var u := t + MissingDirs(t, parent);
    ParentIsDir(u, parent);
    NotAParent(t, u, p);
  }

  /** After `mkdirs` of the parent, the parent is a directory. */
  lemma ParentIsDir(u: Tree, parent: Path)
    requires forall i :: 0 < i <= |parent| ==> IsDir(u, parent[..i])
    ensures IsDir(u, parent)
  {
    if |parent| > 0 {
      assert parent[..|parent|] == parent;
    }
  }

  /** A location that is not a directory is no entry's parent. */
  lemma NotAParent(t: Tree, u: Tree, p: Path)
    requires WellFormed(t) && |p| > 0 && !IsDir(t, p) && u == t + MissingDirs(t, p[..|p| - 1])
    ensures forall k, n {:trigger k + [n] in u} :: k + [n] in u ==> k != p
  {
    forall k, n | k + [n] in u ensures k != p {
      assert k + [n] !in t ==> |k + [n]| <= |p| - 1;
    }
  }

  /** `mkdirs` changes nothing but the way down to `p`. */
  lemma MissingDirsChangedWithin(t: Tree, p: Path)
    ensures ChangedWithin(t, t + MissingDirs(t, p), p)
  {
    forall k | k in MissingDirs(t, p) ensures HasPrefix(p, k) {
      var i :| 0 < i <= |p| && k == p[..i];
    }
  }

  /** Opening a file for writing changes nothing but the file and the way
      down to it. */
  lemma NewFileChangedWithin(t: Tree, p: Path)
    requires p != []
    ensures ChangedWithin(t, (t + MissingDirs(t, p[..|p| - 1]))[p := File([])], p)
  {
    var parent := p[..|p| - 1];
    forall k | k in MissingDirs(t, parent) ensures HasPrefix(p, k) {
      var i :| 0 < i <= |parent| && k == parent[..i];
      assert p[..i] == k;
    }
  }

  class Disk {
    var fs: Tree
    const broken: set<(Op, Path)>

    ghost predicate Valid()
      reads this
    {
      WellFormed(fs)
    }

    constructor (tree: Tree, broken: set<(Op, Path)>)
      requires WellFormed(tree)
      ensures Valid() && fs == tree && this.broken == broken
    {
      fs := tree;
      this.broken := broken;
    }

    /** `FileUtils.forceMkdir(new File(p))`: create `p` and its missing
        ancestors; fails when one of them is a file. */
    method ForceMkdir(p: Path) returns (ok: bool)
      requires Valid() && ValidPath(p)
      modifies this
      ensures Valid()
      ensures ok == ((MkdirsOp, p) !in broken && NoFileOnPath(old(fs), p))
      ensures fs == if ok then old(fs) + MissingDirs(old(fs), p) else old(fs)
      ensures ok ==> IsDir(fs, p)
    {
      ok := (MkdirsOp, p) !in broken && NoFileOnPath(fs, p);
      if ok {
        MissingDirsWellFormed(fs, p);
        fs := fs + MissingDirs(fs, p);
        if p != [] {
          assert p[..|p|] == p;
        }
      }
    }

    /** `FileUtils.openOutputStream(new File(p))`: create the parent
        directories and create or truncate the file. */
    method OpenOutput(p: Path) returns (ok: bool)
      requires Valid() && ValidPath(p)
      modifies this
      ensures Valid()
      ensures ok == ((OpenWriteOp, p) !in broken && !IsDir(old(fs), p) && NoFileOnPath(old(fs), p[..|p| - 1]))
      ensures fs == if ok then (old(fs) + MissingDirs(old(fs), p[..|p| - 1]))[p := File([])] else old(fs)
    {
      ok := (OpenWriteOp, p) !in broken && !IsDir(fs, p) && NoFileOnPath(fs, p[..|p| - 1]);
      if ok {
        NewFileWellFormed(fs, p);
        fs := (fs + MissingDirs(fs, p[..|p| - 1]))[p := File([])];
      }
    }

    /** One `write` on the stream `openOutputStream` opened. */
    method Write(p: Path, chunk: Bytes) returns (ok: bool)
      requires Valid()
      modifies this
      ensures Valid()
      ensures ok == ((WriteOp, p) !in broken && p in old(fs) && old(fs)[p].File?)
      ensures fs == if ok then old(fs)[p := File(old(fs)[p].data + chunk)] else old(fs)
    {
      ok := (WriteOp, p) !in broken && p in fs && fs[p].File?;
      if ok {
        fs := fs[p := File(fs[p].data + chunk)];
      }
    }

    /** `FileUtils.openInputStream(new File(p))` read to the end. */
    method Read(p: Path) returns (r: Option<Bytes>)
      ensures r == if (ReadOp, p) !in broken && p in fs && fs[p].File? then Some(fs[p].data) else None
    {
      if (ReadOp, p) !in broken && p in fs && fs[p].File? {
        r := Some(fs[p].data);
      } else {
        r := None;
      }
    }

    /** `new File(p).listFiles()`: null unless `p` is a readable directory. */
    method ListFiles(p: Path) returns (r: Option<seq<Entry>>)
      ensures r.None? <==> (ListOp, p) in broken || !IsDir(fs, p)
      ensures r.Some? ==> IsListing(fs, p, r.value)
    {
      if (ListOp, p) in broken || !IsDir(fs, p) {
        return None;
      }
      var es := ListChildren(fs, p);
      return Some(es);
    }

    /** `new File(p).exists()`. */
    method FileExists(p: Path) returns (b: bool)
      ensures b == Exists(fs, p)
    {
      b := Exists(fs, p);
    }

    /** `FileUtils.deleteDirectory(new File(p))`: delete everything inside
        the directory that can be deleted, then the directory itself; fails
        when a deletion at or inside it fails, and always for the root.
        Nothing to do when it does not exist; a file is refused. */
    method DeleteDirectory(p: Path) returns (ok: bool)
      requires Valid()
      modifies this
      ensures Valid()
      ensures ok == (p != [] && !(p in old(fs) && old(fs)[p].File?) && !FailsBelow(old(fs), broken, p))
      ensures fs == if p in old(fs) && old(fs)[p].File? then old(fs) else AfterDelete(old(fs), broken, p)
    {
      if p in fs && fs[p].File? {
        return false;
      }
      ok := p != [] && !FailsBelow(fs, broken, p);
      AfterDeleteWellFormed(fs, broken, p);
      fs := AfterDelete(fs, broken, p);
    }
  }
}

=== FILE: RemoteMkdirs.dfy ===
/** What `mkdirs(channel, path)` does, as a function of the server's tree:
    one `mkdir` per non-empty component, on the prefixes "/c1", "/c1/c2", ...
    in order; SSH_FX_FAILURE is swallowed and any other error status stops
    the loop and is rethrown. */
module RemoteMkdirs {
  import opened Common
  import opened RemotePaths
  import opened FileSystem
  import opened Sftp

  /** How a run ended: the status it rethrew (None when it returned), the
      server tree afterwards, and how many `mkdir` requests it sent. */
  datatype MkdirsOutcome = MkdirsOutcome(thrown: Option<int>, tree: Tree, attempts: nat)

  /** The `mkdir` requests of the first `n` prefixes of `cs`. */
  function MkdirCalls(cs: seq<string>, n: nat): (calls: seq<Call>)
    requires n <= |cs|
    ensures |calls| == n
  {
    if n == 0 then [] else MkdirCalls(cs, n - 1) + [Call(MkdirOp, AbsPrefix(cs[..n]))]
  }

  /** A location the server answers SSH_FX_FAILURE for when asked to create it. */
  predicate Settled(t: Tree, refuse: Refusals, p: Path) {
    MkdirStatus(t, refuse, p) == SSH_FX_FAILURE
  }

  /** The loop from component `i` on. */
  function Run(t: Tree, refuse: Refusals, cs: seq<string>, i: nat): (o: MkdirsOutcome)
    requires i <= |cs|
    ensures i <= o.attempts <= |cs|
    ensures o.thrown.None? ==> o.attempts == |cs|
    ensures o.thrown.Some? ==> o.attempts > i && o.thrown.value != SSH_FX_OK && o.thrown.value != SSH_FX_FAILURE
    decreases |cs| - i
  {
    if i == |cs| then MkdirsOutcome(None, t, i)
    else
      var p := Resolve(cs[..i + 1]);
      var status := MkdirStatus(t, refuse, p);
      if status == SSH_FX_OK || status == SSH_FX_FAILURE then Run(MkdirTree(t, refuse, p), refuse, cs, i + 1)
      else MkdirsOutcome(Some(status), t, i + 1)
  }

  /** One request of the loop. */
  lemma RunStep(t: Tree, refuse: Refusals, cs: seq<string>, i: nat)
    requires i < |cs|
    ensures var p := Resolve(cs[..i + 1]);
            var status := MkdirStatus(t, refuse, p);
            Run(t, refuse, cs, i) ==
              if status == SSH_FX_OK || status == SSH_FX_FAILURE then Run(MkdirTree(t, refuse, p), refuse, cs, i + 1)
              else MkdirsOutcome(Some(status), MkdirTree(t, refuse, p), i + 1)
  {
  }

  lemma MkdirCallsStep(cs: seq<string>, n: nat)
    requires n < |cs|
    ensures MkdirCalls(cs, n) + [Call(MkdirOp, AbsPrefix(cs[..n + 1]))] == MkdirCalls(cs, n + 1)
  {
  }

  /** The whole of `mkdirs(channel, path)`. */
  function Outcome(t: Tree, refuse: Refusals, path: string): MkdirsOutcome {
    Run(t, refuse, Components(path), 0)
  }

  /** Creating directories never removes or changes anything. */
  lemma {:induction false} RunGrows(t: Tree, refuse: Refusals, cs: seq<string>, i: nat)
    requires RefusalsWellFormed(refuse) && i <= |cs|
    ensures t.Keys <= Run(t, refuse, cs, i).tree.Keys
    ensures forall k :: k in t ==> Run(t, refuse, cs, i).tree[k] == t[k]
    decreases |cs| - i
  {
    if i < |cs| {
      var p := Resolve(cs[..i + 1]);
      var status := MkdirStatus(t, refuse, p);
      if status == SSH_FX_OK || status == SSH_FX_FAILURE {
        var u := MkdirTree(t, refuse, p);
        assert forall k :: k in t ==> k in u && u[k] == t[k];
        RunGrows(u, refuse, cs, i + 1);
      }
    }
  }

  /** Whatever a run adds is a directory. */
  lemma {:induction false} RunAddsDirs(t: Tree, refuse: Refusals, cs: seq<string>, i: nat)
    requires RefusalsWellFormed(refuse) && i <= |cs|
    ensures forall k :: k in Run(t, refuse, cs, i).tree && k !in t ==> Run(t, refuse, cs, i).tree[k] == Dir
    decreases |cs| - i
  {
    if i < |cs| {
      var p := Resolve(cs[..i + 1]);
      var status := MkdirStatus(t, refuse, p);
      if status == SSH_FX_OK || status == SSH_FX_FAILURE {
        var u := MkdirTree(t, refuse, p);
        RunAddsDirs(u, refuse, cs, i + 1);
        RunGrows(u, refuse, cs, i + 1);
      }
    }
  }

  /** A location stays settled while the tree only grows. */
  lemma SettledKept(t: Tree, u: Tree, refuse: Refusals, p: Path)
    requires Settled(t, refuse, p) && t.Keys <= u.Keys
    ensures Settled(u, refuse, p)
  {
  }

  /** After a run that returns, every prefix it visited is settled: a second
      request for any of them would be answered with SSH_FX_FAILURE. */
  lemma {:induction false} RunSettles(t: Tree, refuse: Refusals, cs: seq<string>, i: nat)
    requires RefusalsWellFormed(refuse) && i <= |cs|
    requires Run(t, refuse, cs, i).thrown.None?
    ensures forall j :: i < j <= |cs| ==> Settled(Run(t, refuse, cs, i).tree, refuse, Resolve(cs[..j]))
    decreases |cs| - i
  {
    if i < |cs| {
      var p := Resolve(cs[..i + 1]);
      var u := MkdirTree(t, refuse, p);
      RunSettles(u, refuse, cs, i + 1);
      RunGrows(u, refuse, cs, i + 1);
      assert Settled(u, refuse, p);
      SettledKept(u, Run(u, refuse, cs, i + 1).tree, refuse, p);
    }
  }

  /** A run over settled prefixes changes nothing and returns. */
  lemma {:induction false} RunOnSettled(t: Tree, refuse: Refusals, cs: seq<string>, i: nat)
    requires i <= |cs|
    requires forall j :: i < j <= |cs| ==> Settled(t, refuse, Resolve(cs[..j]))
    ensures Run(t, refuse, cs, i) == MkdirsOutcome(None, t, |cs|)
    decreases |cs| - i
  {
    if i < |cs| {
      var p := Resolve(cs[..i + 1]);
      assert Settled(t, refuse, p);
      assert MkdirTree(t, refuse, p) == t;
      RunOnSettled(t, refuse, cs, i + 1);
    }
  }

  /** `mkdirs` is idempotent: once a call has returned, calling it again on
      the same path returns too and leaves the server's tree as it is. */
  lemma MkdirsIdempotent(t: Tree, refuse: Refusals, path: string)
    requires RefusalsWellFormed(refuse)
    requires Outcome(t, refuse, path).thrown.None?
    ensures var once := Outcome(t, refuse, path).tree;
            Outcome(once, refuse, path) == MkdirsOutcome(None, once, |Components(path)|)
  {
    var cs := Components(path);
    if Outcome(t, refuse, path).thrown.None? {
      RunSettles(t, refuse, cs, 0);
    }
    RunOnSettled(Run(t, refuse, cs, 0).tree, refuse, cs, 0);
  }

  /** Every request `mkdirs` sends names an absolute path, even for a
      relative `path`. */
  lemma MkdirCallsAbsolute(cs: seq<string>, n: nat, j: nat)
    requires j < n <= |cs|
    ensures var q := MkdirCalls(cs, n)[j].path; |q| > 0 && q[0] == '/'
  {
    MkdirCallAt(cs, n, j);
    AbsPrefixStartsWithSlash(cs[..j + 1]);
  }

  lemma {:induction false} MkdirCallAt(cs: seq<string>, n: nat, j: nat)
    requires j < n <= |cs|
    ensures MkdirCalls(cs, n)[j] == Call(MkdirOp, AbsPrefix(cs[..j + 1]))
    decreases n
  {
    if j < n - 1 {
      MkdirCallAt(cs, n - 1, j);
    }
  }

  lemma {:induction false} AbsPrefixStartsWithSlash(cs: seq<string>)
    requires cs != []
    ensures |AbsPrefix(cs)| > 0 && AbsPrefix(cs)[0] == '/'
    decreases |cs|
  {
    if |cs| > 1 {
      AbsPrefixStartsWithSlash(cs[..|cs| - 1]);
    }
  }

  /** Skip the prefixes of `cs` that are already settled. */
  lemma {:induction false} RunSkipsSettled(t: Tree, refuse: Refusals, cs: seq<string>, i: nat, k: nat)
    requires i <= k <= |cs|
    requires forall j :: i < j <= k ==> Settled(t, refuse, Resolve(cs[..j]))
    ensures Run(t, refuse, cs, i) == Run(t, refuse, cs, k)
    decreases k - i
  {
    if i < k {
      var p := Resolve(cs[..i + 1]);
      assert Settled(t, refuse, p);
      assert MkdirTree(t, refuse, p) == t;
      RunSkipsSettled(t, refuse, cs, i + 1, k);
    }
  }

  /** Every proper prefix of `cs` is settled. */
  predicate ParentsSettled(t: Tree, refuse: Refusals, cs: seq<string>) {
    forall j :: 0 < j < |cs| ==> Settled(t, refuse, Resolve(cs[..j]))
  }

  /** When the parents are already settled, `mkdirs` can only create the
      last location, and rethrows exactly when that `mkdir` fails with
      something other than SSH_FX_FAILURE. */
  lemma RunTouchesOnlyLast(t: Tree, refuse: Refusals, cs: seq<string>)
    requires cs != [] && ParentsSettled(t, refuse, cs)
    ensures var o := Run(t, refuse, cs, 0);
            var status := MkdirStatus(t, refuse, Resolve(cs));
            && o.tree == MkdirTree(t, refuse, Resolve(cs))
            && (o.thrown.None? <==> status == SSH_FX_OK || status == SSH_FX_FAILURE)
  {
    var n := |cs| - 1;
    RunSkipsSettled(t, refuse, cs, 0, n);
    assert cs[..n + 1] == cs;
    var p := Resolve(cs);
    var status := MkdirStatus(t, refuse, p);
    if status == SSH_FX_OK || status == SSH_FX_FAILURE {
      assert Run(t, refuse, cs, n) == Run(MkdirTree(t, refuse, p), refuse, cs, n + 1);
    } else {
      assert Run(t, refuse, cs, n) == MkdirsOutcome(Some(status), t, n + 1);
    }
  }

  /** One more element of the split path: an empty one is skipped, any
      other is the next component. */
  lemma FolderStep(folders: seq<string>, i: nat, cs: seq<string>, k: nat)
    requires i < |folders| && k <= |cs|
    requires NonEmpty(folders[..i]) == cs[..k] && NonEmpty(folders[i..]) == cs[k..]
    ensures folders[i] == [] ==> NonEmpty(folders[..i + 1]) == cs[..k] && NonEmpty(folders[i + 1..]) == cs[k..]
    ensures folders[i] != [] ==>
              (k < |cs| && cs[k] == folders[i]
               && NonEmpty(folders[..i + 1]) == cs[..k + 1] && NonEmpty(folders[i + 1..]) == cs[k + 1..])
  {
    var folder := folders[i];
    NonEmptyConcat([folder], folders[i + 1..]);
    assert folders[i..] == [folder] + folders[i + 1..];
    NonEmptyConcat(folders[..i], [folder]);
    assert folders[..i + 1] == folders[..i] + [folder];
    if folder != [] {
      assert cs[k..] == [folder] + NonEmpty(folders[i + 1..]);
      assert cs[..k + 1] == cs[..k] + [cs[k]];
      assert cs[k + 1..] == cs[k..][1..];
    }
  }

  /** The path `mkdirs` builds after `k + 1` components names the location
      those components resolve to. */
  lemma PrefixLocation(path: string, k: nat)
    requires k < |Components(path)|
    ensures var cs := Components(path);
            && AbsPrefix(cs[..k]) + "/" + cs[k] == AbsPrefix(cs[..k + 1])
            && Locate(AbsPrefix(cs[..k + 1])) == Resolve(cs[..k + 1])
  {
    var cs := Components(path);
    CompsArePieces(path, []);
    assert cs[..k + 1][..k] == cs[..k];
    assert forall j :: 0 <= j < k + 1 ==> cs[..k + 1][j] == cs[j];
    AbsPrefixComponents(cs[..k + 1]);
  }

  /** The loop state after one more `mkdir` that was answered `status`. */
  lemma Advance(refuse: Refusals, cs: seq<string>, k: nat, before: Tree, after: Tree, status: int)
    requires k < |cs|
    requires status == MkdirStatus(before, refuse, Resolve(cs[..k + 1]))
    requires after == MkdirTree(before, refuse, Resolve(cs[..k + 1]))
    ensures status == SSH_FX_OK || status == SSH_FX_FAILURE ==>
              Run(before, refuse, cs, k) == Run(after, refuse, cs, k + 1)
    ensures status != SSH_FX_OK && status != SSH_FX_FAILURE ==>
              Run(before, refuse, cs, k) == MkdirsOutcome(Some(status), after, k + 1)
  {
    RunStep(before, refuse, cs, k);
  }

  lemma TraceAdvance(trace0: seq<Call>, sent: seq<Call>, now: seq<Call>, cs: seq<string>, k: nat)
    requires k < |cs|
    requires sent == trace0 + MkdirCalls(cs, k)
    requires now == sent + [Call(MkdirOp, AbsPrefix(cs[..k + 1]))]
    ensures now == trace0 + MkdirCalls(cs, k + 1)
  {
    MkdirCallsStep(cs, k);
  }

  /** Every prefix of `cs`, `cs` included, is settled. */
  predicate AllSettled(t: Tree, refuse: Refusals, cs: seq<string>) {
    forall j :: 0 < j <= |cs| ==> Settled(t, refuse, Resolve(cs[..j]))
  }

  lemma AllSettledKept(t: Tree, u: Tree, refuse: Refusals, cs: seq<string>)
    requires AllSettled(t, refuse, cs) && t.Keys <= u.Keys
    ensures AllSettled(u, refuse, cs)
  {
    forall j | 0 < j <= |cs| ensures Settled(u, refuse, Resolve(cs[..j])) {
      SettledKept(t, u, refuse, Resolve(cs[..j]));
    }
  }

  /** Once a directory's prefixes are all settled, so are the parents of
      each of its entries. */
  lemma ChildParentsSettled(t: Tree, refuse: Refusals, cs: seq<string>, name: string)
    requires AllSettled(t, refuse, cs)
    ensures ParentsSettled(t, refuse, cs + [name])
  {
    forall j | 0 < j < |cs| + 1 ensures (cs + [name])[..j] == cs[..j] { }
  }

  /** When no injected refusal of `mkdir` answers SSH_FX_FAILURE, a settled
      location exists. */
  lemma SettledExists(t: Tree, refuse: Refusals, cs: seq<string>)
    requires AllSettled(t, refuse, cs) && MkdirFailureMeansExists(refuse)
    ensures Exists(t, Resolve(cs))
  {
    if cs != [] {
      assert cs[..|cs|] == cs;
      assert Settled(t, refuse, Resolve(cs[..|cs|]));
    }
  }

  /** `mkdirs` removes and changes nothing and adds only directories, and
      a returning one leaves every prefix settled; with settled parents it
      changes nothing outside its last location. */
  lemma MkdirsEffect(t: Tree, refuse: Refusals, path: string)
    requires RefusalsWellFormed(refuse)
    ensures Outcome(t, refuse, path).thrown.None? ==> AllSettled(Outcome(t, refuse, path).tree, refuse, Components(path))
    ensures t.Keys <= Outcome(t, refuse, path).tree.Keys
    ensures forall k :: k in t ==> Outcome(t, refuse, path).tree[k] == t[k]
    ensures forall k :: k in Outcome(t, refuse, path).tree && k !in t ==> Outcome(t, refuse, path).tree[k] == Dir
    ensures ParentsSettled(t, refuse, Components(path)) ==>
              SameOutside(t, Outcome(t, refuse, path).tree, Locate(path))
  {
    var cs := Components(path);
    if Outcome(t, refuse, path).thrown.None? {
      RunSettles(t, refuse, cs, 0);
    }
    RunGrows(t, refuse, cs, 0);
    RunAddsDirs(t, refuse, cs, 0);
    if cs != [] && ParentsSettled(t, refuse, cs) {
      RunTouchesOnlyLast(t, refuse, cs);
    }
  }

  /** `mkdirs(channel, path)`. */
  method Mkdirs(channel: Channel, path: string) returns (thrown: Option<int>)
    requires channel.Valid()
    modifies channel
    ensures channel.Valid() && channel.connected == old(channel.connected)
    ensures var o := Outcome(old(channel.fs), channel.refuse, path);
            && thrown == o.thrown
            && channel.fs == o.tree
            && channel.trace == old(channel.trace) + MkdirCalls(Components(path), o.attempts)
  {
    var folders := Pieces(path);
    ghost var cs := Components(path);
    NonEmptyPieces(path, []);
    var currentPath := "";
    ghost var k := 0;
    ghost var trace0 := channel.trace;
    for i := 0 to |folders|
      invariant channel.Valid() && channel.connected == old(channel.connected)
      invariant k <= |cs| && NonEmpty(folders[..i]) == cs[..k]
      invariant NonEmpty(folders[i..]) == cs[k..]
      invariant currentPath == AbsPrefix(cs[..k])
      invariant Run(old(channel.fs), channel.refuse, cs, 0) == Run(channel.fs, channel.refuse, cs, k)
      invariant channel.trace == trace0 + MkdirCalls(cs, k)
    {
      var folder := folders[i];
      FolderStep(folders, i, cs, k);
      if folder == [] {
        continue;
      }
      currentPath := currentPath + "/" + folder;
      PrefixLocation(path, k);
      ghost var before := channel.fs;
      ghost var sent := channel.trace;
      var status := channel.Mkdir(currentPath);
      Advance(channel.refuse, cs, k, before, channel.fs, status);
      TraceAdvance(trace0, sent, channel.trace, cs, k);
      if status != SSH_FX_OK && status != SSH_FX_FAILURE {
        return Some(status);
      }
      k := k + 1;
    }
    assert folders[..|folders|] == folders;
    return None;
  }
}

=== FILE: RemotePaths.dfy ===
/** Remote path strings: the join used for every remote path
    (`combineRemotePaths`), the '/'-components a path names, and the way the
    server resolves those components to a location in its tree. */
module RemotePaths {

  /** True when `s` has no two adjacent '/' characters. */
  predicate NoDoubleSlash(s: string) {
    forall i :: 0 <= i < |s| - 1 ==> !(s[i] == '/' && s[i + 1] == '/')
  }

  /** The characters of `s` that are not '/', in order. */
  function NonSlash(s: string): string {
    if s == [] then []
    else (if s[0] == '/' then [] else [s[0]]) + NonSlash(s[1..])
  }

  lemma {:induction false} NonSlashConcat(a: string, b: string)
    ensures NonSlash(a + b) == NonSlash(a) + NonSlash(b)
  {
    if a != [] {
      var head := if a[0] == '/' then [] else [a[0]];
      calc {
        NonSlash(a + b);
        { assert (a + b)[0] == a[0]; assert (a + b)[1..] == a[1..] + b; }
        head + NonSlash(a[1..] + b);
        { NonSlashConcat(a[1..], b); }
        head + (NonSlash(a[1..]) + NonSlash(b));
        NonSlash(a) + NonSlash(b);
      }
    } else {
      assert a + b == b;
    }
  }

  /** `s.replaceAll("/+$", "")`: drop the run of '/' that ends the string. */
  function StripTrailing(s: string): (r: string)
    ensures |r| <= |s| && r == s[..|r|]
    ensures r == [] || r[|r| - 1] != '/'
    ensures forall i :: |r| <= i < |s| ==> s[i] == '/'
  {
    if |s| > 0 && s[|s| - 1] == '/' then StripTrailing(s[..|s| - 1]) else s
  }

  /** `s.replaceAll("^/+", "")`: drop the run of '/' that starts the string. */
  function StripLeading(s: string): (r: string)
    ensures |r| <= |s| && r == s[|s| - |r|..]
    ensures r == [] || r[0] != '/'
    ensures forall i :: 0 <= i < |s| - |r| ==> s[i] == '/'
  {
    if |s| > 0 && s[0] == '/' then StripLeading(s[1..]) else s
  }

  lemma NoDoubleSlashCons(c: char, rest: string)
    requires NoDoubleSlash(rest) && !(c == '/' && rest != [] && rest[0] == '/')
    ensures NoDoubleSlash([c] + rest)
  {
    var r := [c] + rest;
    forall i | 0 <= i < |r| - 1 ensures !(r[i] == '/' && r[i + 1] == '/') {
      if i > 0 {
        assert r[i] == rest[i - 1] && r[i + 1] == rest[i];
      }
    }
  }

  /** `s.replaceAll("/+", "/")`: every run of '/' becomes a single '/'. */
  function Collapse(s: string): (r: string)
    ensures |s| > 0 ==> |r| > 0 && r[0] == s[0] && r[|r| - 1] == s[|s| - 1]
  {
    if |s| <= 1 then s
    else if s[0] == '/' && s[1] == '/' then
      assert s[1..][|s| - 2] == s[|s| - 1];
      Collapse(s[1..])
    else
      var rest := Collapse(s[1..]);
      assert s[1..][|s| - 2] == s[|s| - 1];
      [s[0]] + rest
  }

  /** Collapsing leaves no "//" and keeps every other character in order. */
  lemma {:induction false} CollapseNormalises(s: string)
    ensures NoDoubleSlash(Collapse(s))
    ensures NonSlash(Collapse(s)) == NonSlash(s)
    decreases |s|
  {
    if |s| <= 1 {
    } else if s[0] == '/' && s[1] == '/' {
      CollapseNormalises(s[1..]);
      assert NonSlash(s) == NonSlash(s[1..]);
    } else {
      CollapseNormalises(s[1..]);
      var rest := Collapse(s[1..]);
      var r := [s[0]] + rest;
      assert Collapse(s) == r;
      assert r[1..] == rest;
      NoDoubleSlashCons(s[0], rest);
    }
  }

  /** `combineRemotePaths(base, addition)`. */
  function CombineRemotePaths(base: string, addition: string): (r: string)
    ensures |r| > 0
    ensures NoDoubleSlash(r)
    ensures NonSlash(r) == NonSlash(base + addition)
    ensures Components(r) == Components(base) + Components(addition)
  {
    JoinKeepsNonSlash(base, addition);
    JoinKeepsComponents(base, addition);
    CollapseNormalises(StripTrailing(base) + "/" + StripLeading(addition));
    Collapse(StripTrailing(base) + "/" + StripLeading(addition))
  }

  lemma JoinKeepsNonSlash(base: string, addition: string)
    ensures NonSlash(Collapse(StripTrailing(base) + "/" + StripLeading(addition)))
         == NonSlash(base + addition)
  {
    var b := StripTrailing(base);
    var a := StripLeading(addition);
    CollapseNormalises(b + "/" + a);
    NonSlashAroundSlash(b, a);
    NonSlashStripTrailing(base);
    NonSlashStripLeading(addition);
    NonSlashConcat(base, addition);
  }

  /** The '/' the join puts between its parts adds no character. */
  lemma NonSlashAroundSlash(b: string, a: string)
    ensures NonSlash(b + "/" + a) == NonSlash(b) + NonSlash(a)
  {
    NonSlashConcat(b + "/", a);
    NonSlashConcat(b, "/");
    NonSlashSlash();
  }

  lemma NonSlashSlash()
    ensures NonSlash("/") == []
  {
    assert "/"[1..] == [];
  }

  lemma NonSlashStripTrailing(s: string)
    ensures NonSlash(StripTrailing(s)) == NonSlash(s)
  {
    var r := StripTrailing(s);
    assert s == r + s[|r|..];
    AllSlashes(s[|r|..]);
    NonSlashConcat(r, s[|r|..]);
  }

  lemma NonSlashStripLeading(s: string)
    ensures NonSlash(StripLeading(s)) == NonSlash(s)
  {
    var r := StripLeading(s);
    var n := |s| - |r|;
    var head := s[..n];
    assert r == s[n..];
    assert s == head + r;
    forall i | 0 <= i < |head| ensures head[i] == '/' {
      assert head[i] == s[i];
    }
    AllSlashes(head);
    NonSlashConcat(head, r);
  }

  lemma JoinKeepsComponents(base: string, addition: string)
    ensures Components(Collapse(StripTrailing(base) + "/" + StripLeading(addition)))
         == Components(base) + Components(addition)
  {
    var b := StripTrailing(base);
    var a := StripLeading(addition);
    CompsCollapse(b + "/" + a, []);
    CompsJoin(b, a, []);
    CompsStripTrailing(base);
    CompsStripLeading(addition);
  }

  lemma {:induction false} AllSlashes(s: string)
    requires forall i :: 0 <= i < |s| ==> s[i] == '/'
    ensures NonSlash(s) == []
  {
    if s != [] { AllSlashes(s[1..]); }
  }

  // ---------------------------------------------------------------------
  // Components: the non-empty pieces between '/' characters, as
  // `path.split("/")` gives them once the empty pieces are skipped.

  /** Split `s` into its non-empty '/'-free pieces; `cur` is the piece read so far. */
  function CompsAcc(s: string, cur: string): seq<string>
    decreases |s|
  {
    if s == [] then (if cur == [] then [] else [cur])
    else if s[0] == '/' then (if cur == [] then [] else [cur]) + CompsAcc(s[1..], [])
    else CompsAcc(s[1..], cur + [s[0]])
  }

  function Components(s: string): seq<string> {
    CompsAcc(s, [])
  }

  /** Every piece between '/' characters, empty ones included. */
  function PiecesAcc(s: string, cur: string): seq<string>
    decreases |s|
  {
    if s == [] then [cur]
    else if s[0] == '/' then [cur] + PiecesAcc(s[1..], [])
    else PiecesAcc(s[1..], cur + [s[0]])
  }

  /** `s.split("/")` before empty strings are skipped: the pieces joined
      back with '/' give `s`, none holds a '/', and the non-empty ones are
      the components. */
  function Pieces(s: string): (r: seq<string>)
    ensures r != [] && JoinSlash(r) == s
    ensures forall i :: 0 <= i < |r| ==> '/' !in r[i]
    ensures NonEmpty(r) == Components(s)
  {
    PiecesJoin(s, []);
    PiecesHaveNoSlash(s, []);
    NonEmptyPieces(s, []);
    PiecesAcc(s, [])
  }

  /** The strings of `xs` with a '/' between each two. */
  function JoinSlash(xs: seq<string>): string
    requires xs != []
  {
    if |xs| == 1 then xs[0] else xs[0] + "/" + JoinSlash(xs[1..])
  }

  lemma {:induction false} PiecesJoin(s: string, cur: string)
    ensures PiecesAcc(s, cur) != [] && JoinSlash(PiecesAcc(s, cur)) == cur + s
    decreases |s|
  {
    if s == [] {
      assert cur + s == cur;
    } else if s[0] == '/' {
      var rest := PiecesAcc(s[1..], []);
      PiecesJoin(s[1..], []);
      assert ([cur] + rest)[1..] == rest;
      assert [] + s[1..] == s[1..];
      assert cur + "/" + s[1..] == cur + s;
    } else {
      PiecesJoin(s[1..], cur + [s[0]]);
      assert cur + [s[0]] + s[1..] == cur + s;
    }
  }

  lemma {:induction false} PiecesHaveNoSlash(s: string, cur: string)
    requires '/' !in cur
    ensures forall i :: 0 <= i < |PiecesAcc(s, cur)| ==> '/' !in PiecesAcc(s, cur)[i]
    decreases |s|
  {
    if s == [] {
    } else if s[0] == '/' {
      PiecesHaveNoSlash(s[1..], []);
      var rest := PiecesAcc(s[1..], []);
      assert forall i :: 1 <= i < |[cur] + rest| ==> ([cur] + rest)[i] == rest[i - 1];
    } else {
      PiecesHaveNoSlash(s[1..], cur + [s[0]]);
    }
  }

  /** Keep the non-empty strings of `xs` (the `if (folder.isEmpty()) continue;` filter). */
  function NonEmpty(xs: seq<string>): seq<string> {
    if xs == [] then []
    else (if xs[0] == [] then [] else [xs[0]]) + NonEmpty(xs[1..])
  }

  lemma {:induction false} NonEmptyConcat(a: seq<string>, b: seq<string>)
    ensures NonEmpty(a + b) == NonEmpty(a) + NonEmpty(b)
  {
    if a != [] {
      var head := if a[0] == [] then [] else [a[0]];
      calc {
        NonEmpty(a + b);
        { assert (a + b)[0] == a[0]; assert (a + b)[1..] == a[1..] + b; }
        head + NonEmpty(a[1..] + b);
        { NonEmptyConcat(a[1..], b); }
        head + (NonEmpty(a[1..]) + NonEmpty(b));
        NonEmpty(a) + NonEmpty(b);
      }
    } else {
      assert a + b == b;
    }
  }

  /** Skipping the empty pieces of the split gives exactly the components. */
  lemma {:induction false} NonEmptyPieces(s: string, cur: string)
    ensures NonEmpty(PiecesAcc(s, cur)) == CompsAcc(s, cur)
    decreases |s|
  {
    if s == [] {
    } else if s[0] == '/' {
      NonEmptyConcat([cur], PiecesAcc(s[1..], []));
      NonEmptyPieces(s[1..], []);
    } else {
      NonEmptyPieces(s[1..], cur + [s[0]]);
    }
  }

  /** A component is a non-empty string without '/'. */
  predicate IsPiece(c: string) {
    c != [] && '/' !in c
  }

  lemma {:induction false} CompsArePieces(s: string, cur: string)
    requires '/' !in cur
    ensures forall i :: 0 <= i < |CompsAcc(s, cur)| ==> IsPiece(CompsAcc(s, cur)[i])
    decreases |s|
  {
    if s == [] {
    } else if s[0] == '/' {
      CompsArePieces(s[1..], []);
    } else {
      CompsArePieces(s[1..], cur + [s[0]]);
    }
  }

  lemma {:induction false} CompsCollapse(s: string, cur: string)
    ensures CompsAcc(Collapse(s), cur) == CompsAcc(s, cur)
    decreases |s|
  {
    if |s| <= 1 {
    } else if s[0] == '/' && s[1] == '/' {
      CompsCollapse(s[1..], cur);
      assert s[1..][1..] == s[2..];
    } else {
      var rest := Collapse(s[1..]);
      assert ([s[0]] + rest)[1..] == rest;
      if s[0] == '/' {
        CompsCollapse(s[1..], []);
      } else {
        CompsCollapse(s[1..], cur + [s[0]]);
      }
    }
  }

  lemma {:induction false} CompsJoin(a: string, b: string, cur: string)
    ensures CompsAcc(a + "/" + b, cur) == CompsAcc(a, cur) + CompsAcc(b, [])
    decreases |a|
  {
    if a == [] {
      assert ([] + "/" + b)[1..] == b;
    } else {
      assert (a + "/" + b)[1..] == a[1..] + "/" + b;
      if a[0] == '/' {
        CompsJoin(a[1..], b, []);
      } else {
        CompsJoin(a[1..], b, cur + [a[0]]);
      }
    }
  }

  lemma CompsStripTrailing(s: string)
    ensures Components(StripTrailing(s)) == Components(s)
  {
    var r := StripTrailing(s);
    TrailingSlashes(r, s[|r|..]);
    assert s == r + s[|r|..];
  }

  lemma {:induction false} TrailingSlashes(r: string, t: string)
    requires forall i :: 0 <= i < |t| ==> t[i] == '/'
    ensures Components(r + t) == Components(r)
    decreases |t|
  {
    if t != [] {
      assert t == "/" + t[1..];
      assert r + t == r + "/" + t[1..];
      calc {
        Components(r + t);
        { CompsJoin(r, t[1..], []); }
        CompsAcc(r, []) + CompsAcc(t[1..], []);
        { SlashesOnly(t[1..]); }
        Components(r);
      }
    } else {
      assert r + t == r;
    }
  }

  lemma {:induction false} SlashesOnly(t: string)
    requires forall i :: 0 <= i < |t| ==> t[i] == '/'
    ensures CompsAcc(t, []) == []
  {
    if t != [] { SlashesOnly(t[1..]); }
  }

  lemma {:induction false} CompsStripLeading(s: string)
    ensures Components(StripLeading(s)) == Components(s)
    decreases |s|
  {
    if |s| > 0 && s[0] == '/' { CompsStripLeading(s[1..]); }
  }

  lemma {:induction false} CompsOfPiece(c: string, cur: string)
    requires '/' !in c && cur + c != []
    ensures CompsAcc(c, cur) == [cur + c]
    decreases |c|
  {
    if c == [] {
      assert cur + c == cur;
    } else {
      assert cur + c == (cur + [c[0]]) + c[1..];
      CompsOfPiece(c[1..], cur + [c[0]]);
    }
  }

  /** Joining a single component adds exactly that component. */
  lemma CombineChild(dir: string, name: string)
    requires IsPiece(name)
    ensures Components(CombineRemotePaths(dir, name)) == Components(dir) + [name]
  {
    CompsOfPiece(name, []);
    assert [] + name == name;
  }

  // ---------------------------------------------------------------------
  // The prefixes `mkdirs` builds: "/c1", "/c1/c2", ...

  /** `"/" + cs[0] + "/" + cs[1] + ...`, the `currentPath` after reading `cs`. */
  function AbsPrefix(cs: seq<string>): string {
    if cs == [] then "" else AbsPrefix(cs[..|cs| - 1]) + "/" + cs[|cs| - 1]
  }

  /** The server reads back exactly the components `mkdirs` appended. */
  lemma {:induction false} AbsPrefixComponents(cs: seq<string>)
    requires forall i :: 0 <= i < |cs| ==> IsPiece(cs[i])
    ensures Components(AbsPrefix(cs)) == cs
    decreases |cs|
  {
    if cs != [] {
      var init := cs[..|cs| - 1];
      AbsPrefixComponents(init);
      CompsJoin(AbsPrefix(init), cs[|cs| - 1], []);
      CompsOfPiece(cs[|cs| - 1], []);
      assert [] + cs[|cs| - 1] == cs[|cs| - 1];
      assert init + [cs[|cs| - 1]] == cs;
    }
  }

  // ---------------------------------------------------------------------
  // Server-side resolution of components: "." stays, ".." goes up.

  /** A name that can label an entry of a directory. */
  predicate ValidName(n: string) {
    IsPiece(n) && n != "." && n != ".."
  }

  predicate ValidPath(p: seq<string>) {
    forall i :: 0 <= i < |p| ==> ValidName(p[i])
  }

  /** The location the components `xs` name, read left to right from the root. */
  function Resolve(xs: seq<string>): (p: seq<string>)
    ensures (forall i :: 0 <= i < |xs| ==> IsPiece(xs[i])) ==> ValidPath(p)
  {
    if xs == [] then []
    else
      var up := Resolve(xs[..|xs| - 1]);
      var last := xs[|xs| - 1];
      assert forall i :: 0 <= i < |xs| - 1 ==> xs[..|xs| - 1][i] == xs[i];
      if last == "." then up
      else if last == ".." then (if up == [] then [] else up[..|up| - 1])
      else up + [last]
  }

  lemma ResolveChild(xs: seq<string>, name: string)
    requires ValidName(name)
    ensures Resolve(xs + [name]) == Resolve(xs) + [name]
  {
    assert (xs + [name])[..|xs|] == xs;
  }

  /** The location a remote path string names. */
  function Locate(s: string): (p: seq<string>)
    ensures ValidPath(p)
  {
    CompsArePieces(s, []);
    Resolve(Components(s))
  }

  /** The remote child path the walks build names the child location. */
  lemma LocateChild(dir: string, name: string)
    requires ValidName(name)
    ensures Locate(CombineRemotePaths(dir, name)) == Locate(dir) + [name]
  {
    CombineChild(dir, name);
    ResolveChild(Components(dir), name);
  }

  /** `combineRemotePaths(dir, name)` as the directory walks call it, with
      the name of a listed entry: the result names that entry of `dir`. */
  method ChildRemotePath(dir: string, name: string) returns (r: string)
    requires ValidName(name)
    ensures Components(r) == Components(dir) + [name]
    ensures Locate(r) == Locate(dir) + [name]
  {
    r := CombineRemotePaths(dir, name);
    CombineChild(dir, name);
    LocateChild(dir, name);
  }

  // ---------------------------------------------------------------------
  // Facts about the join as written.

  /** Collapsing a string that has no run of '/' changes nothing. */
  lemma {:induction false} CollapseNoRuns(s: string)
    requires NoDoubleSlash(s)
    ensures Collapse(s) == s
  {
    if |s| > 1 {
      assert NoDoubleSlash(s[1..]);
      CollapseNoRuns(s[1..]);
    }
  }

  lemma JoinedExample()
    ensures Collapse("/a/b" + "/" + "c") == "/a/b/c"
  {
    assert "/a/b" + "/" + "c" == "/a/b/c";
    CollapseNoRuns("/a/b/c");
  }

  /** Joining "/a/b/" with "/c", "/a/b" with "c" and "/a/b" with "/c"
      each give "/a/b/c". */
  lemma CombineExampleTrailing()
    ensures CombineRemotePaths("/a/b/", "/c") == "/a/b/c"
  {
    assert "/a/b/"[..4] == "/a/b";
    assert StripTrailing("/a/b/") == StripTrailing("/a/b") == "/a/b";
    assert "/c"[1..] == "c";
    assert StripLeading("/c") == StripLeading("c") == "c";
    JoinedExample();
  }

  lemma CombineExamplePlain()
    ensures CombineRemotePaths("/a/b", "c") == "/a/b/c"
  {
    assert StripTrailing("/a/b") == "/a/b";
    assert StripLeading("c") == "c";
    JoinedExample();
  }

  lemma CombineExampleRuns()
    ensures CombineRemotePaths("/a/b//", "//c") == "/a/b/c"
  {
    StripRunsExample();
    JoinedExample();
  }

  lemma StripRunsExample()
    ensures StripTrailing("/a/b//") == "/a/b"
    ensures StripLeading("//c") == "c"
  {
    StripTrailingExample();
    StripLeadingExample();
  }

  lemma StripLeadingExample()
    ensures StripLeading("//c") == "c"
  {
    assert StripLeading("c") == "c";
  }

  lemma StripTrailingExample()
    ensures StripTrailing("/a/b//") == "/a/b"
  {
    assert "/a/b//"[..5] == "/a/b/";
    assert "/a/b/"[..4] == "/a/b";
    assert StripTrailing("/a/b/") == "/a/b";
  }

  /** Joining with an empty addition leaves a trailing '/'. */
  lemma CombineEmptyEndsWithSlash(base: string)
    ensures var r := CombineRemotePaths(base, "");
            r[|r| - 1] == '/'
  {
    assert StripLeading("") == "";
  }

  /** So joining a second time with "" is not a no-op: whenever the first
      join ends in a non-'/' character, the second one appends a '/'. */
  lemma CombineAgainWithEmpty(a: string, b: string)
    requires b != [] && b[|b| - 1] != '/'
    ensures CombineRemotePaths(CombineRemotePaths(a, b), "") != CombineRemotePaths(a, b)
  {
    var once := CombineRemotePaths(a, b);
    var sb := StripLeading(b);
    assert sb[|sb| - 1] == b[|b| - 1];
    var joined := StripTrailing(a) + "/" + sb;
    assert joined[|joined| - 1] == b[|b| - 1];
    assert once[|once| - 1] != '/';
    CombineEmptyEndsWithSlash(once);
  }
}

=== FILE: Settings.dfy ===
/** `SftpConfig`: the settings a transfer reads. Only the fields the core
    uses are modelled; `None` stands for a property left unset (null). */
module Settings {
  import opened Common
  import opened Ascii

  datatype SftpConfig = SftpConfig(
    localBasePath: string,
    remoteBasePath: string,
    integrityCheck: Option<string>,
    deleteSource: Option<string>)
  {
    /** `shouldDeleteSource()`: deletion is enabled exactly when the flag
        is set to "yes" in some letter case; an unset (null) flag disables
        it. */
    predicate ShouldDeleteSource(): (r: bool)
      ensures r <==> deleteSource.Some? && IsYesAnyCase(deleteSource.value)
    {
      YesIgnoringCase(deleteSource);
      EqualsIgnoreCase("yes", deleteSource)
    }
  }

  /** "yes" written in any mix of letter cases. */
  predicate IsYesAnyCase(s: string) {
    |s| == 3 && (s[0] == 'y' || s[0] == 'Y') && (s[1] == 'e' || s[1] == 'E') && (s[2] == 's' || s[2] == 'S')
  }

  /** Equal to "yes" ignoring case means "yes" in some mix of cases. */
  lemma YesIgnoringCase(v: Option<string>)
    ensures EqualsIgnoreCase("yes", v) <==> v.Some? && IsYesAnyCase(v.value)
  {
    if v.Some? && |v.value| == 3 {
      var s := v.value;
      assert CharsEqualIgnoreCase('y', s[0]) <==> s[0] == 'y' || s[0] == 'Y';
      assert CharsEqualIgnoreCase('e', s[1]) <==> s[1] == 'e' || s[1] == 'E';
      assert CharsEqualIgnoreCase('s', s[2]) <==> s[2] == 's' || s[2] == 'S';
    }
  }

  /** Sample values: "yes", "YES", "Yes" enable deletion; "y", "true",
      " yes" and an unset flag do not. */
  lemma ShouldDeleteSourceExamples(c: SftpConfig)
    ensures c.(deleteSource := Some("yes")).ShouldDeleteSource()
    ensures c.(deleteSource := Some("YES")).ShouldDeleteSource()
    ensures c.(deleteSource := Some("Yes")).ShouldDeleteSource()
    ensures !c.(deleteSource := Some("y")).ShouldDeleteSource()
    ensures !c.(deleteSource := Some("true")).ShouldDeleteSource()
    ensures !c.(deleteSource := Some(" yes")).ShouldDeleteSource()
    ensures !c.(deleteSource := None).ShouldDeleteSource()
  {
  }
}

=== FILE: Sftp.dfy ===
/** The remote end: an SFTP channel over a modelled server filesystem. Each
    operation answers with a status code of the SSH File Transfer Protocol
    (draft-ietf-secsh-filexfer-02, section 7); a non-OK status is what JSch
    raises as an `SftpException`. A test harness can make the server refuse
    any operation on any location with a status of its choice, and can make
    the server store something other than what was written. */
module Sftp {
  import opened Common
  import opened RemotePaths
  import opened FileSystem

  const SSH_FX_OK: int := 0
  const SSH_FX_NO_SUCH_FILE: int := 2
  const SSH_FX_FAILURE: int := 4

  datatype Op = MkdirOp | LsOp | GetOp | PutOp | WriteOp | RmOp | RmdirOp

  /** One request the client sent, with the path string it sent. */
  datatype Call = Call(op: Op, path: string)

  /** Injected refusals: the status the server answers instead of doing `op` at a location. */
  type Refusals = map<(Op, Path), int>

  predicate RefusalsWellFormed(refuse: Refusals) {
    forall k :: k in refuse ==> refuse[k] != SSH_FX_OK
  }

  /** No injected refusal of `mkdir` answers SSH_FX_FAILURE, so that status
      means the location already exists. */
  predicate MkdirFailureMeansExists(refuse: Refusals) {
    forall k :: k in refuse && k.0 == MkdirOp ==> refuse[k] != SSH_FX_FAILURE
  }

  // ---------------------------------------------------------------------
  // What each request does to the server's tree.

  function MkdirStatus(t: Tree, refuse: Refusals, p: Path): int {
    if (MkdirOp, p) in refuse then refuse[(MkdirOp, p)]
    else if Exists(t, p) then SSH_FX_FAILURE
    else if !IsDir(t, p[..|p| - 1]) then SSH_FX_NO_SUCH_FILE
    else SSH_FX_OK
  }

  function MkdirTree(t: Tree, refuse: Refusals, p: Path): Tree {
    if MkdirStatus(t, refuse, p) == SSH_FX_OK then t[p := Dir] else t
  }

  function GetResult(t: Tree, refuse: Refusals, p: Path): Result<Bytes, int> {
    if (GetOp, p) in refuse then Err(refuse[(GetOp, p)])
    else if p in t && t[p].File? then Ok(t[p].data)
    else if Exists(t, p) then Err(SSH_FX_FAILURE)
    else Err(SSH_FX_NO_SUCH_FILE)
  }

  function PutStatus(t: Tree, refuse: Refusals, p: Path): int {
    if (PutOp, p) in refuse then refuse[(PutOp, p)]
    else if IsDir(t, p) then SSH_FX_FAILURE
    else if !IsDir(t, p[..|p| - 1]) then SSH_FX_NO_SUCH_FILE
    else SSH_FX_OK
  }

  function WriteStatus(t: Tree, refuse: Refusals, p: Path): int {
    if (WriteOp, p) in refuse then refuse[(WriteOp, p)]
    else if p in t && t[p].File? then SSH_FX_OK
    else SSH_FX_FAILURE
  }

  function RmStatus(t: Tree, refuse: Refusals, p: Path): int {
    if (RmOp, p) in refuse then refuse[(RmOp, p)]
    else if p in t && t[p].File? then SSH_FX_OK
    else if Exists(t, p) then SSH_FX_FAILURE
    else SSH_FX_NO_SUCH_FILE
  }

  /** Only an empty directory can be removed. */
  function RmdirStatus(t: Tree, refuse: Refusals, p: Path): int {
    if (RmdirOp, p) in refuse then refuse[(RmdirOp, p)]
    else if p in t && t[p].Dir? && ChildNames(t, p) == {} then SSH_FX_OK
    else if Exists(t, p) then SSH_FX_FAILURE
    else SSH_FX_NO_SUCH_FILE
  }

  class Channel {
    var fs: Tree
    /** Every request sent on this channel, oldest first. */
    var trace: seq<Call>
    var connected: bool
    const reachable: bool
    const refuse: Refusals
    /** What the server appends to a file when a chunk is written to it
        (the identity on an honest server). */
    const tamper: (Path, Bytes) -> Bytes

    ghost predicate Valid()
      reads this
    {
      WellFormed(fs) && RefusalsWellFormed(refuse)
    }

    constructor (tree: Tree, reachable: bool, refuse: Refusals, tamper: (Path, Bytes) -> Bytes)
      requires WellFormed(tree) && RefusalsWellFormed(refuse)
      ensures Valid() && !connected && trace == []
      ensures fs == tree && this.reachable == reachable && this.refuse == refuse && this.tamper == tamper
    {
      fs := tree;
      trace := [];
      connected := false;
      this.reachable := reachable;
      this.refuse := refuse;
      this.tamper := tamper;
    }

    /** True when the server writes what it is sent. */
    ghost predicate Honest()
    {
      forall p, chunk :: tamper(p, chunk) == chunk
    }

    /** An honest server whose SSH_FX_FAILURE answers to `mkdir` all mean
        that something, a directory or a file, is already there. */
    ghost predicate Faithful()
    {
      Honest() && MkdirFailureMeansExists(refuse)
    }

    /** `channel.mkdir(path)`. */
    method Mkdir(path: string) returns (status: int)
      requires Valid()
      modifies this
      ensures Valid()
      ensures status == MkdirStatus(old(fs), refuse, Locate(path))
      ensures fs == MkdirTree(old(fs), refuse, Locate(path))
      ensures trace == old(trace) + [Call(MkdirOp, path)] && connected == old(connected)
    {
      var p := Locate(path);
      status := MkdirStatus(fs, refuse, p);
      if status == SSH_FX_OK {
        fs := fs[p := Dir];
      }
      trace := trace + [Call(MkdirOp, path)];
    }

    /** `channel.ls(path)`: the entries of a directory, "." and ".." first,
        the rest in an order the model leaves open. */
    method Ls(path: string) returns (r: Result<seq<Entry>, int>)
      requires Valid()
      modifies this
      ensures Valid() && fs == old(fs)
      ensures trace == old(trace) + [Call(LsOp, path)] && connected == old(connected)
      ensures r.Err? <==> (LsOp, Locate(path)) in refuse || !IsDir(fs, Locate(path))
      ensures r.Err? ==> r.error != SSH_FX_OK
      ensures r.Ok? ==> |r.value| >= 2 && r.value[0] == Entry(".", true) && r.value[1] == Entry("..", true)
                        && IsListing(fs, Locate(path), r.value[2..])
    {
      var p := Locate(path);
      trace := trace + [Call(LsOp, path)];
      if (LsOp, p) in refuse {
        return Err(refuse[(LsOp, p)]);
      }
      if !IsDir(fs, p) {
        return Err(SSH_FX_NO_SUCH_FILE);
      }
      var es := ListChildren(fs, p);
      var all := [Entry(".", true), Entry("..", true)] + es;
      assert all[2..] == es;
      return Ok(all);
    }

    /** `channel.get(path)` read to the end. */
    method Get(path: string) returns (r: Result<Bytes, int>)
      requires Valid()
      modifies this
      ensures Valid() && fs == old(fs)
      ensures trace == old(trace) + [Call(GetOp, path)] && connected == old(connected)
      ensures r == GetResult(fs, refuse, Locate(path))
      ensures r.Err? ==> r.error != SSH_FX_OK
    {
      trace := trace + [Call(GetOp, path)];
      r := GetResult(fs, refuse, Locate(path));
    }

    /** `channel.put(path)`: create or truncate the file to write into. */
    method Put(path: string) returns (status: int)
      requires Valid()
      modifies this
      ensures Valid()
      ensures status == PutStatus(old(fs), refuse, Locate(path))
      ensures fs == if status == SSH_FX_OK then old(fs)[Locate(path) := File([])] else old(fs)
      ensures trace == old(trace) + [Call(PutOp, path)] && connected == old(connected)
    {
      var p := Locate(path);
      status := PutStatus(fs, refuse, p);
      if status == SSH_FX_OK {
        fs := fs[p := File([])];
      }
      trace := trace + [Call(PutOp, path)];
    }

    /** One `write` on the stream `put` opened. */
    method Write(path: string, chunk: Bytes) returns (status: int)
      requires Valid()
      modifies this
      ensures Valid()
      ensures status == WriteStatus(old(fs), refuse, Locate(path))
      ensures fs == if status == SSH_FX_OK
                    then old(fs)[Locate(path) := File(old(fs)[Locate(path)].data + tamper(Locate(path), chunk))]
                    else old(fs)
      ensures trace == old(trace) + [Call(WriteOp, path)] && connected == old(connected)
    {
      var p := Locate(path);
      status := WriteStatus(fs, refuse, p);
      if status == SSH_FX_OK {
        fs := fs[p := File(fs[p].data + tamper(p, chunk))];
      }
      trace := trace + [Call(WriteOp, path)];
    }

    /** `channel.rm(path)`. */
    method Rm(path: string) returns (status: int)
      requires Valid()
      modifies this
      ensures Valid()
      ensures status == RmStatus(old(fs), refuse, Locate(path))
      ensures fs == if status == SSH_FX_OK then old(fs) - {Locate(path)} else old(fs)
      ensures trace == old(trace) + [Call(RmOp, path)] && connected == old(connected)
    {
      var p := Locate(path);
      status := RmStatus(fs, refuse, p);
      if status == SSH_FX_OK {
        fs := fs - {p};
      }
      trace := trace + [Call(RmOp, path)];
    }

    /** `channel.rmdir(path)`. */
    method Rmdir(path: string) returns (status: int)
      requires Valid()
      modifies this
      ensures Valid()
      ensures status == RmdirStatus(old(fs), refuse, Locate(path))
      ensures fs == if status == SSH_FX_OK then old(fs) - {Locate(path)} else old(fs)
      ensures trace == old(trace) + [Call(RmdirOp, path)] && connected == old(connected)
    {
      var p := Locate(path);
      status := RmdirStatus(fs, refuse, p);
      if status == SSH_FX_OK {
        forall k, n | k + [n] in fs ensures k != p {
          ChildNamesIn(fs, k, n);
        }
        fs := fs - {p};
      }
      trace := trace + [Call(RmdirOp, path)];
    }

    /** Open the session and the channel (JSch's `connect`): fails when the
        server cannot be reached. */
    method Connect() returns (ok: bool)
      modifies this
      ensures ok == reachable && connected == (old(connected) || reachable)
      ensures fs == old(fs) && trace == old(trace)
    {
      ok := reachable;
      if ok {
        connected := true;
      }
    }

    /** `disconnect(channel)`: close the channel and its session. */
    method Disconnect()
      modifies this
      ensures !connected && fs == old(fs) && trace == old(trace)
    {
      connected := false;
    }
  }
}

=== FILE: Transfer.dfy ===
/** The transfer service: mirrors a directory tree between the local disk
    and an SFTP server in either direction, checks every file against a
    digest as it goes, and can delete the source tree afterwards. */
module Transfer {
  import opened Common
  import opened RemotePaths
  import opened FileSystem
  import opened HexEncoding
  import opened Digests
  import opened Settings
  import opened Sftp
  import opened RemoteMkdirs
  import opened Verdicts
  import LocalDisk

  /** The size of the copy buffer: no read hands over more than this. */
  const BUFFER_SIZE: nat := 8192

  // ---------------------------------------------------------------------
  // Bookkeeping for the directory walks.

  const Dots: set<string> := {".", ".."}

  /** The shape of a remote listing: "." and "..", then the entries. */
  predicate RemoteListing(t: Tree, p: Path, es: seq<Entry>) {
    |es| >= 2 && es[0] == Entry(".", true) && es[1] == Entry("..", true) && IsListing(t, p, es[2..])
  }

  /** Entry `i` of a listing of a well-formed tree names a child of `p`
      with that kind. */
  lemma ListedChild(t: Tree, p: Path, es: seq<Entry>, i: nat)
    requires WellFormed(t) && IsListing(t, p, es) && i < |es|
    ensures ValidName(es[i].name) && p + [es[i].name] in t && es[i].isDir == t[p + [es[i].name]].Dir?
    ensures es[i].name !in NamesOf(es[..i])
    ensures NamesOf(es[..i + 1]) == NamesOf(es[..i]) + {es[i].name}
  {
    var k := p + [es[i].name];
    assert k[|p|] == es[i].name;
    assert forall j :: 0 <= j < i ==> es[..i][j].name != es[i].name;
    assert es[..i + 1] == es[..i] + [es[i]];
    NamesOfAppend(es[..i], es[i]);
  }

  /** The same for a remote listing, whose first two entries are skipped. */
  lemma RemoteListedChild(t: Tree, p: Path, es: seq<Entry>, i: nat)
    requires WellFormed(t) && RemoteListing(t, p, es) && i < |es|
    ensures i < 2 ==> es[i].name in Dots && NamesOf(es[..i + 1]) - Dots == NamesOf(es[..i]) - Dots
    ensures i >= 2 ==>
              && ValidName(es[i].name) && p + [es[i].name] in t && es[i].isDir == t[p + [es[i].name]].Dir?
              && es[i].name !in NamesOf(es[..i]) - Dots
              && NamesOf(es[..i + 1]) - Dots == (NamesOf(es[..i]) - Dots) + {es[i].name}
  {
    assert es[..i + 1] == es[..i] + [es[i]];
    NamesOfAppend(es[..i], es[i]);
    if i >= 2 {
      var rest := es[2..];
      ListedChild(t, p, rest, i - 2);
      assert rest[i - 2] == es[i];
      forall j | 2 <= j < i ensures es[..i][j].name != es[i].name {
        assert rest[j - 2] == es[j];
      }
    }
  }

  /** After the whole remote listing the names seen are the children. */
  lemma RemoteListingNames(t: Tree, p: Path, es: seq<Entry>)
    requires WellFormed(t) && RemoteListing(t, p, es)
    ensures NamesOf(es) - Dots == ChildNames(t, p)
  {
    var rest := es[2..];
    forall n | n in NamesOf(es) - Dots ensures n in ChildNames(t, p) {
      var j :| 0 <= j < |es| && es[j].name == n;
      assert rest[j - 2] == es[j];
    }
    forall n | n in ChildNames(t, p) ensures n in NamesOf(es) - Dots {
      var j :| 0 <= j < |rest| && rest[j].name == n;
      ListedChild(t, p, rest, j);
      assert es[j + 2] == rest[j];
    }
  }

  /** Some file of directory `p` is one `rm` refuses. */
  ghost predicate RmRefusedIn(t: Tree, refuse: Refusals, p: Path) {
    exists n :: p + [n] in t && t[p + [n]].File? && RmStatus(t, refuse, p + [n]) != SSH_FX_OK
  }

  /** `rm` accepts every file among the entries of listing `es` before
      index `i` (the first two are "." and ".."). */
  ghost predicate AcceptedBefore(t: Tree, refuse: Refusals, p: Path, es: seq<Entry>, i: nat) {
    forall j {:trigger es[j]} :: 2 <= j < i && j < |es| && !es[j].isDir ==> RmStatus(t, refuse, p + [es[j].name]) == SSH_FX_OK
  }

  /** One more entry of the listing passes: a directory, or a file still
      as it was at the start whose `rm` was accepted. */
  lemma AcceptedStep(start: Tree, before: Tree, refuse: Refusals, p: Path, es: seq<Entry>, i: nat)
    requires AcceptedBefore(start, refuse, p, es, i) && i < |es|
    requires !es[i].isDir && i >= 2 ==>
               && p + [es[i].name] in start && p + [es[i].name] in before
               && before[p + [es[i].name]] == start[p + [es[i].name]]
               && RmStatus(before, refuse, p + [es[i].name]) == SSH_FX_OK
    ensures AcceptedBefore(start, refuse, p, es, i + 1)
  {
  }

  /** When `rm` accepts every file a listing of `p` names, it accepts
      every file of `p`. */
  lemma ListedFilesAccepted(t: Tree, refuse: Refusals, p: Path, es: seq<Entry>)
    requires WellFormed(t) && RemoteListing(t, p, es)
    requires AcceptedBefore(t, refuse, p, es, |es|)
    ensures !RmRefusedIn(t, refuse, p)
  {
    forall n | p + [n] in t && t[p + [n]].File? ensures RmStatus(t, refuse, p + [n]) == SSH_FX_OK {
      ChildNamesIn(t, p, n);
      RemoteListingNames(t, p, es);
      var j :| 0 <= j < |es| && es[j].name == n;
      assert es[2..][j - 2] == es[j];
    }
  }

  /** Where `deleteRemoteDirectory`'s loop stops: at entry `i`, a file
      `rm` refused after accepting every earlier one, with only the
      entries up to `i` touched. */
  lemma StoppedAt(start: Tree, t: Tree, refuse: Refusals, p: Path, es: seq<Entry>, i: nat, done: set<string>)
    requires WellFormed(start) && RemoteListing(start, p, es) && 2 <= i < |es| && !es[i].isDir
    requires RmStatus(start, refuse, p + [es[i].name]) != SSH_FX_OK
    requires AcceptedBefore(start, refuse, p, es, i)
    requires done == NamesOf(es[..i + 1]) - Dots && SameOutsideEntries(start, t, p, done)
    ensures RmRefusedIn(start, refuse, p)
    ensures exists k {:trigger es[k]} ::
              && 2 <= k < |es| && !es[k].isDir && RmStatus(start, refuse, p + [es[k].name]) != SSH_FX_OK
              && AcceptedBefore(start, refuse, p, es, k)
              && SameOutsideEntries(start, t, p, NamesOf(es[..k + 1]) - Dots)
    ensures SameOutsideEntries(start, t, p, ChildNames(start, p))
  {
    RemoteListedChild(start, p, es, i);
    assert start[p + [es[i].name]].File?;
    ListedSoFar(start, p, es, i + 1);
    SameOutsideEntriesWiden(start, t, p, done, ChildNames(start, p));
  }

  /** Copies made inside other entries of `d` survive a change inside
      entry `n`. */
  lemma KeepCopies(src: Tree, s: Path, before: Tree, after: Tree, d: Path, verdicts: map<string, bool>, n: string)
    requires n !in verdicts && SameOutside(before, after, d + [n])
    requires forall m {:trigger m in verdicts} :: m in verdicts && verdicts[m] ==> Mirrors(src, s + [m], before, d + [m])
    ensures forall m {:trigger m in verdicts} :: m in verdicts && verdicts[m] ==> Mirrors(src, s + [m], after, d + [m])
  {
    forall m | m in verdicts && verdicts[m] ensures Mirrors(src, s + [m], after, d + [m]) {
      SiblingsDisjoint(before, after, d, n, m);
      MirrorsKept(src, s + [m], before, after, d + [m]);
    }
  }

  /** One more entry of a walk: the copies made so far survive, the new
      verdict joins them, and everything stays inside `d`. */
  lemma CopiesStep(src: Tree, s: Path, start: Tree, before: Tree, after: Tree, d: Path,
                   verdicts: map<string, bool>, n: string, copied: bool)
    requires n !in verdicts && SameOutside(start, before, d) && SameOutside(before, after, d + [n])
    requires forall m {:trigger m in verdicts} :: m in verdicts && verdicts[m] ==> Mirrors(src, s + [m], before, d + [m])
    requires copied ==> Mirrors(src, s + [n], after, d + [n])
    ensures SameOutside(start, after, d)
    ensures forall m {:trigger m in verdicts[n := copied]} :: m in verdicts[n := copied] && verdicts[n := copied][m] ==> Mirrors(src, s + [m], after, d + [m])
  {
    KeepCopies(src, s, before, after, d, verdicts, n);
    SameOutsideStep(start, before, after, d, n);
  }

  /** One more entry of the upload walk: the target's prefixes stay
      settled, everything stays inside it, and on a faithful server the
      copies made so far survive and the new verdict joins them. */
  lemma UploadStep(src: Tree, s: Path, start: Tree, before: Tree, after: Tree, refuse: Refusals,
                   remoteDir: string, faithful: bool, verdicts: map<string, bool>, n: string, copied: bool)
    requires n !in verdicts && start.Keys <= before.Keys && before.Keys <= after.Keys
    requires AllSettled(before, refuse, Components(remoteDir))
    requires SameOutside(start, before, Locate(remoteDir))
    requires SameOutside(before, after, Locate(remoteDir) + [n])
    requires faithful ==> forall m {:trigger m in verdicts} :: m in verdicts && verdicts[m] ==>
               Mirrors(src, s + [m], before, Locate(remoteDir) + [m])
    requires copied && faithful ==> Mirrors(src, s + [n], after, Locate(remoteDir) + [n])
    ensures start.Keys <= after.Keys && AllSettled(after, refuse, Components(remoteDir))
    ensures SameOutside(start, after, Locate(remoteDir))
    ensures faithful ==> forall m {:trigger m in verdicts[n := copied]} :: m in verdicts[n := copied] && verdicts[n := copied][m] ==>
              Mirrors(src, s + [m], after, Locate(remoteDir) + [m])
  {
    AllSettledKept(before, after, refuse, Components(remoteDir));
    if faithful {
      CopiesStep(src, s, start, before, after, Locate(remoteDir), verdicts, n, copied);
    } else {
      SameOutsideStep(start, before, after, Locate(remoteDir), n);
    }
  }

  /** After a returning `mkdirs` on a faithful server, the target is a
      directory unless a file was already there where the source has its
      directory. */
  lemma SettledTargetIsDir(src: Tree, s: Path, a: Tree, b: Tree, refuse: Refusals, path: string)
    requires MkdirFailureMeansExists(refuse) && NoFileForDir(src, s, a, Locate(path))
    requires forall k :: k in a ==> k in b && b[k] == a[k]
    requires forall k :: k in b && k !in a ==> b[k] == Dir
    requires AllSettled(b, refuse, Components(path))
    ensures NoFileForDir(src, s, b, Locate(path))
    ensures s in src && src[s].Dir? ==> IsDir(b, Locate(path))
  {
    NoFileForDirGrow(src, s, a, b, Locate(path));
    SettledExists(b, refuse, Components(path));
    if s in src && src[s].Dir? {
      assert s + [] == s && Locate(path) + [] == Locate(path);
    }
  }

  /** One more entry of the download walk: only the entries copied so far
      have changed, so the new entry's verdict is the one it has on the
      tree the walk started from. */
  lemma FetchStep(remote: Tree, refuse: Refusals, s: Path, start: Tree, before: Tree, after: Tree,
                  broken: Faults, d: Path, integrityCheck: Option<string>,
                  verdicts: map<string, bool>, n: string, copied: bool)
    requires n !in verdicts
    requires SameOutsideEntries(start, before, d, verdicts.Keys) && SameOutside(before, after, d + [n])
    requires copied == FetchEntrySucceeds(remote, refuse, s, n, before, broken, d, integrityCheck)
    requires forall m {:trigger m in verdicts} :: m in verdicts ==>
               verdicts[m] == FetchEntrySucceeds(remote, refuse, s, m, start, broken, d, integrityCheck)
    ensures SameOutsideEntries(start, after, d, verdicts[n := copied].Keys)
    ensures forall m {:trigger m in verdicts[n := copied]} :: m in verdicts[n := copied] ==>
              verdicts[n := copied][m] == FetchEntrySucceeds(remote, refuse, s, m, start, broken, d, integrityCheck)
  {
    SiblingsAgree(start, before, d, verdicts.Keys, n);
    FetchEntryLocal(remote, refuse, s, n, start, before, broken, d, integrityCheck);
    SameOutsideEntriesStep(start, before, after, d, verdicts.Keys, n);
    assert verdicts[n := copied].Keys == verdicts.Keys + {n};
  }

  /** The download walk so far: the local tree changed only inside the
      entries already visited, each verdict is the one that entry has on
      the starting tree, and each success left a copy. */
  ghost predicate FetchedSoFar(remote: Tree, refuse: Refusals, s: Path, start: Tree, now: Tree, broken: Faults, d: Path,
                               integrityCheck: Option<string>, verdicts: map<string, bool>) {
    && SameOutsideEntries(start, now, d, verdicts.Keys)
    && (forall n {:trigger n in verdicts} :: n in verdicts ==>
          verdicts[n] == FetchEntrySucceeds(remote, refuse, s, n, start, broken, d, integrityCheck))
    && (forall n {:trigger n in verdicts} :: n in verdicts && verdicts[n] ==> Mirrors(remote, s + [n], now, d + [n]))
  }

  /** One more entry of the download walk keeps `FetchedSoFar`. */
  lemma FetchedStep(remote: Tree, refuse: Refusals, s: Path, start: Tree, before: Tree, after: Tree, broken: Faults,
                    d: Path, integrityCheck: Option<string>, verdicts: map<string, bool>, n: string, copied: bool)
    requires n !in verdicts && FetchedSoFar(remote, refuse, s, start, before, broken, d, integrityCheck, verdicts)
    requires IsDir(before, d) && SameOutside(before, after, d + [n])
    requires copied == FetchEntrySucceeds(remote, refuse, s, n, before, broken, d, integrityCheck)
    requires copied ==> Mirrors(remote, s + [n], after, d + [n])
    ensures IsDir(after, d)
    ensures FetchedSoFar(remote, refuse, s, start, after, broken, d, integrityCheck, verdicts[n := copied])
  {
    assert !HasPrefix(d, d + [n]);
    SameOutsideEntriesOutside(start, before, d, verdicts.Keys);
    CopiesStep(remote, s, start, before, after, d, verdicts, n, copied);
    FetchStep(remote, refuse, s, start, before, after, broken, d, integrityCheck, verdicts, n, copied);
  }

  /** The upload walk so far: the server only gained locations, changed
      only inside the entries already visited and keeps the target's
      prefixes settled; each verdict is the one that entry has on the
      starting tree, and on a faithful server each success left a copy. */
  ghost predicate PushedSoFar(local: Tree, broken: Faults, s: Path, start: Tree, now: Tree, refuse: Refusals,
                              remoteDir: string, integrityCheck: Option<string>, faithful: bool,
                              verdicts: map<string, bool>) {
    && start.Keys <= now.Keys
    && SameOutsideEntries(start, now, Locate(remoteDir), verdicts.Keys)
    && AllSettled(now, refuse, Components(remoteDir))
    && (forall n {:trigger n in verdicts} :: n in verdicts ==>
          verdicts[n] == PushEntrySucceeds(local, broken, s, n, start, refuse, Locate(remoteDir), integrityCheck))
    && (faithful ==> forall n {:trigger n in verdicts} :: n in verdicts && verdicts[n] ==>
          Mirrors(local, s + [n], now, Locate(remoteDir) + [n]))
  }

  /** One more entry of the upload walk keeps `PushedSoFar`. */
  lemma PushedStep(local: Tree, broken: Faults, s: Path, start: Tree, before: Tree, after: Tree, refuse: Refusals,
                   remoteDir: string, integrityCheck: Option<string>, faithful: bool,
                   verdicts: map<string, bool>, n: string, copied: bool)
    requires n !in verdicts
    requires PushedSoFar(local, broken, s, start, before, refuse, remoteDir, integrityCheck, faithful, verdicts)
    requires before.Keys <= after.Keys && SameOutside(before, after, Locate(remoteDir) + [n])
    requires copied == PushEntrySucceeds(local, broken, s, n, before, refuse, Locate(remoteDir), integrityCheck)
    requires copied && faithful ==> Mirrors(local, s + [n], after, Locate(remoteDir) + [n])
    ensures PushedSoFar(local, broken, s, start, after, refuse, remoteDir, integrityCheck, faithful, verdicts[n := copied])
  {
    SameOutsideEntriesOutside(start, before, Locate(remoteDir), verdicts.Keys);
    UploadStep(local, s, start, before, after, refuse, remoteDir, faithful, verdicts, n, copied);
    PushStep(local, broken, s, start, before, after, refuse, Locate(remoteDir), integrityCheck, verdicts, n, copied);
  }

  /** One more entry of the upload walk: only the entries uploaded so far
      have changed on the server, so the new entry's verdict is the one it
      has on the tree the walk started from. */
  lemma PushStep(local: Tree, broken: Faults, s: Path, start: Tree, before: Tree, after: Tree,
                 refuse: Refusals, d: Path, integrityCheck: Option<string>,
                 verdicts: map<string, bool>, n: string, copied: bool)
    requires n !in verdicts
    requires SameOutsideEntries(start, before, d, verdicts.Keys) && SameOutside(before, after, d + [n])
    requires copied == PushEntrySucceeds(local, broken, s, n, before, refuse, d, integrityCheck)
    requires forall m {:trigger m in verdicts} :: m in verdicts ==>
               verdicts[m] == PushEntrySucceeds(local, broken, s, m, start, refuse, d, integrityCheck)
    ensures SameOutsideEntries(start, after, d, verdicts[n := copied].Keys)
    ensures forall m {:trigger m in verdicts[n := copied]} :: m in verdicts[n := copied] ==>
              verdicts[n := copied][m] == PushEntrySucceeds(local, broken, s, m, start, refuse, d, integrityCheck)
  {
    SiblingsAgree(start, before, d, verdicts.Keys, n);
    PushEntryLocal(local, broken, s, n, start, before, refuse, d, integrityCheck);
    SameOutsideEntriesStep(start, before, after, d, verdicts.Keys, n);
    assert verdicts[n := copied].Keys == verdicts.Keys + {n};
  }

  /** The names a remote listing has shown so far are entries of the
      directory. */
  lemma ListedSoFar(t: Tree, p: Path, es: seq<Entry>, i: nat)
    requires WellFormed(t) && RemoteListing(t, p, es) && i <= |es|
    ensures NamesOf(es[..i]) - Dots <= ChildNames(t, p)
  {
    forall n | n in NamesOf(es[..i]) - Dots ensures n in NamesOf(es) - Dots {
      var j :| 0 <= j < i && es[..i][j].name == n;
      assert es[j].name == n;
    }
    RemoteListingNames(t, p, es);
  }

  /** A trace that extends `t + [c]` extends `t`, and holds `c` right
      after it. */
  lemma TraceExtends(t: seq<Call>, c: Call, u: seq<Call>, v: seq<Call>)
    requires u == t + [c] && u <= v
    ensures t <= v && |v| > |t| && v[|t|] == c
  {
    assert v[..|u|] == u;
    assert v[..|t|] == u[..|t|];
  }

  /** An entry the deletion loop has not reached yet is as it was, and
      there is no more inside the directory than at the start. */
  lemma UntouchedEntry(start: Tree, t: Tree, p: Path, done: set<string>, n: string)
    requires Pruned(start, t) && SameOutsideEntries(start, t, p, done)
    requires n !in done && p + [n] in start
    ensures p + [n] in t && t[p + [n]] == start[p + [n]]
    ensures |Below(t, p)| <= |Below(start, p)|
  {
    assert (p + [n])[..|p|] == p && (p + [n])[|p|] == n;
    BelowMonotone(start, t, p);
  }

  /** One more entry of the deletion loop: only entries reached so far have
      changed, and on a server that refuses nothing they are all gone. */
  lemma DeleteStep(start: Tree, before: Tree, after: Tree, p: Path, done: set<string>, n: string, empty: bool)
    requires Pruned(start, before) && Pruned(before, after)
    requires SameOutsideEntries(start, before, p, done) && SameOutside(before, after, p + [n])
    requires empty ==> forall m {:trigger m in done} :: m in done ==> Gone(before, p + [m])
    requires empty ==> Gone(after, p + [n])
    ensures Pruned(start, after) && SameOutsideEntries(start, after, p, done + {n})
    ensures empty ==> forall m {:trigger m in done + {n}} :: m in done + {n} ==> Gone(after, p + [m])
  {
    SameOutsideEntriesStep(start, before, after, p, done, n);
  }

  /** `Paths.get(base, dir)`: the local location both path strings name
      together, read from the root. */
  function LocalPath(base: string, dir: string): (p: Path)
    ensures ValidPath(p)
  {
    CompsArePieces(base, []);
    CompsArePieces(dir, []);
    Resolve(Components(base) + Components(dir))
  }

  /** A transfer's two ends name the same location relative to their base
      paths: the local join and the remote join resolve alike. */
  lemma LocalMatchesRemote(base: string, dir: string)
    ensures LocalPath(base, dir) == Locate(CombineRemotePaths(base, dir))
  {
  }

  /** The base path "/" with an empty directory, or "/data" with "..",
      names the local root. */
  lemma LocalRootReached()
    ensures LocalPath("/", "") == [] && LocalPath("/data", "..") == []
  {
    assert "/"[1..] == [] && CompsAcc("/", []) == [];
    assert CompsAcc("", "data") == ["data"];
    assert "a"[1..] == "" && "dat" + ["a"[0]] == "data";
    assert CompsAcc("a", "dat") == CompsAcc("", "data");
    assert "ta"[1..] == "a" && "da" + ["ta"[0]] == "dat";
    assert CompsAcc("ta", "da") == CompsAcc("a", "dat");
    assert "ata"[1..] == "ta" && "d" + ["ata"[0]] == "da";
    assert CompsAcc("ata", "d") == CompsAcc("ta", "da");
    assert "data"[1..] == "ata" && [] + ["data"[0]] == "d";
    assert CompsAcc("data", []) == CompsAcc("ata", "d");
    assert "/data"[1..] == "data";
    assert CompsAcc("/data", []) == CompsAcc("data", []);
    assert CompsAcc("", "..") == [".."];
    assert "."[1..] == "" && "." + ["."[0]] == "..";
    assert CompsAcc(".", ".") == CompsAcc("", "..");
    assert ".."[1..] == "." && [] + [".."[0]] == ".";
    assert CompsAcc("..", []) == CompsAcc(".", ".");
    assert ["data"] + [".."] == ["data", ".."] && ["data", ".."][..1] == ["data"];
  }

  class SftpService {
    const config: SftpConfig
    /** The digest functions the transfers run with. */
    const hash: HashFunction
    /** The server a `connect()` reaches, with the channel to it. */
    const server: Channel
    const disk: LocalDisk.Disk

    ghost predicate Valid()
      reads server, disk
    {
      server.Valid() && disk.Valid()
    }

    constructor (config: SftpConfig, hash: HashFunction, server: Channel, disk: LocalDisk.Disk)
      ensures this.config == config && this.hash == hash && this.server == server && this.disk == disk
    {
      this.config := config;
      this.hash := hash;
      this.server := server;
      this.disk := disk;
    }

    /** `copyFileFrom(channel, remotePath, localPath)`: stream the remote
        file into the local one in reads of at most BUFFER_SIZE bytes,
        digesting what was received, then compare that digest with the
        digest of the local file read back. */
    method CopyFileFrom(channel: Channel, remotePath: string, localPath: Path) returns (ok: bool)
      requires channel.Valid() && disk.Valid() && ValidPath(localPath) && localPath != []
      modifies channel, disk
      ensures channel.Valid() && disk.Valid()
      ensures channel.fs == old(channel.fs) && channel.connected == old(channel.connected)
      ensures channel.trace == old(channel.trace) + [Call(GetOp, remotePath)]
      ensures ok == DownloadSucceeds(channel.fs, channel.refuse, Locate(remotePath),
                                     old(disk.fs), disk.broken, localPath, config.integrityCheck)
      ensures ok ==> localPath in disk.fs && disk.fs[localPath] == File(channel.fs[Locate(remotePath)].data)
      ensures ChangedWithin(old(disk.fs), disk.fs, localPath)
      // The local file is created or emptied before the digest setting is
      // looked at and before the first write; a failure after that point
      // leaves it empty.
      ensures var got := GetResult(channel.fs, channel.refuse, Locate(remotePath));
              var opens := && (LocalDisk.OpenWriteOp, localPath) !in disk.broken
                           && !IsDir(old(disk.fs), localPath)
                           && LocalDisk.NoFileOnPath(old(disk.fs), localPath[..|localPath| - 1]);
              disk.fs == if got.Err? || !opens then old(disk.fs)
                         else if GetDigest(config.integrityCheck).Err?
                                 || (got.value != [] && (LocalDisk.WriteOp, localPath) in disk.broken)
                         then LocalDisk.Opened(old(disk.fs), localPath)
                         else LocalDisk.Opened(old(disk.fs), localPath)[localPath := File(got.value)]
    {
      var got := channel.Get(remotePath);
      if got.Err? {
        return false;
      }
      var created := disk.OpenOutput(localPath);
      if !created {
        return false;
      }
      LocalDisk.NewFileChangedWithin(old(disk.fs), localPath);
      var alg := GetDigest(config.integrityCheck);
      if alg.Err? {
        return false;
      }
      ghost var empty := disk.fs;
      var written, received := WriteAll(localPath, got.value);
      if !written {
        return false;
      }
      ChangedWithinUpdate(old(disk.fs), empty, localPath, File(got.value));
      var remoteHash := BytesToHex(hash(alg.value, received));
      var reread := disk.Read(localPath);
      SelectorsAgree(config.integrityCheck, hash, got.value);
      ok := reread.Some? && var localHash := CalculateHash(config.integrityCheck, hash, reread.value);
            localHash.Ok? && remoteHash == localHash.value;
    }

    /** The copy loop of `copyFileFrom`: write what each read returned to
        the local file and hand the same bytes to the digest. Reads return
        between 1 and BUFFER_SIZE bytes; how many is left open. */
    method WriteAll(localPath: Path, data: Bytes) returns (ok: bool, received: Bytes)
      requires disk.Valid() && localPath in disk.fs && disk.fs[localPath] == File([])
      modifies disk
      ensures disk.Valid()
      ensures ok == (data == [] || (LocalDisk.WriteOp, localPath) !in disk.broken)
      ensures disk.fs == if ok then old(disk.fs)[localPath := File(data)] else old(disk.fs)
      ensures ok ==> received == data
    {
      received := [];
      var pos := 0;
      while pos < |data|
        invariant 0 <= pos <= |data| && received == data[..pos]
        invariant disk.Valid()
        invariant disk.fs == old(disk.fs)[localPath := File(data[..pos])]
        invariant pos > 0 ==> (LocalDisk.WriteOp, localPath) !in disk.broken
        decreases |data| - pos
      {
        assert 1 <= BUFFER_SIZE && pos + 1 <= |data|;
        var n :| 1 <= n <= BUFFER_SIZE && pos + n <= |data|;
        var chunk := data[pos..pos + n];
        var written := disk.Write(localPath, chunk);
        if !written {
          return false, received;
        }
        received := received + chunk;
        assert data[..pos] + chunk == data[..pos + n];
        pos := pos + n;
      }
      assert data[..|data|] == data;
      return true, received;
    }

    /** `copyFileTo(channel, localPath, remotePath)`: stream the local file
        to the server in reads of at most BUFFER_SIZE bytes, digesting what
        was sent, then compare that digest with the digest of the local file
        read again. */
    method CopyFileTo(channel: Channel, localPath: Path, remotePath: string) returns (ok: bool)
      requires channel.Valid() && disk.Valid()
      modifies channel
      ensures channel.Valid() && channel.connected == old(channel.connected)
      ensures ok == UploadSucceeds(disk.fs, disk.broken, localPath,
                                   old(channel.fs), channel.refuse, Locate(remotePath), config.integrityCheck)
      ensures old(channel.fs).Keys <= channel.fs.Keys
      ensures SameOutside(old(channel.fs), channel.fs, Locate(remotePath))
      ensures ok ==> Locate(remotePath) in channel.fs && channel.fs[Locate(remotePath)].File?
      ensures ok && channel.Honest() ==> channel.fs[Locate(remotePath)] == disk.fs[localPath]
      // `put` creates or empties the remote file before the digest setting
      // is looked at and before the first write; a failure after that
      // point leaves it empty, a failure before it leaves the server as it was.
      ensures var put := && (LocalDisk.ReadOp, localPath) !in disk.broken
                         && localPath in disk.fs && disk.fs[localPath].File?
                         && PutStatus(old(channel.fs), channel.refuse, Locate(remotePath)) == SSH_FX_OK;
              && (!put ==> channel.fs == old(channel.fs))
              && (put && (|| GetDigest(config.integrityCheck).Err?
                          || (disk.fs[localPath].data != [] && (WriteOp, Locate(remotePath)) in channel.refuse))
                  ==> channel.fs == old(channel.fs)[Locate(remotePath) := File([])])
    {
      var content := disk.Read(localPath);
      if content.None? {
        return false;
      }
      var status := channel.Put(remotePath);
      if status != SSH_FX_OK {
        return false;
      }
      var alg := GetDigest(config.integrityCheck);
      if alg.Err? {
        return false;
      }
      var written, sent := SendAll(channel, remotePath, content.value);
      if !written {
        return false;
      }
      var sentHash := BytesToHex(hash(alg.value, sent));
      var again := disk.Read(localPath);
      SelectorsAgree(config.integrityCheck, hash, content.value);
      ok := again.Some? && var localHash := CalculateHash(config.integrityCheck, hash, again.value);
            localHash.Ok? && sentHash == localHash.value;
    }

    /** The copy loop of `copyFileTo`: send what each read returned and hand
        the same bytes to the digest. The server appends what it makes of
        each chunk. */
    method SendAll(channel: Channel, remotePath: string, data: Bytes) returns (ok: bool, sent: Bytes)
      requires channel.Valid()
      requires Locate(remotePath) in channel.fs && channel.fs[Locate(remotePath)] == File([])
      modifies channel
      ensures channel.Valid() && channel.connected == old(channel.connected)
      ensures ok == (data == [] || (WriteOp, Locate(remotePath)) !in channel.refuse)
      ensures ok ==> sent == data
      ensures Locate(remotePath) in channel.fs && channel.fs[Locate(remotePath)].File?
      ensures channel.fs == old(channel.fs)[Locate(remotePath) := channel.fs[Locate(remotePath)]]
      ensures channel.Honest() ==> channel.fs[Locate(remotePath)] == File(sent)
      ensures !ok ==> channel.fs == old(channel.fs)
    {
      var p := Locate(remotePath);
      sent := [];
      var pos := 0;
      while pos < |data|
        invariant 0 <= pos <= |data| && sent == data[..pos]
        invariant channel.Valid() && channel.connected == old(channel.connected)
        invariant p in channel.fs && channel.fs[p].File?
        invariant channel.fs == old(channel.fs)[p := channel.fs[p]]
        invariant channel.Honest() ==> channel.fs[p] == File(sent)
        invariant pos > 0 ==> (WriteOp, p) !in channel.refuse
        invariant pos == 0 ==> channel.fs == old(channel.fs)
        decreases |data| - pos
      {
        assert 1 <= BUFFER_SIZE && pos + 1 <= |data|;
        var n :| 1 <= n <= BUFFER_SIZE && pos + n <= |data|;
        var chunk := data[pos..pos + n];
        var status := channel.Write(remotePath, chunk);
        if status != SSH_FX_OK {
          return false, sent;
        }
        sent := sent + chunk;
        assert data[..pos] + chunk == data[..pos + n];
        pos := pos + n;
      }
      assert data[..|data|] == data;
      return true, sent;
    }

    /** `copyDirectoryFrom(channel, remoteDir, localDir)`: create the local
        directory, list the remote one and copy every entry but "." and "..",
        carrying on after a failed entry. `verdicts` holds each entry's
        result once the listing was read; each is the entry's own verdict
        on the trees as `forceMkdir` left them. */
    method CopyDirectoryFrom(channel: Channel, remoteDir: string, localDir: Path)
      returns (ok: bool, ghost verdicts: Option<map<string, bool>>)
      requires channel.Valid() && disk.Valid() && ValidPath(localDir)
      modifies channel, disk
      decreases |Below(channel.fs, Locate(remoteDir))|, 3
      ensures channel.Valid() && disk.Valid()
      ensures channel.fs == old(channel.fs) && channel.connected == old(channel.connected)
      ensures ChangedWithin(old(disk.fs), disk.fs, localDir)
      ensures verdicts.Some? <==>
                && (LocalDisk.MkdirsOp, localDir) !in disk.broken && LocalDisk.NoFileOnPath(old(disk.fs), localDir)
                && (LsOp, Locate(remoteDir)) !in channel.refuse && IsDir(channel.fs, Locate(remoteDir))
      ensures verdicts.None? ==> !ok
      ensures verdicts.Some? ==>
                && verdicts.value.Keys == ChildNames(channel.fs, Locate(remoteDir))
                && (ok <==> forall n {:trigger n in verdicts.value} :: n in verdicts.value ==> verdicts.value[n])
                && (forall n {:trigger n in verdicts.value} :: n in verdicts.value ==>
                      verdicts.value[n] == FetchEntrySucceeds(channel.fs, channel.refuse, Locate(remoteDir), n,
                                                              old(disk.fs) + LocalDisk.MissingDirs(old(disk.fs), localDir),
                                                              disk.broken, localDir, config.integrityCheck))
                && (forall n {:trigger n in verdicts.value} :: n in verdicts.value && verdicts.value[n] ==>
                      Mirrors(channel.fs, Locate(remoteDir) + [n], disk.fs, localDir + [n]))
      ensures ok == FetchDirSucceeds(channel.fs, channel.refuse, Locate(remoteDir), old(disk.fs), disk.broken,
                                     localDir, config.integrityCheck)
      ensures ok ==> Mirrors(channel.fs, Locate(remoteDir), disk.fs, localDir)
    {
      var created := disk.ForceMkdir(localDir);
      if !created {
        return false, None;
      }
      LocalDisk.MissingDirsChangedWithin(old(disk.fs), localDir);
      var listed := channel.Ls(remoteDir);
      if listed.Err? {
        return false, None;
      }
      ghost var made := disk.fs;
      ghost var each;
      ok, each := CopyEntriesFrom(channel, remoteDir, localDir, listed.value);
      verdicts := Some(each);
      ChangedWithinThenSame(old(disk.fs), made, disk.fs, localDir);
      if ok {
        MirrorsFromChildren(channel.fs, Locate(remoteDir), disk.fs, localDir);
      }
    }

    /** The loop of `copyDirectoryFrom` over the remote listing. */
    method CopyEntriesFrom(channel: Channel, remoteDir: string, localDir: Path, entries: seq<Entry>)
      returns (allSuccess: bool, ghost verdicts: map<string, bool>)
      requires channel.Valid() && disk.Valid() && ValidPath(localDir) && IsDir(disk.fs, localDir)
      requires RemoteListing(channel.fs, Locate(remoteDir), entries)
      modifies channel, disk
      decreases |Below(channel.fs, Locate(remoteDir))|, 2
      ensures channel.Valid() && disk.Valid()
      ensures channel.fs == old(channel.fs) && channel.connected == old(channel.connected)
      ensures SameOutside(old(disk.fs), disk.fs, localDir) && IsDir(disk.fs, localDir)
      ensures verdicts.Keys == ChildNames(channel.fs, Locate(remoteDir))
      ensures allSuccess <==> forall n {:trigger n in verdicts} :: n in verdicts ==> verdicts[n]
      ensures forall n {:trigger n in verdicts} :: n in verdicts ==>
                verdicts[n] == FetchEntrySucceeds(channel.fs, channel.refuse, Locate(remoteDir), n, old(disk.fs),
                                                  disk.broken, localDir, config.integrityCheck)
      ensures forall n {:trigger n in verdicts} :: n in verdicts && verdicts[n] ==>
                Mirrors(channel.fs, Locate(remoteDir) + [n], disk.fs, localDir + [n])
    {
      var src := Locate(remoteDir);
      ghost var remote, refuse, start := channel.fs, channel.refuse, disk.fs;
      ghost var broken, integrityCheck := disk.broken, config.integrityCheck;
      allSuccess := true;
      verdicts := map[];
      for i := 0 to |entries|
        invariant channel.Valid() && disk.Valid()
        invariant channel.fs == remote && channel.connected == old(channel.connected)
        invariant IsDir(disk.fs, localDir)
        invariant verdicts.Keys == NamesOf(entries[..i]) - Dots
        invariant allSuccess <==> forall n {:trigger n in verdicts} :: n in verdicts ==> verdicts[n]
        invariant FetchedSoFar(remote, refuse, src, start, disk.fs, broken, localDir, integrityCheck, verdicts)
      {
        var entry := entries[i];
        RemoteListedChild(remote, src, entries, i);
        if entry.name == "." || entry.name == ".." {
          continue;
        }
        var copied := FetchListedEntry(channel, remoteDir, localDir, entry, start, verdicts);
        allSuccess := allSuccess && copied;
        verdicts := verdicts[entry.name := copied];
      }
      assert entries[..|entries|] == entries;
      RemoteListingNames(remote, src, entries);
      SameOutsideEntriesOutside(start, disk.fs, localDir, verdicts.Keys);
    }

    /** One turn of `copyDirectoryFrom`'s loop on an entry other than "."
        and "..": the entry is copied, and the record of the walk so far
        takes in the entry's verdict. */
    method FetchListedEntry(channel: Channel, remoteDir: string, localDir: Path, entry: Entry,
                            ghost start: Tree, ghost verdicts: map<string, bool>) returns (copied: bool)
      requires channel.Valid() && disk.Valid() && ValidPath(localDir) && IsDir(disk.fs, localDir)
      requires ValidName(entry.name) && Locate(remoteDir) + [entry.name] in channel.fs
      requires entry.isDir == channel.fs[Locate(remoteDir) + [entry.name]].Dir?
      requires entry.name !in verdicts
      requires FetchedSoFar(channel.fs, channel.refuse, Locate(remoteDir), start, disk.fs, disk.broken, localDir,
                            config.integrityCheck, verdicts)
      modifies channel, disk
      decreases |Below(channel.fs, Locate(remoteDir))|, 1
      ensures channel.Valid() && disk.Valid() && IsDir(disk.fs, localDir)
      ensures channel.fs == old(channel.fs) && channel.connected == old(channel.connected)
      ensures FetchedSoFar(channel.fs, channel.refuse, Locate(remoteDir), start, disk.fs, disk.broken, localDir,
                           config.integrityCheck, verdicts[entry.name := copied])
    {
      copied := CopyEntryFrom(channel, remoteDir, localDir, entry);
      FetchedStep(channel.fs, channel.refuse, Locate(remoteDir), start, old(disk.fs), disk.fs, disk.broken, localDir,
                  config.integrityCheck, verdicts, entry.name, copied);
    }

    /** One entry of `copyDirectoryFrom`'s loop: a directory is copied
        recursively, anything else as a file. */
    method CopyEntryFrom(channel: Channel, remoteDir: string, localDir: Path, entry: Entry) returns (ok: bool)
      requires channel.Valid() && disk.Valid() && ValidPath(localDir) && IsDir(disk.fs, localDir)
      requires ValidName(entry.name) && Locate(remoteDir) + [entry.name] in channel.fs
      requires entry.isDir == channel.fs[Locate(remoteDir) + [entry.name]].Dir?
      modifies channel, disk
      decreases |Below(channel.fs, Locate(remoteDir))|, 0
      ensures channel.Valid() && disk.Valid()
      ensures channel.fs == old(channel.fs) && channel.connected == old(channel.connected)
      ensures SameOutside(old(disk.fs), disk.fs, localDir + [entry.name])
      ensures ok == FetchEntrySucceeds(channel.fs, channel.refuse, Locate(remoteDir), entry.name, old(disk.fs),
                                       disk.broken, localDir, config.integrityCheck)
      ensures ok ==> Mirrors(channel.fs, Locate(remoteDir) + [entry.name], disk.fs, localDir + [entry.name])
    {
      var remotePath := ChildRemotePath(remoteDir, entry.name);
      var localPath := localDir + [entry.name];
      BelowShrinks(channel.fs, Locate(remoteDir), entry.name);
      if entry.isDir {
        ghost var inner;
        ok, inner := CopyDirectoryFrom(channel, remotePath, localPath);
      } else {
        ok := CopyFileFrom(channel, remotePath, localPath);
        if ok {
          MirrorsFile(channel.fs, Locate(remotePath), disk.fs, localPath);
        }
      }
      ChangedWithinChild(old(disk.fs), disk.fs, localDir, entry.name);
    }

    /** `copyDirectoryTo(channel, localDir, remoteDir)`: create the remote
        directory with `mkdirs`, list the local one and upload every entry,
        carrying on after a failed entry. `verdicts` holds each entry's
        result once the listing was read; each is the entry's own verdict
        on the tree as `mkdirs` left it. The copy is only promised on a
        faithful server, one that stores what it is sent and whose
        SSH_FX_FAILURE to `mkdir` means something is there, and only when
        the server had no file where the source has a directory. */
    method CopyDirectoryTo(channel: Channel, localDir: Path, remoteDir: string)
      returns (ok: bool, ghost verdicts: Option<map<string, bool>>)
      requires channel.Valid() && disk.Valid()
      modifies channel
      decreases |Below(disk.fs, localDir)|, 3
      ensures channel.Valid() && channel.connected == old(channel.connected)
      ensures old(channel.fs).Keys <= channel.fs.Keys
      ensures DirsAddedOutside(old(channel.fs), channel.fs, Locate(remoteDir))
      ensures ParentsSettled(old(channel.fs), channel.refuse, Components(remoteDir)) ==>
                SameOutside(old(channel.fs), channel.fs, Locate(remoteDir))
      ensures verdicts.Some? <==>
                && Outcome(old(channel.fs), channel.refuse, remoteDir).thrown.None?
                && (LocalDisk.ListOp, localDir) !in disk.broken && IsDir(disk.fs, localDir)
      ensures verdicts.None? ==> !ok
      ensures verdicts.Some? ==>
                && verdicts.value.Keys == ChildNames(disk.fs, localDir)
                && (ok <==> forall n {:trigger n in verdicts.value} :: n in verdicts.value ==> verdicts.value[n])
                && (forall n {:trigger n in verdicts.value} :: n in verdicts.value ==>
                      verdicts.value[n] == PushEntrySucceeds(disk.fs, disk.broken, localDir, n,
                                                             Outcome(old(channel.fs), channel.refuse, remoteDir).tree,
                                                             channel.refuse, Locate(remoteDir), config.integrityCheck))
                && (channel.Faithful() && NoFileForDir(disk.fs, localDir, old(channel.fs), Locate(remoteDir)) ==>
                      forall n {:trigger n in verdicts.value} :: n in verdicts.value && verdicts.value[n] ==>
                        Mirrors(disk.fs, localDir + [n], channel.fs, Locate(remoteDir) + [n]))
      ensures ok == PushDirSucceeds(disk.fs, disk.broken, localDir, old(channel.fs), channel.refuse, remoteDir,
                                    config.integrityCheck)
      ensures ok && channel.Faithful() && NoFileForDir(disk.fs, localDir, old(channel.fs), Locate(remoteDir)) ==>
                Mirrors(disk.fs, localDir, channel.fs, Locate(remoteDir))
    {
      var thrown := Mkdirs(channel, remoteDir);
      MkdirsEffect(old(channel.fs), channel.refuse, remoteDir);
      if thrown.Some? {
        return false, None;
      }
      ghost var made := channel.fs;
      ghost var clear := channel.Faithful() && NoFileForDir(disk.fs, localDir, old(channel.fs), Locate(remoteDir));
      if clear {
        SettledTargetIsDir(disk.fs, localDir, old(channel.fs), made, channel.refuse, remoteDir);
      }
      var files := disk.ListFiles(localDir);
      if files.None? {
        return false, None;
      }
      ghost var each;
      ok, each := CopyEntriesTo(channel, localDir, remoteDir, files.value);
      verdicts := Some(each);
      assert SameOutside(made, channel.fs, Locate(remoteDir));
      if ParentsSettled(old(channel.fs), channel.refuse, Components(remoteDir)) {
        SameOutsideTrans(old(channel.fs), made, channel.fs, Locate(remoteDir));
      }
      if ok && clear {
        MirrorsFromChildren(disk.fs, localDir, channel.fs, Locate(remoteDir));
      }
    }

    /** The loop of `copyDirectoryTo` over the local listing. */
    method CopyEntriesTo(channel: Channel, localDir: Path, remoteDir: string, files: seq<Entry>)
      returns (allSuccess: bool, ghost verdicts: map<string, bool>)
      requires channel.Valid() && disk.Valid()
      requires IsListing(disk.fs, localDir, files)
      requires AllSettled(channel.fs, channel.refuse, Components(remoteDir))
      modifies channel
      decreases |Below(disk.fs, localDir)|, 2
      ensures channel.Valid() && channel.connected == old(channel.connected)
      ensures old(channel.fs).Keys <= channel.fs.Keys
      ensures SameOutside(old(channel.fs), channel.fs, Locate(remoteDir))
      ensures AllSettled(channel.fs, channel.refuse, Components(remoteDir))
      ensures verdicts.Keys == ChildNames(disk.fs, localDir)
      ensures allSuccess <==> forall n {:trigger n in verdicts} :: n in verdicts ==> verdicts[n]
      ensures forall n {:trigger n in verdicts} :: n in verdicts ==>
                verdicts[n] == PushEntrySucceeds(disk.fs, disk.broken, localDir, n, old(channel.fs), channel.refuse,
                                                 Locate(remoteDir), config.integrityCheck)
      ensures channel.Faithful() && NoFileForDir(disk.fs, localDir, old(channel.fs), Locate(remoteDir)) ==>
                forall n {:trigger n in verdicts} :: n in verdicts && verdicts[n] ==>
                  Mirrors(disk.fs, localDir + [n], channel.fs, Locate(remoteDir) + [n])
      ensures IsDir(old(channel.fs), Locate(remoteDir)) ==> IsDir(channel.fs, Locate(remoteDir))
    {
      var dst := Locate(remoteDir);
      ghost var cs, refuse, honest := Components(remoteDir), channel.refuse, channel.Faithful();
      ghost var faithful := honest && NoFileForDir(disk.fs, localDir, channel.fs, dst);
      ghost var broken, integrityCheck := disk.broken, config.integrityCheck;
      allSuccess := true;
      verdicts := map[];
      ghost var start := channel.fs;
      for i := 0 to |files|
        invariant channel.Valid() && channel.connected == old(channel.connected)
        invariant verdicts.Keys == NamesOf(files[..i])
        invariant allSuccess <==> forall n {:trigger n in verdicts} :: n in verdicts ==> verdicts[n]
        invariant PushedSoFar(disk.fs, broken, localDir, start, channel.fs, refuse, remoteDir, integrityCheck, faithful, verdicts)
      {
        var file := files[i];
        ListedChild(disk.fs, localDir, files, i);
        var copied := PushListedEntry(channel, localDir, remoteDir, file, start, faithful, verdicts);
        allSuccess := allSuccess && copied;
        verdicts := verdicts[file.name := copied];
      }
      assert files[..|files|] == files;
      assert IsDir(start, dst) ==> IsDir(channel.fs, dst);
      SameOutsideEntriesOutside(start, channel.fs, dst, verdicts.Keys);
    }

    /** One turn of `copyDirectoryTo`'s loop: the entry is uploaded, and
        the record of the walk so far takes in the entry's verdict. */
    method PushListedEntry(channel: Channel, localDir: Path, remoteDir: string, file: Entry,
                           ghost start: Tree, ghost faithful: bool, ghost verdicts: map<string, bool>)
      returns (copied: bool)
      requires channel.Valid() && disk.Valid()
      requires ValidName(file.name) && localDir + [file.name] in disk.fs
      requires file.isDir == disk.fs[localDir + [file.name]].Dir?
      requires file.name !in verdicts
      requires faithful ==> channel.Faithful() && NoFileForDir(disk.fs, localDir, start, Locate(remoteDir))
      requires PushedSoFar(disk.fs, disk.broken, localDir, start, channel.fs, channel.refuse, remoteDir,
                           config.integrityCheck, faithful, verdicts)
      modifies channel
      decreases |Below(disk.fs, localDir)|, 1
      ensures channel.Valid() && channel.connected == old(channel.connected)
      ensures PushedSoFar(disk.fs, disk.broken, localDir, start, channel.fs, channel.refuse, remoteDir,
                          config.integrityCheck, faithful, verdicts[file.name := copied])
    {
      if faithful {
        NoFileForDirChild(disk.fs, localDir, start, channel.fs, Locate(remoteDir), verdicts.Keys, file.name);
      }
      copied := CopyEntryTo(channel, localDir, remoteDir, file);
      PushedStep(disk.fs, disk.broken, localDir, start, old(channel.fs), channel.fs, channel.refuse, remoteDir,
                 config.integrityCheck, faithful, verdicts, file.name, copied);
    }

    /** One entry of `copyDirectoryTo`'s loop: a directory is uploaded
        recursively, anything else as a file. */
    method CopyEntryTo(channel: Channel, localDir: Path, remoteDir: string, file: Entry) returns (ok: bool)
      requires channel.Valid() && disk.Valid()
      requires ValidName(file.name) && localDir + [file.name] in disk.fs
      requires file.isDir == disk.fs[localDir + [file.name]].Dir?
      requires AllSettled(channel.fs, channel.refuse, Components(remoteDir))
      modifies channel
      decreases |Below(disk.fs, localDir)|, 0
      ensures channel.Valid() && channel.connected == old(channel.connected)
      ensures old(channel.fs).Keys <= channel.fs.Keys
      ensures SameOutside(old(channel.fs), channel.fs, Locate(remoteDir) + [file.name])
      ensures ok == PushEntrySucceeds(disk.fs, disk.broken, localDir, file.name, old(channel.fs), channel.refuse,
                                      Locate(remoteDir), config.integrityCheck)
      ensures ok && channel.Faithful() &&
              NoFileForDir(disk.fs, localDir + [file.name], old(channel.fs), Locate(remoteDir) + [file.name]) ==>
                Mirrors(disk.fs, localDir + [file.name], channel.fs, Locate(remoteDir) + [file.name])
    {
      var remotePath := ChildRemotePath(remoteDir, file.name);
      var localPath := localDir + [file.name];
      ChildParentsSettled(channel.fs, channel.refuse, Components(remoteDir), file.name);
      BelowShrinks(disk.fs, localDir, file.name);
      if file.isDir {
        ghost var inner;
        PushDirAsSubdir(disk.fs, disk.broken, localPath, channel.fs, channel.refuse, remotePath, config.integrityCheck);
        ok, inner := CopyDirectoryTo(channel, localPath, remotePath);
      } else {
        ok := CopyFileTo(channel, localPath, remotePath);
        if ok && channel.Faithful() {
          MirrorsFile(disk.fs, localPath, channel.fs, Locate(remotePath));
        }
      }
    }

    /** `deleteRemoteDirectory(channel, path)`: list the directory, remove
        each entry but "." and ".." (a directory recursively, with its
        result ignored; a file with `rm`, whose failure ends the whole
        call), then remove the directory itself. */
    method DeleteRemoteDirectory(channel: Channel, path: string) returns (ok: bool)
      requires channel.Valid()
      modifies channel
      decreases |Below(channel.fs, Locate(path))|, 2
      ensures channel.Valid() && channel.connected == old(channel.connected)
      ensures Pruned(old(channel.fs), channel.fs)
      ensures SameOutside(old(channel.fs), channel.fs, Locate(path))
      ensures (LsOp, Locate(path)) in channel.refuse || !IsDir(old(channel.fs), Locate(path)) ==>
                !ok && channel.fs == old(channel.fs)
      ensures ok ==> Gone(channel.fs, Locate(path))
      ensures RmRefusedIn(old(channel.fs), channel.refuse, Locate(path)) ==> !ok
      ensures channel.refuse == map[] && Locate(path) in old(channel.fs) && old(channel.fs)[Locate(path)].Dir? ==> ok
      ensures old(channel.trace) <= channel.trace
      ensures |channel.trace| > |old(channel.trace)| && channel.trace[|old(channel.trace)|] == Call(LsOp, path)
      ensures ok ==> channel.trace[|channel.trace| - 1] == Call(RmdirOp, path)
    {
      var p := Locate(path);
      var listed := channel.Ls(path);
      if listed.Err? {
        return false;
      }
      ghost var listing := channel.trace;
      var completed := DeleteEntries(channel, path, listed.value);
      TraceExtends(old(channel.trace), Call(LsOp, path), listing, channel.trace);
      if !completed {
        return false;
      }
      if channel.refuse == map[] && p in old(channel.fs) {
        EmptiedDir(old(channel.fs), channel.fs, p);
      }
      ghost var emptied := channel.fs;
      var status := channel.Rmdir(path);
      ok := status == SSH_FX_OK;
      if ok {
        RemovedDirGone(emptied, p);
      }
    }

    /** The loop of `deleteRemoteDirectory` over the listing. It stops at
        the first file `rm` refuses, leaving every later entry as it was,
        and completes exactly when `rm` refuses none. */
    method DeleteEntries(channel: Channel, path: string, entries: seq<Entry>) returns (completed: bool)
      requires channel.Valid() && RemoteListing(channel.fs, Locate(path), entries)
      modifies channel
      decreases |Below(channel.fs, Locate(path))|, 1
      ensures channel.Valid() && channel.connected == old(channel.connected)
      ensures Pruned(old(channel.fs), channel.fs)
      ensures SameOutsideEntries(old(channel.fs), channel.fs, Locate(path), ChildNames(old(channel.fs), Locate(path)))
      ensures completed <==> !RmRefusedIn(old(channel.fs), channel.refuse, Locate(path))
      ensures !completed ==> exists i {:trigger entries[i]} ::
                && 2 <= i < |entries| && !entries[i].isDir
                && RmStatus(old(channel.fs), channel.refuse, Locate(path) + [entries[i].name]) != SSH_FX_OK
                && AcceptedBefore(old(channel.fs), channel.refuse, Locate(path), entries, i)
                && SameOutsideEntries(old(channel.fs), channel.fs, Locate(path), NamesOf(entries[..i + 1]) - Dots)
      ensures channel.refuse == map[] ==>
                completed && forall n {:trigger n in ChildNames(old(channel.fs), Locate(path))} :: n in ChildNames(old(channel.fs), Locate(path)) ==> Gone(channel.fs, Locate(path) + [n])
      ensures old(channel.trace) <= channel.trace
    {
      var p := Locate(path);
      ghost var start, refuse, empty := channel.fs, channel.refuse, channel.refuse == map[];
      ghost var done: set<string> := {};
      for i := 0 to |entries|
        invariant channel.Valid() && channel.connected == old(channel.connected) && channel.refuse == refuse
        invariant Pruned(start, channel.fs)
        invariant done == NamesOf(entries[..i]) - Dots
        invariant SameOutsideEntries(start, channel.fs, p, done)
        invariant AcceptedBefore(start, refuse, p, entries, i)
        invariant empty ==> forall n {:trigger n in done} :: n in done ==> Gone(channel.fs, p + [n])
        invariant old(channel.trace) <= channel.trace
      {
        var entry := entries[i];
        RemoteListedChild(start, p, entries, i);
        if entry.name == "." || entry.name == ".." {
          continue;
        }
        UntouchedEntry(start, channel.fs, p, done, entry.name);
        ghost var before := channel.fs;
        completed := DeleteEntry(channel, path, entry);
        if completed {
          AcceptedStep(start, before, refuse, p, entries, i);
        }
        DeleteStep(start, before, channel.fs, p, done, entry.name, empty);
        done := done + {entry.name};
        if !completed {
          StoppedAt(start, channel.fs, refuse, p, entries, i, done);
          return false;
        }
      }
      assert entries[..|entries|] == entries;
      RemoteListingNames(start, p, entries);
      ListedFilesAccepted(start, refuse, p, entries);
      completed := true;
    }

    /** One entry of `deleteRemoteDirectory`'s loop. */
    method DeleteEntry(channel: Channel, path: string, entry: Entry) returns (completed: bool)
      requires channel.Valid() && ValidName(entry.name) && Locate(path) + [entry.name] in channel.fs
      requires entry.isDir == channel.fs[Locate(path) + [entry.name]].Dir?
      modifies channel
      decreases |Below(channel.fs, Locate(path))|, 0
      ensures channel.Valid() && channel.connected == old(channel.connected)
      ensures Pruned(old(channel.fs), channel.fs)
      ensures SameOutside(old(channel.fs), channel.fs, Locate(path) + [entry.name])
      ensures entry.isDir ==> completed
      ensures !entry.isDir ==> (completed <==> RmStatus(old(channel.fs), channel.refuse, Locate(path) + [entry.name]) == SSH_FX_OK)
      ensures channel.refuse == map[] ==> completed && Gone(channel.fs, Locate(path) + [entry.name])
      ensures old(channel.trace) <= channel.trace
    {
      var filepath := ChildRemotePath(path, entry.name);
      ghost var child := Locate(path) + [entry.name];
      assert Locate(filepath) == child;
      BelowShrinks(channel.fs, Locate(path), entry.name);
      if entry.isDir {
        var ignored := DeleteRemoteDirectory(channel, filepath);
        completed := true;
        assert SameOutside(old(channel.fs), channel.fs, child);
      } else {
        var status := channel.Rm(filepath);
        completed := status == SSH_FX_OK;
        RemoveOnlyThere(old(channel.fs), child);
        if completed {
          RemovedFileGone(old(channel.fs), child);
        }
      }
    }

    /** `deleteLocalDirectory(path)`: when the directory exists, delete
        what can be deleted at and inside it; report whether all of it went.
        The root exists and cannot be deleted, so for the root everything
        else goes and the answer is false. */
    method DeleteLocalDirectory(localPath: Path) returns (ok: bool)
      requires disk.Valid()
      modifies disk
      ensures disk.Valid()
      ensures ok == (Exists(old(disk.fs), localPath) && localPath != []
                     && !(localPath in old(disk.fs) && old(disk.fs)[localPath].File?)
                     && !LocalDisk.FailsBelow(old(disk.fs), disk.broken, localPath))
      ensures disk.fs == if Exists(old(disk.fs), localPath) && !(localPath in old(disk.fs) && old(disk.fs)[localPath].File?)
                         then LocalDisk.AfterDelete(old(disk.fs), disk.broken, localPath) else old(disk.fs)
      ensures ok ==> Gone(disk.fs, localPath)
      ensures (&& Exists(old(disk.fs), localPath)
               && !(localPath in old(disk.fs) && old(disk.fs)[localPath].File?)
               && !LocalDisk.FailsBelow(old(disk.fs), disk.broken, localPath)) ==> Gone(disk.fs, localPath)
      ensures Pruned(old(disk.fs), disk.fs) && SameOutside(old(disk.fs), disk.fs, localPath)
    {
      LocalDisk.AfterDeleteEffect(disk.fs, disk.broken, localPath);
      var present := disk.FileExists(localPath);
      if !present {
        return false;
      }
      ok := disk.DeleteDirectory(localPath);
    }

    /** `copyFromSftp(remoteDir)`: connect, mirror the remote directory
        under the remote base path into the same directory under the local
        base path, delete the remote source when that succeeded and the
        settings ask for it, and disconnect. The answer is the transfer's,
        whatever the deletion does. */
    method CopyFromSftp(remoteDir: string) returns (ok: bool, ghost verdicts: Option<map<string, bool>>)
      requires Valid()
      modifies server, disk
      ensures Valid()
      ensures !server.reachable ==> !ok && verdicts.None? && server.fs == old(server.fs) && disk.fs == old(disk.fs)
      ensures verdicts.None? ==> !ok
      ensures verdicts.Some? ==>
                && verdicts.value.Keys == ChildNames(old(server.fs), Locate(CombineRemotePaths(config.remoteBasePath, remoteDir)))
                && (ok <==> forall n {:trigger n in verdicts.value} :: n in verdicts.value ==> verdicts.value[n])
      ensures ok == (server.reachable &&
                     FetchDirSucceeds(old(server.fs), server.refuse, Locate(CombineRemotePaths(config.remoteBasePath, remoteDir)),
                                      old(disk.fs), disk.broken, LocalPath(config.localBasePath, remoteDir),
                                      config.integrityCheck))
      ensures server.reachable ==> !server.connected
      ensures var src, dst := Locate(CombineRemotePaths(config.remoteBasePath, remoteDir)),
                             LocalPath(config.localBasePath, remoteDir);
              && ChangedWithin(old(disk.fs), disk.fs, dst)
              && (ok ==> Mirrors(old(server.fs), src, disk.fs, dst))
              && Pruned(old(server.fs), server.fs) && SameOutside(old(server.fs), server.fs, src)
              && (!(ok && config.ShouldDeleteSource()) ==> server.fs == old(server.fs))
              && (ok && config.ShouldDeleteSource() && server.refuse == map[] && src != [] ==> Gone(server.fs, src))
    {
      var connected := server.Connect();
      if !connected {
        return false, None;
      }
      var remotePath := CombineRemotePaths(config.remoteBasePath, remoteDir);
      var localPath := LocalPath(config.localBasePath, remoteDir);
      ok, verdicts := CopyDirectoryFrom(server, remotePath, localPath);
      if ok && config.ShouldDeleteSource() {
        var deleted := DeleteRemoteDirectory(server, remotePath);
      }
      server.Disconnect();
    }

    /** `copyToSftp(localDir)`: connect, mirror the local directory under
        the local base path into the same directory under the remote base
        path, delete the local source when that succeeded and the settings
        ask for it, and disconnect. The answer is the transfer's, whatever
        the deletion does. */
    method CopyToSftp(localDir: string) returns (ok: bool, ghost verdicts: Option<map<string, bool>>)
      requires Valid()
      modifies server, disk
      ensures Valid()
      ensures !server.reachable ==> !ok && verdicts.None? && server.fs == old(server.fs) && disk.fs == old(disk.fs)
      ensures verdicts.None? ==> !ok
      ensures verdicts.Some? ==>
                && verdicts.value.Keys == ChildNames(old(disk.fs), LocalPath(config.localBasePath, localDir))
                && (ok <==> forall n {:trigger n in verdicts.value} :: n in verdicts.value ==> verdicts.value[n])
      ensures ok == (server.reachable &&
                     PushDirSucceeds(old(disk.fs), disk.broken, LocalPath(config.localBasePath, localDir),
                                     old(server.fs), server.refuse, CombineRemotePaths(config.remoteBasePath, localDir),
                                     config.integrityCheck))
      ensures server.reachable ==> !server.connected
      ensures var src, dst := LocalPath(config.localBasePath, localDir),
                             Locate(CombineRemotePaths(config.remoteBasePath, localDir));
              && old(server.fs).Keys <= server.fs.Keys && DirsAddedOutside(old(server.fs), server.fs, dst)
              && (ok && server.Faithful() && NoFileForDir(old(disk.fs), src, old(server.fs), dst) ==>
                    Mirrors(old(disk.fs), src, server.fs, dst))
              && Pruned(old(disk.fs), disk.fs) && SameOutside(old(disk.fs), disk.fs, src)
              && (!(ok && config.ShouldDeleteSource()) ==> disk.fs == old(disk.fs))
              && (ok && config.ShouldDeleteSource() ==> disk.fs == LocalDisk.AfterDelete(old(disk.fs), disk.broken, src))
              && (ok && config.ShouldDeleteSource() && !LocalDisk.FailsBelow(old(disk.fs), disk.broken, src) ==>
                    Gone(disk.fs, src))
    {
      var connected := server.Connect();
      if !connected {
        return false, None;
      }
      var localPath := LocalPath(config.localBasePath, localDir);
      var remotePath := CombineRemotePaths(config.remoteBasePath, localDir);
      ok, verdicts := CopyDirectoryTo(server, localPath, remotePath);
      if ok && config.ShouldDeleteSource() {
        var deleted := DeleteLocalDirectory(localPath);
      }
      server.Disconnect();
    }
  }
}

=== FILE: Verdicts.dfy ===
/** When the transfers answer true, as a function of the two trees and the
    injected faults at the moment a walk starts. A file's verdict is a
    condition on the file's own locations; a directory's verdict asks that
    its set-up succeeds and that every entry's verdict holds, each entry
    judged on the trees its siblings leave behind, which is the same as
    judging it on the trees the directory's set-up left. */
module Verdicts {
  import opened Common
  import opened RemotePaths
  import opened FileSystem
  import opened Digests
  import opened Sftp
  import opened RemoteMkdirs
  import LocalDisk

  /** The local calls a test harness makes fail, by location. */
  type Faults = set<(LocalDisk.Op, Path)>

  /** `copyFileFrom` finishes without an exception: the server hands over
      the file, the local file can be opened for writing, the digest setting
      names an algorithm, every write goes through (there is none for an
      empty file), and the file can be read back for its digest. */
  predicate DownloadSucceeds(remote: Tree, refuse: Refusals, src: Path,
                             local: Tree, broken: Faults, dst: Path,
                             integrityCheck: Option<string>)
  {
    && GetResult(remote, refuse, src).Ok?
    && dst != []
    && (LocalDisk.OpenWriteOp, dst) !in broken && !IsDir(local, dst) && LocalDisk.NoFileOnPath(local, dst[..|dst| - 1])
    && GetDigest(integrityCheck).Ok?
    && (GetResult(remote, refuse, src).value == [] || (LocalDisk.WriteOp, dst) !in broken)
    && (LocalDisk.ReadOp, dst) !in broken
  }

  /** `copyFileTo` finishes without an exception: the local file can be
      read, the server accepts the upload, the digest setting names an
      algorithm, and every write goes through (there is none for an empty
      file). What the server stores plays no part. */
  predicate UploadSucceeds(local: Tree, broken: Faults, src: Path,
                           remote: Tree, refuse: Refusals, dst: Path,
                           integrityCheck: Option<string>)
  {
    && (LocalDisk.ReadOp, src) !in broken && src in local && local[src].File?
    && PutStatus(remote, refuse, dst) == SSH_FX_OK
    && GetDigest(integrityCheck).Ok?
    && (local[src].data == [] || (WriteOp, dst) !in refuse)
  }

  // ---------------------------------------------------------------------
  // Download: `copyDirectoryFrom`.

  /** `copyDirectoryFrom` of the remote directory `s` into the local
      directory `d` returns true: `forceMkdir` and `ls` succeed, and then
      every entry's copy does. */
  ghost predicate FetchDirSucceeds(remote: Tree, refuse: Refusals, s: Path,
                                   local: Tree, broken: Faults, d: Path, integrityCheck: Option<string>)
    decreases |Below(remote, s)|, 1
  {
    && (LocalDisk.MkdirsOp, d) !in broken && LocalDisk.NoFileOnPath(local, d)
    && (LsOp, s) !in refuse && IsDir(remote, s)
    && forall n {:trigger n in ChildNames(remote, s)} :: n in ChildNames(remote, s) ==>
         FetchEntrySucceeds(remote, refuse, s, n, local + LocalDisk.MissingDirs(local, d), broken, d, integrityCheck)
  }

  /** The copy of entry `n` of the remote directory `s` into the local
      directory `d` returns true: recursively for a directory, as a file
      otherwise. */
  ghost predicate FetchEntrySucceeds(remote: Tree, refuse: Refusals, s: Path, n: string,
                                     local: Tree, broken: Faults, d: Path, integrityCheck: Option<string>)
    decreases |Below(remote, s)|, 0
  {
    if s + [n] in remote && remote[s + [n]].Dir? then
      BelowShrinks(remote, s, n);
      FetchDirSucceeds(remote, refuse, s + [n], local, broken, d + [n], integrityCheck)
    else
      DownloadSucceeds(remote, refuse, s + [n], local, broken, d + [n], integrityCheck)
  }

  // ---------------------------------------------------------------------
  // Upload: `copyDirectoryTo`.

  /** `copyDirectoryTo` of the local directory `s` to the remote path
      `remoteDir` returns true: `mkdirs` returns, `listFiles` is not null,
      and then every entry's upload succeeds on the tree `mkdirs` left. */
  ghost predicate PushDirSucceeds(local: Tree, broken: Faults, s: Path,
                                  remote: Tree, refuse: Refusals, remoteDir: string, integrityCheck: Option<string>)
  {
    var o := Outcome(remote, refuse, remoteDir);
    && o.thrown.None?
    && (LocalDisk.ListOp, s) !in broken && IsDir(local, s)
    && forall n {:trigger n in ChildNames(local, s)} :: n in ChildNames(local, s) ==>
         PushEntrySucceeds(local, broken, s, n, o.tree, refuse, Locate(remoteDir), integrityCheck)
  }

  /** The same for a subdirectory, whose parent's prefixes all answer
      SSH_FX_FAILURE already: `mkdirs` then comes down to one `mkdir` of
      the location `d` itself. */
  ghost predicate PushSubdirSucceeds(local: Tree, broken: Faults, s: Path,
                                     remote: Tree, refuse: Refusals, d: Path, integrityCheck: Option<string>)
    decreases |Below(local, s)|, 1
  {
    var status := MkdirStatus(remote, refuse, d);
    && (status == SSH_FX_OK || status == SSH_FX_FAILURE)
    && (LocalDisk.ListOp, s) !in broken && IsDir(local, s)
    && forall n {:trigger n in ChildNames(local, s)} :: n in ChildNames(local, s) ==>
         PushEntrySucceeds(local, broken, s, n, MkdirTree(remote, refuse, d), refuse, d, integrityCheck)
  }

  /** The upload of entry `n` of the local directory `s` into the remote
      location `d` returns true: recursively for a directory, as a file
      otherwise. */
  ghost predicate PushEntrySucceeds(local: Tree, broken: Faults, s: Path, n: string,
                                    remote: Tree, refuse: Refusals, d: Path, integrityCheck: Option<string>)
    decreases |Below(local, s)|, 0
  {
    if s + [n] in local && local[s + [n]].Dir? then
      BelowShrinks(local, s, n);
      PushSubdirSucceeds(local, broken, s + [n], remote, refuse, d + [n], integrityCheck)
    else
      UploadSucceeds(local, broken, s + [n], remote, refuse, d + [n], integrityCheck)
  }

  /** Below a settled parent, the upload of a directory is that of a
      subdirectory. */
  lemma PushDirAsSubdir(local: Tree, broken: Faults, s: Path, remote: Tree, refuse: Refusals,
                        path: string, integrityCheck: Option<string>)
    requires Components(path) != [] && ParentsSettled(remote, refuse, Components(path))
    ensures PushDirSucceeds(local, broken, s, remote, refuse, path, integrityCheck)
         == PushSubdirSucceeds(local, broken, s, remote, refuse, Locate(path), integrityCheck)
  {
    RunTouchesOnlyLast(remote, refuse, Components(path));
  }

  /** An empty local directory uploaded where the server has a file: its
      `mkdir` answers SSH_FX_FAILURE, which `mkdirs` takes for "already
      there", and with nothing inside to upload the entry answers true
      while the server keeps the file, even on a server that refuses
      nothing. */
  lemma EmptyDirOntoFile()
    ensures var local := map[["src"] := Dir, ["src", "e"] := Dir];
            var remote := map[["dst"] := Dir, ["dst", "e"] := File([])];
            && PushEntrySucceeds(local, {}, ["src"], "e", remote, map[], ["dst"], Some("MD5"))
            && MkdirTree(remote, map[], ["dst", "e"]) == remote
            && !Mirrors(local, ["src", "e"], remote, ["dst", "e"])
  {
    var local := map[["src"] := Dir, ["src", "e"] := Dir];
    var remote := map[["dst"] := Dir, ["dst", "e"] := File([])];
    assert ["src"] + ["e"] == ["src", "e"] && ["dst"] + ["e"] == ["dst", "e"];
    assert ChildNames(local, ["src", "e"]) == {};
    assert ["src", "e"] + [] == ["src", "e"] && ["dst", "e"] + [] == ["dst", "e"];
  }

  // ---------------------------------------------------------------------
  // Verdicts depend only on the entry's own locations and the way down.

  /** `a` and `b` agree at `p`, inside it and on the way down to it. */
  ghost predicate AgreeAround(a: Tree, b: Tree, p: Path) {
    forall k :: HasPrefix(k, p) || HasPrefix(p, k) ==> (k in a <==> k in b) && (k in a ==> a[k] == b[k])
  }

  lemma AgreeAroundChild(a: Tree, b: Tree, p: Path, n: string)
    requires AgreeAround(a, b, p)
    ensures AgreeAround(a, b, p + [n])
  {
    forall k | HasPrefix(k, p + [n]) || HasPrefix(p + [n], k)
      ensures HasPrefix(k, p) || HasPrefix(p, k)
    {
      if HasPrefix(k, p + [n]) {
        assert k[..|p|] == (p + [n])[..|p|];
      } else if |k| <= |p| {
        assert p[..|k|] == (p + [n])[..|k|];
      }
    }
  }

  /** Only the entries named in `names` changed, so every other entry sees
      the same trees. */
  lemma SiblingsAgree(a: Tree, b: Tree, d: Path, names: set<string>, n: string)
    requires SameOutsideEntries(a, b, d, names) && n !in names
    ensures AgreeAround(a, b, d + [n])
  {
    forall k | HasPrefix(k, d + [n]) || HasPrefix(d + [n], k)
      ensures !(|k| > |d| && k[..|d|] == d && k[|d|] in names)
    {
      if |k| > |d| && k[..|d|] == d {
        if HasPrefix(k, d + [n]) {
          assert k[|d|] == (d + [n])[|d|];
        }
      }
    }
  }

  lemma NoFileOnPathAgree(a: Tree, b: Tree, p: Path)
    requires AgreeAround(a, b, p)
    ensures LocalDisk.NoFileOnPath(a, p) == LocalDisk.NoFileOnPath(b, p)
  {
    forall i | 0 < i <= |p| ensures HasPrefix(p, p[..i]) { }
  }

  /** `mkdirs` on both trees keeps them in agreement. */
  lemma MissingDirsAgree(a: Tree, b: Tree, d: Path)
    requires AgreeAround(a, b, d)
    ensures AgreeAround(a + LocalDisk.MissingDirs(a, d), b + LocalDisk.MissingDirs(b, d), d)
  {
    var ma, mb := LocalDisk.MissingDirs(a, d), LocalDisk.MissingDirs(b, d);
    forall k | HasPrefix(k, d) || HasPrefix(d, k) ensures (k in ma <==> k in mb) {
    }
  }

  lemma {:induction false} FetchDirLocal(remote: Tree, refuse: Refusals, s: Path, a: Tree, b: Tree,
                                         broken: Faults, d: Path, integrityCheck: Option<string>)
    requires AgreeAround(a, b, d)
    ensures FetchDirSucceeds(remote, refuse, s, a, broken, d, integrityCheck)
         == FetchDirSucceeds(remote, refuse, s, b, broken, d, integrityCheck)
    decreases |Below(remote, s)|, 1
  {
    NoFileOnPathAgree(a, b, d);
    var a', b' := a + LocalDisk.MissingDirs(a, d), b + LocalDisk.MissingDirs(b, d);
    MissingDirsAgree(a, b, d);
    forall n | n in ChildNames(remote, s)
      ensures FetchEntrySucceeds(remote, refuse, s, n, a', broken, d, integrityCheck)
           == FetchEntrySucceeds(remote, refuse, s, n, b', broken, d, integrityCheck)
    {
      AgreeAroundChild(a', b', d, n);
      FetchEntryLocal(remote, refuse, s, n, a', b', broken, d, integrityCheck);
    }
  }

  /** An entry's download verdict depends only on the local tree at the
      entry, inside it and on the way down to it. */
  lemma {:induction false} FetchEntryLocal(remote: Tree, refuse: Refusals, s: Path, n: string, a: Tree, b: Tree,
                                           broken: Faults, d: Path, integrityCheck: Option<string>)
    requires AgreeAround(a, b, d + [n])
    ensures FetchEntrySucceeds(remote, refuse, s, n, a, broken, d, integrityCheck)
         == FetchEntrySucceeds(remote, refuse, s, n, b, broken, d, integrityCheck)
    decreases |Below(remote, s)|, 0
  {
    if s + [n] in remote && remote[s + [n]].Dir? {
      BelowShrinks(remote, s, n);
      FetchDirLocal(remote, refuse, s + [n], a, b, broken, d + [n], integrityCheck);
    } else {
      var c := d + [n];
      assert c[..|c| - 1] == d;
      assert HasPrefix(c, c) && HasPrefix(c, d);
      forall i | 0 < i <= |d| ensures HasPrefix(c, d[..i]) {
        assert c[..i] == d[..i];
      }
    }
  }

  /** Both trees answer the same `mkdir` of `d`, and keep agreeing after it. */
  lemma MkdirAgree(a: Tree, b: Tree, refuse: Refusals, d: Path)
    requires d != [] && AgreeAround(a, b, d)
    ensures MkdirStatus(a, refuse, d) == MkdirStatus(b, refuse, d)
    ensures AgreeAround(MkdirTree(a, refuse, d), MkdirTree(b, refuse, d), d)
  {
    assert HasPrefix(d, d) && HasPrefix(d, d[..|d| - 1]);
  }

  lemma {:induction false} PushSubdirLocal(local: Tree, broken: Faults, s: Path, a: Tree, b: Tree,
                                           refuse: Refusals, d: Path, integrityCheck: Option<string>)
    requires d != [] && AgreeAround(a, b, d)
    ensures PushSubdirSucceeds(local, broken, s, a, refuse, d, integrityCheck)
         == PushSubdirSucceeds(local, broken, s, b, refuse, d, integrityCheck)
    decreases |Below(local, s)|, 1
  {
    MkdirAgree(a, b, refuse, d);
    var a', b' := MkdirTree(a, refuse, d), MkdirTree(b, refuse, d);
    forall n | n in ChildNames(local, s)
      ensures PushEntrySucceeds(local, broken, s, n, a', refuse, d, integrityCheck)
           == PushEntrySucceeds(local, broken, s, n, b', refuse, d, integrityCheck)
    {
      AgreeAroundChild(a', b', d, n);
      PushEntryLocal(local, broken, s, n, a', b', refuse, d, integrityCheck);
    }
  }

  /** An entry's upload verdict depends only on the remote tree at the
      entry's target, inside it and on the way down to it. */
  lemma {:induction false} PushEntryLocal(local: Tree, broken: Faults, s: Path, n: string, a: Tree, b: Tree,
                                          refuse: Refusals, d: Path, integrityCheck: Option<string>)
    requires AgreeAround(a, b, d + [n])
    ensures PushEntrySucceeds(local, broken, s, n, a, refuse, d, integrityCheck)
         == PushEntrySucceeds(local, broken, s, n, b, refuse, d, integrityCheck)
    decreases |Below(local, s)|, 0
  {
    if s + [n] in local && local[s + [n]].Dir? {
      BelowShrinks(local, s, n);
      PushSubdirLocal(local, broken, s + [n], a, b, refuse, d + [n], integrityCheck);
    } else {
      var c := d + [n];
      assert c[..|c| - 1] == d;
      assert HasPrefix(c, c) && HasPrefix(c, d);
    }
  }

  // ---------------------------------------------------------------------
  // Without faults the walks succeed.

  /** Nothing strictly inside `d`, and no file on the way down to it: after
      `mkdirs` of `d`, each of its entries is in the same state. */
  lemma FreshChild(local: Tree, d: Path, n: string)
    requires LocalDisk.NoFileOnPath(local, d) && Below(local, d) == {}
    ensures var u := local + LocalDisk.MissingDirs(local, d);
            && LocalDisk.NoFileOnPath(u, d) && d + [n] !in u
            && LocalDisk.NoFileOnPath(u, d + [n]) && Below(u, d + [n]) == {}
  {
    var m := LocalDisk.MissingDirs(local, d);
    var u := local + m;
    var c := d + [n];
    forall k | k in m ensures |k| <= |d| && HasPrefix(d, k) {
      var i :| 0 < i <= |d| && k == d[..i];
    }
    assert c[..|d|] == d;
    assert c in Below(local, d) <==> c in local;
    forall i | 0 < i <= |c| ensures !(c[..i] in u && u[c[..i]].File?) {
      if i <= |d| {
        assert c[..i] == d[..i];
      } else {
        assert c[..i] == c;
      }
    }
    forall k | k in u ensures !(|k| > |c| && k[..|c|] == c) {
      if k in local && |k| > |c| {
        assert k[..|d|] == k[..|c|][..|d|];
        assert k in Below(local, d) <==> k[..|d|] == d;
      }
    }
  }

  /** From a server that refuses nothing, into a local directory with
      nothing inside it and no file on the way down, with no local fault
      and a supported algorithm, the download of a directory succeeds. */
  lemma {:induction false} FetchDirFaultFree(remote: Tree, s: Path, local: Tree, d: Path, integrityCheck: Option<string>)
    requires IsDir(remote, s)
    requires LocalDisk.NoFileOnPath(local, d) && Below(local, d) == {}
    requires GetDigest(integrityCheck).Ok?
    ensures FetchDirSucceeds(remote, map[], s, local, {}, d, integrityCheck)
    decreases |Below(remote, s)|
  {
    var u := local + LocalDisk.MissingDirs(local, d);
    forall n | n in ChildNames(remote, s)
      ensures FetchEntrySucceeds(remote, map[], s, n, u, {}, d, integrityCheck)
    {
      ChildNamesIn(remote, s, n);
      FreshChild(local, d, n);
      if remote[s + [n]].Dir? {
        BelowShrinks(remote, s, n);
        FetchDirFaultFree(remote, s + [n], u, d + [n], integrityCheck);
      } else {
        assert (d + [n])[..|d + [n]| - 1] == d;
      }
    }
  }

  /** To a server that refuses nothing, where the target's parent is a
      directory and nothing is at or inside the target, with no local fault
      and a supported algorithm, the upload of a subdirectory succeeds. */
  lemma {:induction false} PushSubdirFaultFree(local: Tree, s: Path, remote: Tree, d: Path, integrityCheck: Option<string>)
    requires d != [] && IsDir(remote, d[..|d| - 1]) && Gone(remote, d)
    requires IsDir(local, s) && GetDigest(integrityCheck).Ok?
    ensures PushSubdirSucceeds(local, {}, s, remote, map[], d, integrityCheck)
    decreases |Below(local, s)|, 1
  {
    assert HasPrefix(d, d);
    assert MkdirStatus(remote, map[], d) == SSH_FX_OK;
    var u := remote[d := Dir];
    forall n | n in ChildNames(local, s)
      ensures PushEntrySucceeds(local, {}, s, n, u, map[], d, integrityCheck)
    {
      forall k | k in u ensures !HasPrefix(k, d + [n]) {
      }
      PushEntryFaultFree(local, s, n, u, d, integrityCheck);
    }
  }

  lemma {:induction false} PushEntryFaultFree(local: Tree, s: Path, n: string, remote: Tree, d: Path,
                                              integrityCheck: Option<string>)
    requires n in ChildNames(local, s)
    requires IsDir(remote, d) && Gone(remote, d + [n]) && GetDigest(integrityCheck).Ok?
    ensures PushEntrySucceeds(local, {}, s, n, remote, map[], d, integrityCheck)
    decreases |Below(local, s)|, 0
  {
    ChildNamesIn(local, s, n);
    var c := d + [n];
    assert c[..|c| - 1] == d && HasPrefix(c, c);
    if local[s + [n]].Dir? {
      BelowShrinks(local, s, n);
      PushSubdirFaultFree(local, s + [n], remote, c, integrityCheck);
    }
  }

  /** To a server that refuses nothing, a target whose parents answer
      SSH_FX_FAILURE to `mkdir`, whose parent is a directory and with
      nothing at or inside it: the upload of a directory succeeds. */
  lemma PushDirFaultFree(local: Tree, s: Path, remote: Tree, path: string, integrityCheck: Option<string>)
    requires Components(path) != [] && ParentsSettled(remote, map[], Components(path))
    requires Locate(path) != [] && IsDir(remote, Locate(path)[..|Locate(path)| - 1]) && Gone(remote, Locate(path))
    requires IsDir(local, s) && GetDigest(integrityCheck).Ok?
    ensures PushDirSucceeds(local, {}, s, remote, map[], path, integrityCheck)
  {
    PushDirAsSubdir(local, {}, s, remote, map[], path, integrityCheck);
    PushSubdirFaultFree(local, s, remote, Locate(path), integrityCheck);
  }
}
